=== FILE: README.md ===
# break — a verified model of the core

`break` is a Solana load demonstration. A browser game lets players fire
transactions. Each transaction flips one bit of a program account, and the
client follows every transaction through confirmation, rooting or timeout. A
server keeps supplies of fee-payer and program accounts for the players. It
follows the cluster's leaders and forwards transactions straight to their
TPU ports. The repository also carries an example Clockwork thread for Orca
whirlpools: a dollar-cost-averaging (DCA) program. Its tick-array resolver
finds the three tick arrays the next swap crosses, and a small client sets
up and tears down the DCA account and its thread.

This project states that behaviour in Dafny 4.11 and proves properties of
it. There is one module per source file of the core, plus five shared ones:

| module | models |
|---|---|
| `Wrappers` | `Option` (an absent value) and `Result` (a panic, a thrown error or an `Err`) |
| `IntMath` | 32-bit integer ranges and Rust's truncating `/` and `%` |
| `Decimal` | the decimal text of an integer (`to_string`, template literals), and JavaScript's default string order |
| `Window` | the "push, then drop the oldest beyond a cap" buffers used throughout |
| `Addresses` | public keys, with derived addresses as their derivation inputs, and the program ids |
| `TickArrays` | the whirlpool tick-array helpers: floor division, start tick index, PDA of a tick array, the three-array window |
| `Instructions` | instructions as lists of named account metas |
| `DcaThread` | the `get_tick_arrays` thread instruction, with its account constraint and its self-continuation |
| `DcaClient` | the DCA client: the create and delete flows and the instructions they submit |
| `BitFlip` | the on-chain bit-flip program's `process_instruction` |
| `IdBytes` | the client's id codec: program data to ids, id to instruction data, XOR of snapshots |
| `TxStatus` | the client's transaction-status reducer and the counts derived from it |
| `TpsWindow` | the client's transactions-per-second sampler |
| `SlotTiming` | the client's slot-timing tracker |
| `FeeAccounts` | the client's fee-account provider: lock and status machine, sizing, costs, create and close instructions |
| `ServerSelect` | server choice from the query string, server names and URLs |
| `HttpConfig` | the server HTTP config reducer and the cluster query parameter |
| `ApiConfig` | the API config reducer and the account-refresh protocol |
| `TxReducer` | the newer client transaction reducer and its completion counters |
| `LegacyTxReducer` | the older transaction reducer: id naming, average time, rate scaling |
| `GameReducer` | the game-statistics reducer |
| `LeaderTracker` | the server's recent-slot window and its current-slot estimate |
| `LeaderSchedule` | the server's leader-schedule cache and its refresh rule |
| `TpuProxy` | the server's leader scan, TPU socket bookkeeping and the send path |
| `AccountSupply` | one account supply: expiry filter, reserve, unreserve, pop, replenish |
| `Supply` | the paired fee and program supplies: cost, creation, reservation, pop |

Several things are modelled as parameters, because they come from the
outside world:

- Network answers are inputs: an RPC result, a fetched leader list, HTTP
  responses, account creation attempts.
- Clocks are inputs: `now`, `expiresAt`, timestamps.
- Rent and lamports per signature are inputs.
- Program-derived addresses, associated token accounts and Anchor sighashes
  are the constructors of a `Pubkey` datatype. They are therefore
  deterministic and collision-free.

Integer widths matter in the Rust code. There, `i32` arithmetic overflow is
a panic outcome of the model, as Rust's checked arithmetic would report it.

## Model

| member | source | states |
|---|---|---|
| `TickArrays.CheckI32` | examples/orca_whirlpool_dca/crates/whirlpool/src/utils.rs:29-31 | an `i32` computation succeeds exactly when its value is representable, and then yields that value |
| `TickArrays.DivFloor` | examples/orca_whirlpool_dca/crates/whirlpool/src/utils.rs:54-60 | division by zero panics; for a positive divisor the result q satisfies q·b ≤ a < q·b + b, the floor of a/b |
| `TickArrays.FloorUnique` | examples/orca_whirlpool_dca/crates/whirlpool/src/utils.rs:54-60 | an integer bracketing a between q·b and q·b + b is Dafny's floor quotient, so the floor is unique |
| `TickArrays.DivFloorIsFloor` | examples/orca_whirlpool_dca/crates/whirlpool/src/utils.rs:54-60 | for any `i32` operands with a positive divisor, the truncating-division-then-correct recipe equals mathematical floor division |
| `TickArrays.DivFloorExamples` | examples/orca_whirlpool_dca/crates/whirlpool/src/utils.rs:55-56 | negative non-multiples round down (-1/88 is -1, -89/88 is -2, -5/3 is -2) and 0/88 is 0 |
| `TickArrays.TicksInArray` | examples/orca_whirlpool_dca/crates/whirlpool/src/utils.rs:29 | an array spans 88 × spacing ticks; this fits in `i32`, and is zero only for spacing zero |
| `TickArrays.StartTickIndex` | examples/orca_whirlpool_dca/crates/whirlpool/src/utils.rs:28-36 | a zero spacing panics; an accepted start is the floor-aligned window start shifted by the offset, is a multiple of the array width, and the whole array lies in [MIN_TICK_INDEX, MAX_TICK_INDEX] |
| `TickArrays.CheckedStart` | examples/orca_whirlpool_dca/crates/whirlpool/src/utils.rs:31-34 | an accepted start is aligned and inside the tick domain; a rejection is an overflow or one of the two asserts; when no overflow occurs, acceptance is exactly the two asserted bounds |
| `TickArrays.StartTickIndexInDomain` | examples/orca_whirlpool_dca/crates/whirlpool/src/utils.rs:28-36 | for a tick in the domain and an offset in [-2, 2], no arithmetic overflows, so success is decided by the two domain asserts alone |
| `TickArrays.CurrentArrayHoldsTick` | examples/orca_whirlpool_dca/crates/whirlpool/src/utils.rs:28-36 | the array at offset 0 contains the current tick: start ≤ tick < start + width |
| `TickArrays.TickArrayPubkeyInjective` | examples/orca_whirlpool_dca/crates/whirlpool/src/utils.rs:38-52 | within one whirlpool, distinct start indices give distinct tick-array addresses (the decimal seed is injective) |
| `TickArrays.TickArrayPubkeys` | examples/orca_whirlpool_dca/crates/whirlpool/src/utils.rs:7-26 | succeeds exactly when all three offsets (0, ∓1, ∓2 toward the swap direction) give valid starts; then returns the three tick-array addresses in order; otherwise the panic is the one the first failing offset raises |
| `TickArrays.WindowSteps` | examples/orca_whirlpool_dca/crates/whirlpool/src/utils.rs:22 | consecutive arrays are adjacent: each next start is one array width below (a to b) or above (b to a) the previous one |
| `TickArrays.ScenarioStarts` | examples/orca_whirlpool_dca/crates/whirlpool/src/utils.rs:28-36 | tick 100 at spacing 64 resolves to starts 0, 5632 and 11264 |
| `TickArrays.EdgeOfDomainPanics` | examples/orca_whirlpool_dca/crates/whirlpool/src/utils.rs:33-34 | at the edges of the tick domain the asserts fire: the top array overruns MAX_TICK_INDEX and the array below MIN_TICK_INDEX is refused |
| `Instructions.AccountOfAt` | programs/orca_whirlpool_dca/src/instructions/get_tick_arrays.rs:26-29 | looking up a named account returns the key of its first occurrence |
| `Instructions.AccountOfAbsent` | programs/orca_whirlpool_dca/src/instructions/get_tick_arrays.rs:26-29 | a name absent from the metas has no account |
| `DcaThread.Validate` | programs/orca_whirlpool_dca/src/instructions/get_tick_arrays.rs:9-17 | the accounts pass exactly when there is a first account, owned by the thread program, signing, and whose key is the thread's own derived address; the result is that key |
| `DcaThread.Handler` | programs/orca_whirlpool_dca/src/instructions/get_tick_arrays.rs:19-34 | the response has no kickoff instruction and a next instruction that names the same thread as `dca_thread` |
| `DcaThread.GetTickArrays` | examples/orca_whirlpool_dca/programs/orca_whirlpool_dca/src/lib.rs:17-21 | the entry point succeeds exactly when the account constraints hold, and then answers with the handler's response for that thread |
| `DcaThread.ContinuationIsStable` | programs/orca_whirlpool_dca/src/instructions/get_tick_arrays.rs:24-31 | when the thread runs the returned next instruction, it passes validation again and gets the same response, so the thread re-arms itself forever |
| `DcaThread.ForeignThreadRejected` | programs/orca_whirlpool_dca/src/instructions/get_tick_arrays.rs:11-15 | an account that is not the thread's address, or that does not sign, is refused |
| `DcaClient.SignSendAndConfirm` | examples/orca_whirlpool_dca/client/src/utils.rs:11-41 | a missing blockhash panics and submits nothing; any other outcome, even a failed confirmation, records the batch with whether it was confirmed and lets the flow go on |
| `DcaClient.CreateSubmitsTwoBatches` | examples/orca_whirlpool_dca/client/src/main.rs:152-171 | the create flow sends the DCA create instruction alone, then the thread creation together with its funding transfer, in that order, each marked with its own confirmation |
| `DcaClient.UnreadablePoolSubmitsNothing` | examples/orca_whirlpool_dca/client/src/main.rs:70-74 | if the whirlpool's price cannot be read, the client panics before submitting anything |
| `DcaClient.ThreadBatchArmsAndFunds` | examples/orca_whirlpool_dca/client/src/main.rs:104-133 | the thread fires every 15 seconds (skippable) with the `get_tick_arrays` kickoff naming that same thread, and the transfer funds that thread with 100000000 lamports |
| `DcaClient.CreateArguments` | examples/orca_whirlpool_dca/client/src/main.rs:93-100 | the DCA is created with amount 100000, zero minimum out, the pool's sqrt price as limit, and both flags false |
| `DcaClient.DeleteTargetsCreated` | examples/orca_whirlpool_dca/client/src/main.rs:176-204 | deletion closes the same DCA account and the same thread the create flow made, returning the rent to the payer |
| `DcaClient.DeleteIsOneBatch` | examples/orca_whirlpool_dca/client/src/main.rs:206-211 | deletion is a single batch holding the DCA delete and then the thread delete |
| `DcaClient.ClientMainSelectsOneFlow` | examples/orca_whirlpool_dca/client/src/main.rs:34-38 | the `delete` build feature selects the delete flow; without it the create flow runs |
| `BitFlip.IdOf` | program/src/lib.rs:15 | the instruction's first two bytes, read big-endian, give an id within u16 |
| `BitFlip.Flip` | program/src/lib.rs:16-18 | flipping keeps the account's length and leaves every byte other than byte id/8 unchanged |
| `BitFlip.FlipTogglesOnlyId` | program/src/lib.rs:16-18 | after a flip, bit k is set exactly when it was set before XOR k is the flipped id; the mask 1 << (7 - bit) addresses the id's bit, most significant first |
| `BitFlip.MaskXor` | program/src/lib.rs:17-18 | XOR with the id's mask toggles exactly that id's bit within its byte |
| `BitFlip.ProcessInstruction` | program/src/lib.rs:6-21 | succeeds exactly when there is an account, two bytes of data and the byte index is in range (otherwise the Rust panics); only account 0 changes, in exactly the addressed bit |
| `BitFlip.FlipTwiceRestores` | program/src/lib.rs:6-21 | sending the same instruction twice restores the accounts |
| `BitFlip.FlipsCommute` | program/src/lib.rs:16-18 | two flips give the same account data in either order, so concurrent players' transactions commute |
| `BitFlip.SanityTestInputs` | program/src/lib.rs:29-107 | the code's outcome on the sanity tests' inputs: data [1, 1, 1, 1] addresses byte 32 of a 4-byte account and panics; data starting [0, 1] is id 1 and sets bit 0x40 of byte 0; an empty account list fails |
| `IdBytes.BitIds` | client/src/utils/bytes.ts:6-10 | within one byte the ids found are increasing and are exactly the set bits, most significant bit first, offset by 8 × index |
| `IdBytes.ByteIds` | client/src/utils/bytes.ts:6-10 | the ids read from byte i are exactly the set ids in [8·i, 8·i + 8), the same bits the program toggles |
| `IdBytes.IdsFrom` | client/src/utils/bytes.ts:3-13 | from byte i onward the ids are increasing and are exactly the set ids in that range |
| `IdBytes.ProgramDataToIds` | client/src/utils/bytes.ts:3-13 | the decoded ids are increasing and are exactly the ids whose bit is set in the program data |
| `IdBytes.InstructionDataFromId` | client/src/utils/bytes.ts:17-27 | ids outside [0, 65535] throw "invalid id"; otherwise the two bytes are the big-endian id the program reads |
| `IdBytes.EncodeDecode` | client/src/utils/bytes.ts:18-27 | encoding the id decoded from any two bytes gives those bytes back |
| `IdBytes.Xor` | client/src/utils/bytes.ts:29-36 | snapshots of different lengths throw; otherwise the result is the byte-wise XOR |
| `IdBytes.XorInvolution` | client/src/utils/bytes.ts:29-36 | XOR with the same snapshot twice gives the first operand back |
| `IdBytes.XorIdsAreChanges` | client/src/utils/bytes.ts:29-36 | the ids decoded from the XOR of two snapshots are exactly the ids whose bit differs between them |
| `IdBytes.SendThenDecode` | client/src/utils/bytes.ts:18-27 | encoding an id, running the program on it and decoding the account shows the old ids with exactly that one toggled |
| `IdBytes.BlankRoundTrip` | client/src/utils/bytes.ts:3-27 | flipping id x in a zeroed account decodes to exactly [x] |
| `TxStatus.AddTransaction` | client/src/providers/transactions/index.tsx:91-101 | a new transaction is appended as pending with its signature and nothing else moves |
| `TxStatus.TimeoutTx` | client/src/providers/transactions/index.tsx:103-120 | a timeout for a missing or non-pending entry changes nothing; otherwise every entry sharing that signature, pending or not, becomes timed out |
| `TxStatus.UpdateTx` | client/src/providers/transactions/index.tsx:122-149 | an update keeps the signature, never touches a final entry, and touches only entries of the given partition |
| `TxStatus.UpdateIdsTx` | client/src/providers/transactions/index.tsx:122-149 | signatures are kept; entries outside the partition and final entries are unchanged; a pending entry of the partition whose id was seen becomes successful at that slot with its confirmation time, and one whose id was not seen stays as it was; an unrooted success whose id is no longer seen reverts to pending |
| `TxStatus.RecordRootTx` | client/src/providers/transactions/index.tsx:164-182 | with no success at the root slot nothing changes; otherwise the successes at that slot stop waiting for the root |
| `TxStatus.Reduce` | client/src/providers/transactions/index.tsx:89-184 | only a timeout with an undefined (negative) tracking id fails; reset empties the list; every other action keeps all entries and their signatures |
| `TxStatus.CountStatus` | client/src/providers/transactions/index.tsx:240-258 | a status count never exceeds the number of transactions |
| `TxStatus.CountsPartition` | client/src/providers/transactions/index.tsx:240-291 | pending, confirmed and dropped counts add up to the created count |
| `TxStatus.ConfirmedPlusDroppedAtMostCreated` | client/src/providers/transactions/index.tsx:240-291 | confirmed plus dropped never exceeds created |
| `TxStatus.NewTransactionCounts` | client/src/providers/transactions/index.tsx:91-101 | adding a transaction raises the created count by one and moves neither confirmed nor dropped |
| `TxStatus.TimeoutRaisesDropped` | client/src/providers/transactions/index.tsx:103-120 | a timeout never lowers the dropped count, and raises it when it hits a pending entry |
| `TxStatus.UpdateIdsKeepsDropped` | client/src/providers/transactions/index.tsx:122-149 | confirmation updates never change the dropped count |
| `TxStatus.TimeoutIdempotent` | client/src/providers/transactions/index.tsx:103-120 | a repeated timeout changes nothing more |
| `TxStatus.UpdateIdsIdempotent` | client/src/providers/transactions/index.tsx:122-149 | delivering the same confirmation update twice is the same as once |
| `TxStatus.RecordRootIdempotent` | client/src/providers/transactions/index.tsx:164-182 | recording the same root twice is the same as once |
| `TxStatus.RootedIsFinal` | client/src/providers/transactions/index.tsx:164-182 | after a root is recorded, no later confirmation update changes the successes at that slot |
| `TxStatus.TimeoutClearsSignature` | client/src/providers/transactions/index.tsx:107-118 | after a timeout, every entry sharing the timed-out signature is timed out |
| `TxStatus.OnProgramDataAccount` | client/src/providers/transactions/index.tsx:300-308 | the id counter restarts at 0 exactly when the effect's dependency is a different key object than before (React's `Object.is`), and keeps its value for the very same object |
| `TxStatus.RefetchRestartsCounter` | client/src/providers/transactions/index.tsx:300-308 | a refetched configuration that rebuilds the same address in a new key object restarts the counter |
| `TxStatus.CreateTx` | client/src/providers/transactions/index.tsx:318-323 | a create request gets the counter's value as its id exactly when that value is below the account capacity, and then the counter advances by one |
| `TxStatus.CreateManyIssuesConsecutive` | client/src/providers/transactions/index.tsx:300-325 | n requests hand out consecutive ids from the counter and stop at the capacity: no id twice, none at or beyond the capacity |
| `TpsWindow.Start` | client/src/providers/transactions/tps.tsx:20 | starting the sampler empties the history and keeps the last published rate |
| `TpsWindow.OnTick` | client/src/providers/transactions/tps.tsx:22-34 | the history keeps the last TPS_LOOK_BACK + 1 confirmed counts, newest last; with two or more samples the rate is the truncated count difference per second over the window, otherwise unchanged |
| `TpsWindow.PublishedRateIsWholePart` | client/src/providers/transactions/tps.tsx:27-34 | with two or more samples, the published rate is the one integer q with q ≤ (newest − oldest) per second over the window < q + 1 |
| `TpsWindow.RunKeepsLatest` | client/src/providers/transactions/tps.tsx:22-25 | after any ticks the history is the latest counts, capped |
| `TpsWindow.HistoryAfterStart` | client/src/providers/transactions/tps.tsx:20-25 | after a restart, the history is the last TPS_LOOK_BACK + 1 counts fed since then |
| `TpsWindow.TpsNonNegative` | client/src/providers/transactions/tps.tsx:30-34 | while the confirmed count never decreases, the rate is never negative |
| `TpsWindow.RevertedConfirmationGoesNegative` | client/src/providers/transactions/tps.tsx:30-34 | a confirmed count that goes down yields a negative rate (5 then 3 gives -8) |
| `TpsWindow.FirstTickPublishesNothing` | client/src/providers/transactions/tps.tsx:27-28 | the first tick after a restart has no interval to measure and keeps the old rate |
| `SlotTiming.Connect` | client/src/providers/slot.tsx:107-112 | a (re)connection clears the per-slot records and listens for slot changes, keeping the target slot |
| `SlotTiming.OnSlotChange` | client/src/providers/slot.tsx:117-121 | a slot change sets the target slot only while that listener is active and updates are not subscribed; nothing else moves |
| `SlotTiming.ApplyToRecord` | client/src/providers/slot.tsx:150-181 | each update kind fills in only its own fields; a root timestamp is written only if none was recorded |
| `SlotTiming.OnSlotUpdate` | client/src/providers/slot.tsx:127-183 | updates are ignored unless subscribed; a first shred starts a fresh record and raises the target slot; other kinds touch only an already tracked slot and only their fields; no other slot's record changes |
| `SlotTiming.TargetNeverDecreases` | client/src/providers/slot.tsx:137-143 | under the update subscription the target slot never goes down and, once set, stays set |
| `SlotTiming.RootWrittenOnce` | client/src/providers/slot.tsx:174-179 | a slot's root timestamp, once recorded, is kept unless a new first shred for that slot restarts its record |
| `FeeAccounts.ConnectionChanged` | client/src/providers/accounts.tsx:57-84 | a new connection bumps the counter, forgets the accounts and starts initialising, without touching the lock |
| `FeeAccounts.CostsCalculated` | client/src/providers/accounts.tsx:67-75 | a cost result from an outdated connection (the counter moved) is dropped; a current one stores the costs and makes the provider inactive |
| `FeeAccounts.Deactivate` | client/src/providers/accounts.tsx:86-88 | deactivation is refused while a create or close holds the lock and changes only the status |
| `FeeAccounts.BeginClose` | client/src/providers/accounts.tsx:90-108 | without a connection or wallet, closing fails with that error; otherwise an inactive, unlocked provider locks and starts closing, and any other does nothing |
| `FeeAccounts.FinishClose` | client/src/providers/accounts.tsx:90-108 | after closing, the provider is inactive and unlocked |
| `FeeAccounts.BeginCreate` | client/src/providers/accounts.tsx:110-142 | creating needs a connection, a program id, a wallet and calculated costs; then an inactive, unlocked provider locks and starts creating |
| `FeeAccounts.FinishCreate` | client/src/providers/accounts.tsx:110-142 | after creating, the lock is released; with created accounts the provider is active with them, otherwise inactive |
| `FeeAccounts.StepKeepsLockInvariant` | client/src/providers/accounts.tsx:86-142 | one event keeps "creating or closing implies locked" |
| `FeeAccounts.RunKeepsLockInvariant` | client/src/providers/accounts.tsx:86-142 | any sequence of events keeps the lock invariant |
| `FeeAccounts.LockExcludesSecondStart` | client/src/providers/accounts.tsx:90-142 | while the lock is held, neither a create nor a close can start |
| `FeeAccounts.ProgramAccountSpace` | client/src/providers/accounts.tsx:169-170 | the program account holds just enough bytes for the fee payers to reach the creation target, and no byte more |
| `FeeAccounts.TxPerAccount` | client/src/providers/accounts.tsx:171 | each fee payer's capacity is a whole number of bytes' worth of transactions |
| `FeeAccounts.CapacityCoversTarget` | client/src/providers/accounts.tsx:169-171 | all fee payers together cover the creation target, and one byte less each would not |
| `FeeAccounts.CalculateCosts` | client/src/providers/accounts.tsx:198-215 | a fee account costs its rent plus one signature fee per transaction it can pay for; the total pays for every fee payer and its program account |
| `FeeAccounts.CreateInstructions` | client/src/providers/accounts.tsx:217-254 | for each fee payer: one transfer funding it with the fee-account cost, and one account creation owned by the program with the program-account cost and space |
| `FeeAccounts.CreateAccountsTx` | client/src/providers/accounts.tsx:217-254 | the created configuration lists the new program accounts and the fee payers, with the per-account capacity |
| `FeeAccounts.CreationSpendsTotal` | client/src/providers/accounts.tsx:217-254 | the payer spends exactly the fee-account and program-account costs for every fee payer |
| `FeeAccounts.CreationCostIsTotal` | client/src/providers/accounts.tsx:198-254 | what the creation spends equals the total cost shown beforehand |
| `FeeAccounts.CloseInstructions` | client/src/providers/accounts.tsx:173-196 | each fee account transfers its whole balance to the payer |
| `FeeAccounts.ClosingReturnsBalances` | client/src/providers/accounts.tsx:173-196 | closing returns the sum of all fee-account balances to the payer |
| `ServerSelect.Servers` | client/src/providers/server/index.tsx:9-12 | the default server is selectable; on localhost only the custom server is offered, elsewhere all four |
| `ServerSelect.ServerName` | client/src/providers/server/index.tsx:18-29 | every server has a non-empty display name |
| `ServerSelect.ServerNameInjective` | client/src/providers/server/index.tsx:18-29 | different servers have different display names |
| `ServerSelect.ParseQuery` | client/src/providers/server/index.tsx:31-45 | a known cluster parameter selects that server; anything else, or none, selects the default |
| `ServerSelect.ParseQueryRoundTrip` | client/src/providers/server/index.tsx:31-45 | a server's own id parses back to that server |
| `ServerSelect.GetServerUrl` | client/src/providers/server/index.tsx:90-106 | the custom server uses the custom URL; the others use the public host, over http on localhost and https elsewhere |
| `ServerSelect.PublicUrlsDistinct` | client/src/providers/server/index.tsx:90-106 | different public servers have different URLs |
| `ServerSelect.FirstIndexFrom` | client/src/providers/server/index.tsx:115 | finds the first occurrence of the pattern at or after a position, or reports none |
| `ServerSelect.ReplaceFirst` | client/src/providers/server/index.tsx:115 | only the first occurrence is replaced, and a string without one is unchanged |
| `ServerSelect.WebSocketOfHttp` | client/src/providers/server/index.tsx:114-115 | an http(s) URL becomes the matching ws(s) URL |
| `ServerSelect.PublicWebSocketUrl` | client/src/providers/server/index.tsx:108-123 | a public server's socket URL is ws on localhost and wss elsewhere, on the same host |
| `ServerSelect.CustomUrlWithoutHttp` | client/src/providers/server/index.tsx:114-115 | a custom URL containing no "http" is used unchanged as the socket URL |
| `HttpConfig.Merge` | client/src/providers/server/http/index.tsx:41-61 | merging an action sets its status, keeps the connection, takes the config an initialisation carries, clears it for a failure carrying an undefined config, and otherwise keeps it |
| `HttpConfig.Reduce` | client/src/providers/server/http/index.tsx:41-61 | a failure is ignored unless a fetch is in progress; every other action is merged |
| `HttpConfig.LateFailureIgnored` | client/src/providers/server/http/index.tsx:47-53 | a failure arriving when no fetch is in progress leaves the state as it was |
| `HttpConfig.FetchingUntilAnswered` | client/src/providers/server/http/index.tsx:41-61 | a fetch action marks the state as fetching; while fetching, it stays fetching only under another fetch action |
| `HttpConfig.ClusterParam` | client/src/providers/server/http/index.tsx:118-132 | no config gives no parameter; a custom RPC URL without a cluster gives the custom parameter; a cluster other than mainnet-beta is named; mainnet-beta gives none |
| `HttpConfig.ClusterParamSelectsServer` | client/src/providers/server/http/index.tsx:118-132 | the cluster parameter produced for a known cluster other than mainnet-beta selects that cluster's server when the page is reloaded |
| `ApiConfig.Reduce` | client/src/providers/api/index.tsx:53-69 | the new status is the action's; the game cost changes only on payment-required, the config only on initialisation, and the accounts are set when ready, cleared when fetching, else kept |
| `ApiConfig.HandleRefresh` | client/src/providers/api/index.tsx:160-191 | a "Payment required" answer gives the cost plus one; an answer with account keys, account capacity and account lists `configFromAccounts` accepts gives ready with exactly those accounts; anything else, including a failed request or lists it rejects, is a failure to retry |
| `ApiConfig.AccountListsMissingRetries` | client/src/providers/api/index.tsx:176-190 | an answer with keys and capacity whose account lists `configFromAccounts` rejects is a failure to retry, not ready |
| `ApiConfig.RefreshLoop` | client/src/providers/api/index.tsx:142-193 | one action per response, in order, each the outcome of handling that response; every action before the last is a failure that is retried; the loop stops right after the first response that ends it, or when the responses run out |
| `ApiConfig.RefreshOutcome` | client/src/providers/api/index.tsx:142-193 | a refresh ends in payment-required or ready-to-play once the server answers; if it never does, the state stays failed with no accounts |
| `ApiConfig.ClusterParam` | client/src/providers/api/index.tsx:227-240 | no config gives the devnet parameter; a named cluster gives that cluster; otherwise the cluster URL is passed |
| `ApiConfig.ClusterParamReadsBack` | client/src/providers/api/index.tsx:227-240 | the parameter reads back unambiguously as devnet, the named cluster, or the RPC URL, never confusing a name with a URL |
| `TxReducer.Updated` | client/src/reducers/transactions/index.ts:38-53 | the update replaces every transaction of the reported account, and only those |
| `TxReducer.Reduce` | client/src/reducers/transactions/index.ts:19-87 | add appends a sent transaction; update replaces the account's entries and counts a success; reset returns to the initial state; the rate is stored as given; unknown actions change nothing |
| `TxReducer.SuccessReports` | client/src/reducers/transactions/index.ts:54-61 | the success reports since the last reset are at most the actions |
| `TxReducer.CountersCountSuccessReports` | client/src/reducers/transactions/index.ts:54-78 | the two completion counters equal the success updates since the last reset: all of them, and the user-sent ones |
| `TxReducer.UserReportsAreReports` | client/src/reducers/transactions/index.ts:54-61 | user-sent success reports are among all success reports |
| `TxReducer.UserCompletedAtMostAll` | client/src/reducers/transactions/index.ts:54-61 | the user's completed count never exceeds the overall completed count |
| `TxReducer.UpdateIdempotent` | client/src/reducers/transactions/index.ts:38-69 | a repeated update leaves the transaction list as after the first, though the counters count again |
| `TxReducer.AddThenUpdate` | client/src/reducers/transactions/index.ts:21-69 | a transaction added and then updated for its account ends with the reported status and info |
| `LegacyTxReducer.WithInfo` | src/reducers/transactions/index.ts:37-73 | setting info replaces every transaction carrying the id, and only those |
| `LegacyTxReducer.Reduce` | src/reducers/transactions/index.ts:19-91 | add appends a blank transaction named after its position; set-info counts one completion and keeps the average time equal to the total time over the count; reset keeps the rate; the rate payload is divided by five |
| `LegacyTxReducer.RunKeepsIdsArePositions` | src/reducers/transactions/index.ts:21-81 | from the initial state, every transaction's id names its position in the list |
| `LegacyTxReducer.TransactionIdInjective` | src/reducers/transactions/index.ts:21-36 | different positions get different ids |
| `LegacyTxReducer.SetInfoTouchesOneSlot` | src/reducers/transactions/index.ts:37-73 | with position-named ids, setting info for a position changes only that transaction |
| `LegacyTxReducer.AddToEmptyStore` | src/tests/reducers/transaction-reducer.uitest.ts:1-170 | adding to the empty store gives one blank transaction named "transaction0" |
| `GameReducer.Reduce` | src/reducers/game/index.ts:15-35 | set stores the statistics, reset returns to the initial state, unknown actions change nothing |
| `GameReducer.LastWritten` | src/reducers/game/index.ts:15-35 | with no set or reset among the actions, the shown statistics are the initial ones |
| `GameReducer.RunShowsLastWritten` | src/reducers/game/index.ts:15-35 | after any actions the statistics shown are those of the last set, or the initial ones after a reset |
| `GameReducer.ResetAbsorbs` | src/reducers/game/index.ts:23-32 | reset is idempotent, and a set followed by a reset is the same as the reset alone |
| `LeaderTracker.Sort` | server/src/leader_tracker.ts:58 | sorting gives a permutation of the window, ordered by the chosen comparison |
| `LeaderTracker.NumericSortedAscending` | server/src/leader_tracker.ts:58 | a numerically sorted window is ascending between any two positions |
| `LeaderTracker.MedianIsReasonable` | server/src/leader_tracker.ts:62-67 | the median slot itself is always within the reasonable bound |
| `LeaderTracker.UpdateRecentSlots` | server/src/leader_tracker.ts:49-80 | the window becomes the last 12 slots including the new one; the estimate is the last slot of the sorted window that is within the reasonable bound, under whichever order the window is sorted by |
| `LeaderTracker.NumericPicksHighestReasonable` | server/src/leader_tracker.ts:49-80 | with numeric order, the estimate is the highest slot of the window within the bound |
| `LeaderTracker.TextOrderPicksStaleSlot` | server/src/leader_tracker.ts:58 | with the default text order, window [99, 100] yields 99, though the numeric reading yields 100 |
| `LeaderTracker.SortsOfWindow` | server/src/leader_tracker.ts:58 | the default sort puts 100 before 99, while numeric order keeps [99, 100] |
| `LeaderTracker.OnSlotUpdate` | server/src/leader_tracker.ts:18-46 | a shred or completion notification switches the tracker to shred mode; bank-creation slots feed the window only before that; a fed slot updates the window, and the callback fires exactly when the estimate differs from the current slot, receiving that estimate |
| `LeaderTracker.RunTracksShreds` | server/src/leader_tracker.ts:23-40 | after any updates the tracker is in shred mode exactly when a shred or completion notification arrived, and its current slot is unchanged |
| `LeaderTracker.RunKeepsLatestSlots` | server/src/leader_tracker.ts:16-53 | after any updates the window holds the last 12 of the start slot and the slots fed since |
| `LeaderTracker.StepKeepsLatest` | server/src/leader_tracker.ts:49-53 | if the window is the last 12 of a slot log, after one update it is the last 12 of that log extended by the slot the update feeds, if any |
| `LeaderSchedule.GetSlotLeader` | server/src/leader_schedule.ts:52-63 | a leader is known exactly for slots inside the cached range, and it is the cached entry for that slot |
| `LeaderSchedule.ShouldRefresh` | server/src/leader_schedule.ts:69-72 | a refresh is due exactly when the upcoming search window reaches the end of the cached schedule |
| `LeaderSchedule.RefreshFirstSlot` | server/src/leader_schedule.ts:78 | a refreshed schedule starts PAST_SLOT_SEARCH slots before the current one, but never below slot 0 |
| `LeaderSchedule.Refresh` | server/src/leader_schedule.ts:74-87 | a refresh in progress or a failed fetch leaves the schedule as it was; a fetched list replaces the leaders and the first slot together |
| `LeaderSchedule.RefreshCoversScan` | server/src/leader_schedule.ts:40-87 | after a refresh, every slot the proxy scans, from PAST_SLOT_SEARCH before to the upcoming window after the current slot, has a known leader |
| `LeaderSchedule.RefreshedScheduleNotDue` | server/src/leader_schedule.ts:69-87 | a schedule refreshed with 2 × upcoming leaders is not due again until the slot advances by about the upcoming window |
| `TpuProxy.DedupKeepsEachOnce` | server/src/tpu_proxy.ts:127-143 | the scan keeps each leader once, in order of first appearance, and nothing else |
| `TpuProxy.TpusFromLeaders` | server/src/tpu_proxy.ts:127-143 | every collected address is the TPU of a scanned leader that has one |
| `TpuProxy.RefreshAddresses` | server/src/tpu_proxy.ts:122-147 | the new TPU addresses are those of the distinct scanned leaders, in scan order; leaders without a TPU are added to the delinquents |
| `TpuProxy.EachLeaderOnce` | server/src/tpu_proxy.ts:127-143 | a leader scheduled for several slots is contacted once |
| `TpuProxy.OnTpuResult` | server/src/tpu_proxy.ts:184-194 | a failure on a connected TPU closes that socket and returns it to the pool; success or an unknown address changes nothing |
| `TpuProxy.OnTpuResultKeepsSocketCount` | server/src/tpu_proxy.ts:184-194 | sockets are never lost: the open plus pooled count is unchanged |
| `TpuProxy.OnTpuResultIdempotent` | server/src/tpu_proxy.ts:184-194 | a repeated failure report for the same address changes nothing more |
| `TpuProxy.SendRawTransaction` | server/src/tpu_proxy.ts:70-120 | an unconnected proxy must connect first; with RPC in use an error is reported only for a transaction long enough to hold a signature, with the signature bytes 1 to 64; otherwise it goes to every open TPU socket |
| `AccountSupply.Unexpired` | server/src/supply/accounts.ts:85-89 | the result holds every entry that expires after now and no other, never more often than the input does |
| `AccountSupply.UnexpiredIsFilter` | server/src/supply/accounts.ts:85-89 | the filter keeps every copy of each unexpired entry, drops every expired one, and keeps the original order |
| `AccountSupply.UnexpiredLater` | server/src/supply/accounts.ts:74-89 | filtering at one time and then at a later time is filtering at the later time |
| `AccountSupply.Size` | server/src/supply/accounts.ts:85-89 | the size drops expired funded accounts first and counts only unexpired ones |
| `AccountSupply.Reserve` | server/src/supply/accounts.ts:74-78 | after dropping expired accounts, a reservation succeeds exactly when enough remain; it moves the oldest ones to the reserved list, losing and inventing none |
| `AccountSupply.UnreserveAsWritten` | server/src/supply/accounts.ts:80-83 | as written, unreserving fails with too few reserved accounts and otherwise leaves the supply exactly as it was |
| `AccountSupply.UnreserveAsWrittenKeepsReservation` | server/src/supply/accounts.ts:80-83 | one account reserved and then unreserved as written stays reserved and is never funded again |
| `AccountSupply.Unreserve` | server/src/supply/accounts.ts:80-83 | unreserving moves the most recently reserved accounts back to the head of the funded list |
| `AccountSupply.ReserveThenUnreserve` | server/src/supply/accounts.ts:74-83 | reserve followed by unreserve of the same count restores the supply, minus the expired accounts |
| `AccountSupply.Pop` | server/src/supply/accounts.ts:91-96 | popping fails with "reserve depleted" when too few accounts are reserved, else hands out the oldest reserved accounts in order |
| `AccountSupply.ReserveThenPop` | server/src/supply/accounts.ts:74-96 | accounts reserved from an empty reservation are popped in the funded order |
| `AccountSupply.BatchSize` | server/src/supply/accounts.ts:47 | a batch is BATCH_SIZE accounts, or fewer to fill the supply exactly to SUPPLY_SIZE |
| `AccountSupply.CreatedKeepsSuccesses` | server/src/supply/accounts.ts:62-66 | only successful creations are added, each expiring at the given time |
| `AccountSupply.Replenish` | server/src/supply/accounts.ts:42-72 | the funded list grows by the successful creations of whole batches, never beyond SUPPLY_SIZE, and stops only when full or out of attempts |
| `Supply.TxPerAccount` | server/src/supply/accounts.ts:7-8 | a configured non-zero capacity is used, otherwise the default of 1000 |
| `Supply.CalculateCost` | server/src/supply/index.ts:81-88 | the cost covers a fee and a program account for each requested account |
| `Supply.CostIsLinear` | server/src/supply/index.ts:81-88 | the account cost is linear in the count, and including the fee adds one signature fee |
| `Supply.CreateAccounts` | server/src/supply/index.ts:20-55 | creation fails with "Insufficient funds" exactly when the cost exceeds the balance; otherwise it pairs fee and program accounts, truncated to the shorter list |
| `Supply.ReserveAccounts` | server/src/supply/index.ts:57-62 | fee accounts are reserved first; program accounts only if that succeeds; success means both supplies had enough |
| `Supply.ReserveAccountsKeepsPartialReservation` | server/src/supply/index.ts:57-62 | when fee accounts suffice but program accounts do not, the fee reservation is kept though the call reports failure |
| `Supply.UnreserveAccounts` | server/src/supply/index.ts:64-67 | as written, both pools are left exactly as they were; "unable to unreserve" is reported exactly when either pool holds fewer reservations than asked |
| `Supply.UnreserveAccountsKeepsReservation` | server/src/supply/index.ts:57-67 | as written, undoing a successful paired reservation reports no error, yet both pools keep the accounts reserved |
| `Supply.UnreserveAccountsIntended` | server/src/supply/index.ts:64-67 | the intended version: each pool gives its most recent reservations back to its funded list, fee pool first; an error is reported exactly when either has too few |
| `Supply.ReserveThenUnreserveAccounts` | server/src/supply/index.ts:57-67 | a successful paired reservation, undone by the intended version, restores both supplies minus the expired accounts, with no error |
| `Supply.PopAccounts` | server/src/supply/index.ts:69-79 | program accounts are popped first, then fee accounts; if the fee pop fails, the program accounts already popped are lost |
| `Supply.ReserveThenPopAccounts` | server/src/supply/index.ts:57-79 | accounts reserved in pairs are popped as the same pairs |
| `Decimal.ParseText` | examples/orca_whirlpool_dca/crates/whirlpool/src/utils.rs:47 | the decimal text of any integer parses back to it |
| `Decimal.TextInjective` | examples/orca_whirlpool_dca/crates/whirlpool/src/utils.rs:47 | different integers have different decimal texts, so the seed identifies the start index |
| `Decimal.ParseNatText` | examples/orca_whirlpool_dca/crates/whirlpool/src/utils.rs:47 | the decimal digits of a natural number read back as that number |
| `Decimal.LexLeTotal` | server/src/leader_tracker.ts:58 | the default string comparison orders any two slot texts one way or the other |
| `IntMath.TruncDiv` | examples/orca_whirlpool_dca/crates/whirlpool/src/utils.rs:55-58 | Rust's `/` leaves a remainder smaller than the divisor with the dividend's sign |
| `IntMath.TruncRem` | examples/orca_whirlpool_dca/crates/whirlpool/src/utils.rs:55 | Rust's `%` satisfies a = (a / b)·b + a % b with the dividend's sign |
| `Window.Trim` | client/src/providers/transactions/tps.tsx:22-25 | trimming keeps the newest entries, exactly up to the cap |
| `Window.FeedKeepsLatest` | server/src/leader_tracker.ts:50-53 | pushing values one at a time with trimming is the same as keeping the last n of everything pushed |
| `Window.LastNOfLastN` | server/src/leader_tracker.ts:49-53 | trimming before appending more values does not change the trimmed result afterwards |
| `Window.ShiftLastN` | server/src/leader_tracker.ts:50-53 | dropping the oldest value of an over-full buffer keeps its newest entries up to the cap |

## Left out

- Timers, intervals, subscriptions, promises and retry delays are not modelled. Each notification or response is an explicit input event. `LeaderSchedule.start`'s endless retry, `refreshAccounts`' retry loop and the replenishing loop's awaits become finite input sequences.
- Concurrency between async handlers is not modelled: the `replenishing` flag, overlapping refreshes and racing fetches. Handlers run one at a time, in event order.
- Rent (`calculateRent`, `calculateMinimalRent`) comes from RPC queries with floating-point margins. It is an input to the cost functions.
- `toFixed` rounding and floating-point confirmation times are not modelled. Times are exact reals.
- Date arithmetic for account expiry (now plus seven days) is not modelled. The expiry time is a parameter.
- `TpuProxy.reconnect` is not modelled: UDP socket creation, `getClusterNodes` and the retry timer. The node map and the socket pool are inputs.
- The rpcOverride choice of connection is not modelled, and neither is the socket write itself.
- Negative, fractional or non-integer counts and ids are not modelled. JavaScript numbers are naturals or integers here, and `Number.isInteger` is implied by the type.
- `Supply.AccountCapacity`: a plain projection of the configured capacity with no property of its own.
- The `replenish()` call that `pop` triggers after handing accounts out is not modelled. It is the same operation as `AccountSupply.Replenish`, driven by the next event.
- The Rust sanity tests in program/src/lib.rs:23-107 disagree with the code. For example, data [1, 1, 1, 1] addresses byte 32 of a 4-byte account. `BitFlip.SanityTestInputs` states what the code does.
- `useAvgConfirmationTime`, `useTps` rendering and other presentation hooks are not modelled. They compute display values from the counts that are modelled.
- Signing, blockhashes and explorer links in the DCA client are not modelled. A send is an outcome parameter.
- Account-derivation hashing is not modelled: `find_program_address`, associated token accounts, Anchor sighashes. These are free constructors and so collision-free by construction.
- `TickArrays.CheckI32`: treats `i32` overflow as a panic, as Rust's checked arithmetic and debug builds do. A release build without overflow checks would wrap instead. `TickArrays.StartTickIndexInDomain` shows that no overflow occurs for ticks in the domain, so the two readings agree there.
- `TxStatus.OnProgramDataAccount`: the `Config` type in client/src/providers/api/config.ts:9-16 declares no `programDataAccounts` field, so the effect's dependency is taken as an input. Key objects are told apart by an explicit handle.
- `TpuProxy.TpusFromLeaders`: states only that every address comes from a scanned leader with a TPU. The exact list is pinned by `TpuProxy.RefreshAddresses`.
- `GameReducer.Reduce`: follows src/reducers/game/index.ts, whose state has no `status` field and which has no `SET_STATUS_GAME` action, although src/tests/reducers/game-reducer.uitest.ts expects both.
- `TxReducer.SuccessReports`: bounds the count by the number of actions. Its meaning is stated by `TxReducer.CountersCountSuccessReports`.

## Findings

| source | as written | input that shows it | evidently intended | confidence | as-written member | corrected member |
|---|---|---|---|---|---|---|
| server/src/supply/accounts.ts:80-83 | `unreserve` splices the first `count` entries off the funded list and puts them back in front of the rest of that same list, so funded is rebuilt unchanged, reserved is never touched, and reserved accounts are never funded again | a supply with funded [(1, 10)] and nothing reserved; reserve 1, then unreserve 1: the account stays reserved | the unreserved accounts move from the reserved list back to the funded list | not executed | `AccountSupply.UnreserveAsWrittenKeepsReservation` | `AccountSupply.ReserveThenUnreserve` |
| server/src/supply/index.ts:64-67 | `unreserveAccounts` calls the pools' `unreserve`, which leaves each pool as it was, so a paired reservation is never given back | fee pool reserved [a], program pool reserved [b], then `unreserveAccounts(1)`: a and b stay reserved and neither returns to its funded list | both pools return their most recent reservations to their funded lists | not executed | `Supply.UnreserveAccountsKeepsReservation` | `Supply.ReserveThenUnreserveAccounts` |
| server/src/leader_tracker.ts:58 | `sort()` with no comparator orders slot numbers by their decimal text, so "100" sorts before "99" and the median and bound come from the wrong positions | recent slots [99], then slot 100 arrives: the text-sorted window is [100, 99], so the scan from its end meets 99 first and returns it, although 100 is within the bound of 149 | numeric order, so the estimate is the highest slot within the bound | not executed | `LeaderTracker.TextOrderPicksStaleSlot` | `LeaderTracker.NumericPicksHighestReasonable` |

=== FILE: account_supply.dfy ===
/**
 * A server-side pool of pre-funded accounts: funded accounts wait (until
 * they expire) to be reserved for a game, and reserved accounts wait to be
 * handed out.
 */
module AccountSupply {
  import opened Wrappers

  const SUPPLY_SIZE: nat := 50
  const BATCH_SIZE: nat := 10

  /** A funded account, by identity, with the time (in ms) after which it is no longer handed out. */
  datatype Entry = Entry(account: nat, expiration: int)

  datatype Pool = Pool(funded: seq<Entry>, reserved: seq<Entry>)

  /** The entries still valid at `now`, in their original order. */
  function Unexpired(entries: seq<Entry>, now: int): (r: seq<Entry>)
    ensures |r| <= |entries|
    ensures forall e :: e in r <==> e in entries && e.expiration > now
    ensures multiset(r) <= multiset(entries)
    decreases |entries|
  {
    if |entries| == 0 then []
    else
      var e := entries[|entries| - 1];
      assert entries == entries[..|entries| - 1] + [e];
      if e.expiration > now then Unexpired(entries[..|entries| - 1], now) + [e]
      else Unexpired(entries[..|entries| - 1], now)
  }

  /** `sub` is `s` with some elements left out, the rest in their order. */
  predicate SubsequenceOf<T(==)>(sub: seq<T>, s: seq<T>)
    decreases |s|
  {
    if |sub| == 0 then true
    else if |s| == 0 then false
    else (sub[|sub| - 1] == s[|s| - 1] && SubsequenceOf(sub[..|sub| - 1], s[..|s| - 1]))
         || SubsequenceOf(sub, s[..|s| - 1])
  }

  /**
   * The filter keeps every unexpired entry with all its copies, drops every
   * expired one, and keeps the original order.
   */
  lemma UnexpiredIsFilter(entries: seq<Entry>, now: int)
    ensures SubsequenceOf(Unexpired(entries, now), entries)
    ensures forall e :: multiset(Unexpired(entries, now))[e] == if e.expiration > now then multiset(entries)[e] else 0
  {
    UnexpiredInOrder(entries, now);
    UnexpiredCounts(entries, now);
  }

  lemma {:induction false} UnexpiredInOrder(entries: seq<Entry>, now: int)
    ensures SubsequenceOf(Unexpired(entries, now), entries)
    decreases |entries|
  {
    if |entries| > 0 {
      var prefix := entries[..|entries| - 1];
      var e := entries[|entries| - 1];
      UnexpiredInOrder(prefix, now);
      var rest := Unexpired(prefix, now);
      if e.expiration > now {
        var r := rest + [e];
        assert r[..|r| - 1] == rest;
      }
    }
  }

  lemma {:induction false} UnexpiredCounts(entries: seq<Entry>, now: int)
    ensures forall e :: multiset(Unexpired(entries, now))[e] == if e.expiration > now then multiset(entries)[e] else 0
    decreases |entries|
  {
    if |entries| > 0 {
      var prefix := entries[..|entries| - 1];
      var last := entries[|entries| - 1];
      assert entries == prefix + [last];
      assert multiset(entries) == multiset(prefix) + multiset{last};
      UnexpiredCounts(prefix, now);
      var rest := Unexpired(prefix, now);
      if last.expiration > now {
        assert multiset(Unexpired(entries, now)) == multiset(rest) + multiset{last};
      } else {
        assert multiset(Unexpired(entries, now)) == multiset(rest);
      }
    }
  }

  /** Filtering at a later time subsumes an earlier filtering; filtering twice at once is filtering once. */
  lemma {:induction false} UnexpiredLater(entries: seq<Entry>, now: int, later: int)
    requires now <= later
    ensures Unexpired(Unexpired(entries, now), later) == Unexpired(entries, later)
    decreases |entries|
  {
    if |entries| > 0 {
      var prefix := entries[..|entries| - 1];
      var e := entries[|entries| - 1];
      UnexpiredLater(prefix, now, later);
      if e.expiration > now {
        var f := Unexpired(prefix, now) + [e];
        assert f[..|f| - 1] == Unexpired(prefix, now);
      }
    }
  }

  /** `size`: drop the expired funded entries and count the rest. */
  function Size(p: Pool, now: int): (r: (Pool, nat))
    ensures r.0 == p.(funded := Unexpired(p.funded, now))
    ensures r.1 == |r.0.funded| <= |p.funded|
    ensures forall e :: e in r.0.funded ==> e.expiration > now
  {
    var funded := Unexpired(p.funded, now);
    (p.(funded := funded), |funded|)
  }

  /**
   * `reserve`: after dropping expired entries, move the `count` oldest
   * funded entries, in order, to the end of the reserved list; refuse, moving
   * nothing, when too few remain.
   */
  function Reserve(p: Pool, count: nat, now: int): (r: (Pool, bool))
    ensures var f := Unexpired(p.funded, now);
      && (r.1 <==> count <= |f|)
      && (!r.1 ==> r.0 == Pool(f, p.reserved))
      && (r.1 ==> r.0.funded == f[count..] && r.0.reserved == p.reserved + f[..count])
      && multiset(r.0.funded) + multiset(r.0.reserved) == multiset(f) + multiset(p.reserved)
  {
    var (filtered, size) := Size(p, now);
    if size < count then (filtered, false)
    else
      var f := filtered.funded;
      assert f == f[..count] + f[count..];
      (Pool(f[count..], p.reserved + f[..count]), true)
  }

  /**
   * `unreserve` as the source writes it: the entries spliced off the head of
   * `funded` are concatenated with what is left of `funded`, which rebuilds
   * the same list, and `reserved` is never touched.
   */
  function UnreserveAsWritten(p: Pool, count: nat): (r: Result<Pool, string>)
    ensures r.Err? <==> |p.reserved| < count
    ensures r.Ok? ==> r.value == p
  {
    if |p.reserved| < count then Err("unable to unreserve")
    else
      var taken := if count <= |p.funded| then count else |p.funded|;
      var spliced := p.funded[..taken];
      var remaining := p.funded[taken..];
      Ok(p.(funded := spliced + remaining))
  }

  /** The as-written `unreserve` does not undo a reservation: the reserved account stays reserved. */
  lemma UnreserveAsWrittenKeepsReservation()
    ensures var p := Pool([Entry(1, 10)], []);
      var (reserved, ok) := Reserve(p, 1, 0);
      ok && UnreserveAsWritten(reserved, 1) == Ok(Pool([], [Entry(1, 10)]))
  {
    var p := Pool([Entry(1, 10)], []);
    assert [Entry(1, 10)][..0] == [];
    var f := Unexpired(p.funded, 0);
    assert f == [Entry(1, 10)];
    assert f[..1] == f && f[1..] == [];
  }

  /**
   * `unreserve` as intended: return the `count` most recently reserved
   * entries to the head of the funded list, in order.
   */
  function Unreserve(p: Pool, count: nat): (r: Result<Pool, string>)
    ensures r.Err? <==> |p.reserved| < count
    ensures r.Ok? ==> r.value.funded == p.reserved[|p.reserved| - count..] + p.funded
    ensures r.Ok? ==> r.value.reserved == p.reserved[..|p.reserved| - count]
  {
    if |p.reserved| < count then Err("unable to unreserve")
    else
      var split := |p.reserved| - count;
      Ok(Pool(p.reserved[split..] + p.funded, p.reserved[..split]))
  }

  /** Unreserving what was just reserved restores the pool as `size` left it. */
  lemma ReserveThenUnreserve(p: Pool, count: nat, now: int)
    requires Reserve(p, count, now).1
    ensures Unreserve(Reserve(p, count, now).0, count) == Ok(Pool(Unexpired(p.funded, now), p.reserved))
  {
    var f := Unexpired(p.funded, now);
    var q := Reserve(p, count, now).0;
    assert q.reserved[|q.reserved| - count..] == f[..count];
    assert q.reserved[..|q.reserved| - count] == p.reserved;
    assert f[..count] + f[count..] == f;
  }

  /**
   * `pop`: hand out the `count` oldest reservations, in order; fail when
   * fewer are reserved.
   */
  function Pop(p: Pool, count: nat): (r: Result<(Pool, seq<nat>), string>)
    ensures r.Err? <==> |p.reserved| < count
    ensures r.Ok? ==> |r.value.1| == count && r.value.0.funded == p.funded
    ensures r.Ok? ==> forall i :: 0 <= i < count ==> r.value.1[i] == p.reserved[i].account
    ensures r.Ok? ==> p.reserved == p.reserved[..count] + r.value.0.reserved
  {
    if |p.reserved| < count then Err("reserve depleted")
    else
      var popped := p.reserved[..count];
      Ok((p.(reserved := p.reserved[count..]), seq(count, i requires 0 <= i < count => popped[i].account)))
  }

  /**
   * First in, first out: with nothing reserved before, popping what was just
   * reserved hands out the oldest unexpired funded accounts.
   */
  lemma ReserveThenPop(p: Pool, count: nat, now: int)
    requires p.reserved == []
    requires Reserve(p, count, now).1
    ensures var r := Pop(Reserve(p, count, now).0, count);
      r.Ok? && r.value.0 == Pool(Unexpired(p.funded, now)[count..], [])
      && forall i :: 0 <= i < count ==> r.value.1[i] == Unexpired(p.funded, now)[i].account
  {
    var q := Reserve(p, count, now).0;
    assert q.reserved == Unexpired(p.funded, now)[..count];
    assert q.reserved[count..] == [];
  }

  /** The next batch `replenish` creates: what is missing up to the supply size, at most a batch. */
  function BatchSize(fundedLength: nat): (b: nat)
    requires fundedLength < SUPPLY_SIZE
    ensures 1 <= b <= BATCH_SIZE && fundedLength + b <= SUPPLY_SIZE
    ensures b == BATCH_SIZE || fundedLength + b == SUPPLY_SIZE
  {
    if SUPPLY_SIZE - fundedLength < BATCH_SIZE then SUPPLY_SIZE - fundedLength else BATCH_SIZE
  }

  /** The entries one batch of creation attempts yields: the successes, in order, all expiring at `expiresAt`. */
  function Created(attempts: seq<Option<nat>>, expiresAt: int): seq<Entry>
    decreases |attempts|
  {
    if |attempts| == 0 then []
    else
      var prev := Created(attempts[..|attempts| - 1], expiresAt);
      match attempts[|attempts| - 1]
      case Some(account) => prev + [Entry(account, expiresAt)]
      case None => prev
  }

  /** Only successful creations become entries, one per success, each expiring at `expiresAt`. */
  lemma {:induction false} CreatedKeepsSuccesses(attempts: seq<Option<nat>>, expiresAt: int)
    ensures |Created(attempts, expiresAt)| <= |attempts|
    ensures forall e :: e in Created(attempts, expiresAt) ==> e.expiration == expiresAt && Some(e.account) in attempts
    decreases |attempts|
  {
    if |attempts| > 0 {
      var prefix := attempts[..|attempts| - 1];
      CreatedKeepsSuccesses(prefix, expiresAt);
      assert attempts == prefix + [attempts[|attempts| - 1]];
    }
  }

  lemma {:induction false} CreatedAppend(a: seq<Option<nat>>, b: seq<Option<nat>>, expiresAt: int)
    ensures Created(a + b, expiresAt) == Created(a, expiresAt) + Created(b, expiresAt)
    decreases |b|
  {
    if |b| > 0 {
      var b' := b[..|b| - 1];
      assert (a + b)[..|a + b| - 1] == a + b';
      assert (a + b)[|a + b| - 1] == b[|b| - 1];
      CreatedAppend(a, b', expiresAt);
    } else {
      assert a + b == a;
    }
  }

  /**
   * `replenish`, with the outcome of each account creation it attempts as
   * input: batches of creations until the pool is full, keeping the
   * successes. The loop stops early only when the supplied outcomes cannot
   * fill the next batch.
   */
  method Replenish(funded: seq<Entry>, attempts: seq<Option<nat>>, expiresAt: int) returns (r: seq<Entry>, used: nat)
    ensures used <= |attempts|
    ensures r == funded + Created(attempts[..used], expiresAt)
    ensures |funded| <= SUPPLY_SIZE ==> |r| <= SUPPLY_SIZE
    ensures |funded| >= SUPPLY_SIZE ==> r == funded
    ensures |r| < SUPPLY_SIZE ==> used + BatchSize(|r|) > |attempts|
  {
    r := funded;
    used := 0;
    while |r| < SUPPLY_SIZE && used + BatchSize(|r|) <= |attempts|
      invariant used <= |attempts|
      invariant r == funded + Created(attempts[..used], expiresAt)
      invariant |funded| <= SUPPLY_SIZE ==> |r| <= SUPPLY_SIZE
      invariant |funded| >= SUPPLY_SIZE ==> used == 0
      decreases |attempts| - used
    {
      var size := BatchSize(|r|);
      ReplenishStep(funded, attempts, used, size, expiresAt);
      r := r + Created(attempts[used..used + size], expiresAt);
      used := used + size;
    }
    if |funded| >= SUPPLY_SIZE {
      assert attempts[..0] == [];
    }
  }

  /** One more batch extends the accounts created so far by at most its size. */
  lemma ReplenishStep(funded: seq<Entry>, attempts: seq<Option<nat>>, used: nat, size: nat, expiresAt: int)
    requires used + size <= |attempts|
    ensures funded + Created(attempts[..used], expiresAt) + Created(attempts[used..used + size], expiresAt)
      == funded + Created(attempts[..used + size], expiresAt)
    ensures |Created(attempts[used..used + size], expiresAt)| <= size
  {
    var batch := attempts[used..used + size];
    CreatedAppend(attempts[..used], batch, expiresAt);
    CreatedKeepsSuccesses(batch, expiresAt);
    assert attempts[..used + size] == attempts[..used] + batch;
  }
}

=== FILE: addresses.dfy ===
/**
 * Account addresses. A derived address is represented by the inputs of its
 * derivation, so equal inputs always give the same address and different
 * inputs never collide: the collision resistance that program-derived and
 * associated-token addresses rely on.
 */
module Addresses {

  datatype Pubkey =
    | Named(name: string)
      /** `Pubkey::find_program_address(seeds, program_id).0` */
    | ProgramAddress(programId: Pubkey, seeds: seq<Seed>)
      /** `get_associated_token_address(wallet, mint)` */
    | AssociatedToken(wallet: Pubkey, mint: Pubkey)
      /** `Dca::pubkey(authority, mint_a, mint_b)` of the DCA program */
    | DcaAddress(authority: Pubkey, mintA: Pubkey, mintB: Pubkey)
      /** `Thread::pubkey(authority, id)` of the thread program */
    | ThreadAddress(authority: Pubkey, id: string)

  /** One seed of a program-address derivation. */
  datatype Seed = Text(bytes: string) | KeyBytes(key: Pubkey)

  const WHIRLPOOL_PROGRAM_ID: Pubkey := Named("whirLbMiicVdio4qvUfM5KAg6Ct8VwpYzGff3uctyCc")
  const DCA_PROGRAM_ID: Pubkey := Named("orca_whirlpool_dca::ID")
  const THREAD_PROGRAM_ID: Pubkey := Named("clockwork thread program")
  const SYSTEM_PROGRAM_ID: Pubkey := Named("system_program::ID")
  const TOKEN_PROGRAM_ID: Pubkey := Named("token::ID")
  const ASSOCIATED_TOKEN_PROGRAM_ID: Pubkey := Named("associated_token::ID")
}

=== FILE: api_config.dfy ===
/**
 * The game API's configuration in the older client: the init and account
 * refresh exchanges with the server, and the reducer that records them.
 */
module ApiConfig {
  import opened Wrappers

  datatype ConfigStatus = Initialized | Fetching | PaymentRequired | ReadyToPlay | Failure

  datatype Config = Config(cluster: Option<string>, clusterUrl: string, programId: string, gameCost: int, paymentRequired: bool)

  datatype AccountsConfig = AccountsConfig(programAccounts: seq<string>, feeAccounts: seq<string>, accountCapacity: int)

  datatype State = State(status: ConfigStatus, gameCost: int, config: Option<Config>, accounts: Option<AccountsConfig>)

  datatype Action =
    | InitializedAction(config: Config)
    | FetchingAction
    | PaymentRequiredAction(gameCost: int)
    | ReadyAction(accounts: AccountsConfig)
    | FailureAction

  function StatusOf(a: Action): ConfigStatus {
    match a
    case InitializedAction(_) => Initialized
    case FetchingAction => Fetching
    case PaymentRequiredAction(_) => PaymentRequired
    case ReadyAction(_) => ReadyToPlay
    case FailureAction => Failure
  }

  /**
   * `configReducer`: every action overwrites the fields it carries; a fetch
   * also forgets the fee accounts.
   */
  function Reduce(s: State, a: Action): (r: State)
    ensures r.status == StatusOf(a)
    ensures r.gameCost == if a.PaymentRequiredAction? then a.gameCost else s.gameCost
    ensures r.config == if a.InitializedAction? then Some(a.config) else s.config
    ensures r.accounts == if a.ReadyAction? then Some(a.accounts) else if a.FetchingAction? then None else s.accounts
  {
    match a
    case InitializedAction(config) => s.(status := Initialized, config := Some(config))
    case FetchingAction => s.(status := Fetching, accounts := None)
    case PaymentRequiredAction(cost) => s.(status := PaymentRequired, gameCost := cost)
    case ReadyAction(accounts) => s.(status := ReadyToPlay, accounts := Some(accounts))
    case FailureAction => s.(status := Failure)
  }

  const InitialState := State(Fetching, 0, None, None)

  /** `usePaymentRequired`. */
  predicate PaymentIsRequired(s: State) {
    s.status == PaymentRequired
  }

  function ReduceAll(s: State, actions: seq<Action>): State
    decreases |actions|
  {
    if |actions| == 0 then s else ReduceAll(Reduce(s, actions[0]), actions[1..])
  }

  /**
   * What one account refresh request returns: a transport or JSON failure,
   * or a response body with the fields the client inspects. `accounts` is
   * what `configFromAccounts` builds from the body; it is `None` when that
   * throws: a missing `programAccounts` or `feeAccounts` list, or a key that
   * does not parse.
   */
  datatype RefreshResponse =
    | RequestFailed
    | Body(message: Option<string>, amount: int, hasAccountKeys: bool, hasAccountCapacity: bool,
           accounts: Option<AccountsConfig>)

  /**
   * The handling of one response inside `refreshAccounts`: the action it
   * dispatches and whether the loop is done. A payment demand asks one
   * lamport more than the amount so the account is never emptied; a body
   * without account keys or capacity, or one whose accounts cannot be
   * built, throws into the catch, which dispatches a failure and retries.
   */
  function HandleRefresh(resp: RefreshResponse): (r: (Action, bool))
    ensures r.1 <==> r.0.PaymentRequiredAction? || r.0.ReadyAction?
    ensures !r.1 ==> r.0 == FailureAction
    ensures r.0.PaymentRequiredAction? <==> resp.Body? && resp.message == Some("Payment required")
    ensures r.0.PaymentRequiredAction? ==> r.0.gameCost == resp.amount + 1
    ensures r.0.ReadyAction? <==>
      && resp.Body? && resp.message != Some("Payment required")
      && resp.hasAccountKeys && resp.hasAccountCapacity && resp.accounts.Some?
    ensures r.0.ReadyAction? ==> resp.Body? && Some(r.0.accounts) == resp.accounts
  {
    match resp
    case RequestFailed => (FailureAction, false)
    case Body(message, amount, hasKeys, hasCapacity, accounts) =>
      if message == Some("Payment required") then (PaymentRequiredAction(amount + 1), true)
      else if !hasKeys || !hasCapacity then (FailureAction, false)
      else if accounts.None? then (FailureAction, false)
      else (ReadyAction(accounts.value), true)
  }

  /** A body that passes the field checks but lacks the account lists fails and is retried. */
  lemma AccountListsMissingRetries(amount: int)
    ensures HandleRefresh(Body(None, amount, true, true, None)) == (FailureAction, false)
  {
  }

  /**
   * The retry loop: one action per response, in order, stopping right after
   * the first response that ends the loop, or when the responses run out.
   */
  function RefreshLoop(responses: seq<RefreshResponse>): (actions: seq<Action>)
    ensures |actions| <= |responses|
    ensures |actions| == 0 <==> |responses| == 0
    ensures forall i :: 0 <= i < |actions| ==> actions[i] == HandleRefresh(responses[i]).0
    ensures forall i :: 0 <= i < |actions| - 1 ==> !HandleRefresh(responses[i]).1 && actions[i] == FailureAction
    ensures 0 < |actions| < |responses| ==> HandleRefresh(responses[|actions| - 1]).1
    decreases |responses|
  {
    if |responses| == 0 then []
    else
      var (action, done) := HandleRefresh(responses[0]);
      if done then [action] else [action] + RefreshLoop(responses[1..])
  }

  /** `refreshAccounts`: announce the fetch, then dispatch one action per response until one succeeds. */
  function RefreshAccounts(responses: seq<RefreshResponse>): seq<Action> {
    [FetchingAction] + RefreshLoop(responses)
  }

  /** Whether some response ends the refresh loop. */
  predicate Answered(responses: seq<RefreshResponse>) {
    exists i :: 0 <= i < |responses| && HandleRefresh(responses[i]).1
  }

  /**
   * After a refresh whose retries end in an answer, the client either owes
   * the announced cost plus one lamport or holds the new fee accounts;
   * while no answer has come it shows a failure and holds no accounts.
   */
  lemma {:induction false} RefreshOutcome(s: State, responses: seq<RefreshResponse>)
    ensures var r := ReduceAll(Reduce(s, FetchingAction), RefreshLoop(responses));
      (Answered(responses) ==> r.status == PaymentRequired || r.status == ReadyToPlay) &&
      (!Answered(responses) && |responses| > 0 ==> r.status == Failure && r.accounts.None?)
    decreases |responses|
  {
    if |responses| > 0 {
      var s' := Reduce(s, FetchingAction);
      var (action, done) := HandleRefresh(responses[0]);
      if done {
        assert RefreshLoop(responses) == [action];
      } else {
        assert RefreshLoop(responses) == [action] + RefreshLoop(responses[1..]);
        var s'' := Reduce(s', action);
        assert ReduceAll(s', RefreshLoop(responses)) == ReduceAll(s'', RefreshLoop(responses[1..]));
        RefreshOutcome(s'', responses[1..]);
        if Answered(responses) {
          var i :| 0 <= i < |responses| && HandleRefresh(responses[i]).1;
          assert i > 0;
          assert Answered(responses[1..]) by { assert HandleRefresh(responses[1..][i - 1]).1; }
        }
        if |responses[1..]| == 0 {
          assert ReduceAll(s'', []) == s'';
        }
      }
    }
  }

  /**
   * `useClusterParam`: devnet before any configuration arrives, then the
   * configured cluster by name, or the RPC URL when the cluster is unnamed.
   */
  function ClusterParam(s: State): (q: string)
    ensures s.config.None? ==> q == "cluster=devnet"
    ensures s.config.Some? && s.config.value.cluster.GetOr("") != "" ==> q == "cluster=" + s.config.value.cluster.value
    ensures s.config.Some? && s.config.value.cluster.GetOr("") == "" ==> q == "clusterUrl=" + s.config.value.clusterUrl
  {
    match s.config
    case None => "cluster=devnet"
    case Some(c) => if c.cluster.GetOr("") != "" then "cluster=" + c.cluster.value else "clusterUrl=" + c.clusterUrl
  }

  /** What a server reads back from the query parameter: a cluster name or an RPC URL. */
  datatype ClusterChoice = Named(name: string) | Url(url: string) | Unreadable

  function ReadClusterParam(q: string): ClusterChoice {
    if |q| >= 8 && q[..8] == "cluster=" then Named(q[8..])
    else if |q| >= 11 && q[..11] == "clusterUrl=" then Url(q[11..])
    else Unreadable
  }

  /**
   * The parameter always reads back as the choice it encodes: devnet with no
   * configuration, the named cluster, or else the RPC URL.
   */
  lemma ClusterParamReadsBack(s: State)
    ensures ReadClusterParam(ClusterParam(s)) ==
      if s.config.None? then Named("devnet")
      else if s.config.value.cluster.GetOr("") != "" then Named(s.config.value.cluster.value)
      else Url(s.config.value.clusterUrl)
  {
    var q := ClusterParam(s);
    if s.config.Some? && s.config.value.cluster.GetOr("") == "" {
      assert q[..11] == "clusterUrl=";
      assert q[7] == 'U';
    } else {
      assert q[..8] == "cluster=";
    }
  }
}

=== FILE: bit_flip.dfy ===
/**
 * The on-chain break program: each instruction names a transaction id as a
 * big-endian `u16` and toggles that id's bit in the first account's data.
 */
module BitFlip {
  import opened Wrappers

  type Byte = bv8

  /** Why the program fails (an index panic in each case). */
  datatype ProgramError =
    | NoAccounts
    | InstructionDataTooShort
    | ByteIndexOutOfRange

  /** `u16::from_be_bytes([data[0], data[1]])`; later bytes are ignored. */
  function IdOf(ix: seq<Byte>): (id: int)
    requires |ix| >= 2
    ensures 0 <= id <= 0xffff
  {
    ix[0] as int * 256 + ix[1] as int
  }

  /** `1 << (7 - bit)` for `bit = 0 .. 7`. */
  const MASKS: seq<Byte> := [0x80, 0x40, 0x20, 0x10, 0x08, 0x04, 0x02, 0x01]

  /** `1 << (7 - bit)` for `bit = id & 0x7`: bit 0 is the most significant of the byte. */
  function Mask(id: nat): Byte {
    MASKS[id % 8]
  }

  /** Whether byte `b` holds the bit that `Mask(k)` selects. */
  predicate BitOn(b: Byte, k: nat) {
    b & Mask(k) != 0
  }

  /** Whether id `k` is recorded in `data`: bit `7 - k % 8` of byte `k / 8`. */
  predicate IdSet(data: seq<Byte>, k: nat)
    requires k / 8 < |data|
  {
    BitOn(data[k / 8], k)
  }

  /** A byte with exactly one bit set. */
  predicate SingleBit(m: Byte) {
    m == 0x80 || m == 0x40 || m == 0x20 || m == 0x10 || m == 0x08 || m == 0x04 || m == 0x02 || m == 0x01
  }

  lemma MaskSingle(x: nat)
    ensures SingleBit(Mask(x))
  {
  }

  /** Under a one-bit mask, the bit of `a ^ b` is set when exactly one of theirs is. */
  lemma XorSingle(a: Byte, b: Byte, m: Byte)
    requires SingleBit(m)
    ensures ((a ^ b) & m != 0) <==> ((a & m != 0) != (b & m != 0))
  {
  }

  /** Ids that share a position within their bytes test the same bit. */
  lemma BitOnPeriodic(b: Byte, x: nat, k: nat)
    requires x % 8 == k % 8
    ensures BitOn(b, x) == BitOn(b, k)
  {
    MaskPeriodic(x, k);
  }

  /** Ids that share a position within their bytes share a mask. */
  lemma MaskPeriodic(x: nat, k: nat)
    requires x % 8 == k % 8
    ensures Mask(x) == Mask(k)
  {
  }

  /** The byte whose value is `n`, counted up from zero. */
  function ToByte(n: int): (b: Byte)
    requires 0 <= n < 256
    ensures b as int == n
    decreases n
  {
    if n == 0 then 0
    else
      var p := ToByte(n - 1);
      SuccByte(p);
      p + 1
  }

  /** Adding one to a byte below 255 adds one to its value. */
  lemma SuccByte(b: Byte)
    requires b as int < 255
    ensures (b + 1) as int == b as int + 1
  {
  }

  lemma IntOfByte(b: Byte)
    ensures (b as int) as Byte == b
  {
  }

  /** Toggles the bit of `id`; every other byte is left alone. */
  function Flip(data: seq<Byte>, id: nat): (r: seq<Byte>)
    requires id / 8 < |data|
    ensures |r| == |data|
    ensures forall i :: 0 <= i < |data| && i != id / 8 ==> r[i] == data[i]
  {
    data[id / 8 := data[id / 8] ^ Mask(id)]
  }

  /** Flipping `id` changes the membership of `id` and of no other id. */
  lemma FlipTogglesOnlyId(data: seq<Byte>, id: nat)
    requires id / 8 < |data|
    ensures forall k: nat :: k / 8 < |data| ==> (IdSet(Flip(data, id), k) <==> (IdSet(data, k) != (k == id)))
  {
    forall k: nat | k / 8 < |data|
      ensures IdSet(Flip(data, id), k) <==> (IdSet(data, k) != (k == id))
    {
      FlipTogglesAt(data, id, k);
    }
  }

  lemma FlipTogglesAt(data: seq<Byte>, id: nat, k: nat)
    requires id / 8 < |data| && k / 8 < |data|
    ensures IdSet(Flip(data, id), k) <==> (IdSet(data, k) != (k == id))
  {
    if k / 8 == id / 8 {
      FlipSameByte(data, id, k);
    } else {
      FlipOtherByte(data, id, k);
    }
  }

  lemma FlipSameByte(data: seq<Byte>, id: nat, k: nat)
    requires id / 8 < |data| && k / 8 == id / 8
    ensures IdSet(Flip(data, id), k) <==> (IdSet(data, k) != (k == id))
  {
    var i := k / 8;
    var before, after := data[i], Flip(data, id)[i];
    assert after == before ^ Mask(id);
    MaskXor(before, id, k);
    assert IdSet(Flip(data, id), k) == BitOn(after, k);
    assert IdSet(data, k) == BitOn(before, k);
  }

  lemma FlipOtherByte(data: seq<Byte>, id: nat, k: nat)
    requires id / 8 < |data| && k / 8 < |data| && k / 8 != id / 8
    ensures IdSet(Flip(data, id), k) == IdSet(data, k) && k != id
  {
    assert Flip(data, id)[k / 8] == data[k / 8];
  }

  /** Toggling one bit of a byte flips that bit's test and no other bit's test. */
  lemma MaskXor(b: Byte, id: nat, k: nat)
    requires k / 8 == id / 8
    ensures BitOn(b ^ Mask(id), k) <==> (BitOn(b, k) != (k == id))
  {
    MaskSingle(id);
    MaskSingle(k);
    if k == id {
      XorSingle(b, Mask(id), Mask(id));
    } else {
      assert k % 8 != id % 8;
      MaskDistinct(id, k);
      XorOtherBit(b, Mask(id), Mask(k));
    }
  }

  /** Different positions within a byte have different masks. */
  lemma MaskDistinct(x: nat, k: nat)
    requires x % 8 != k % 8
    ensures Mask(x) != Mask(k)
  {
  }

  /** Toggling one bit leaves every other bit's test unchanged. */
  lemma XorOtherBit(b: Byte, m: Byte, n: Byte)
    requires SingleBit(m) && SingleBit(n) && m != n
    ensures (b ^ m) & n == b & n
  {
  }

  /**
   * `process_instruction`: fails when there is no account, when the
   * instruction has fewer than two bytes, or when the id's byte lies beyond
   * the account data; otherwise toggles the id's bit in account 0 only.
   */
  function ProcessInstruction(accounts: seq<seq<Byte>>, ix: seq<Byte>): (r: Result<seq<seq<Byte>>, ProgramError>)
    ensures r.Ok? <==> |accounts| >= 1 && |ix| >= 2 && IdOf(ix) / 8 < |accounts[0]|
    ensures |accounts| == 0 ==> r == Err(NoAccounts)
    ensures r.Ok? ==> |r.value| == |accounts| && r.value[1..] == accounts[1..]
    ensures r.Ok? ==> |r.value[0]| == |accounts[0]|
    ensures r.Ok? ==> forall k: nat :: k / 8 < |accounts[0]| ==>
      (IdSet(r.value[0], k) <==> (IdSet(accounts[0], k) != (k == IdOf(ix))))
  {
    if |accounts| == 0 then Err(NoAccounts)
    else if |ix| < 2 then Err(InstructionDataTooShort)
    else
      var index := IdOf(ix);
      if index / 8 >= |accounts[0]| then Err(ByteIndexOutOfRange)
      else
        FlipTogglesOnlyId(accounts[0], index);
        Ok([Flip(accounts[0], index)] + accounts[1..])
  }

  /** The same instruction applied twice restores every account's data. */
  lemma FlipTwiceRestores(accounts: seq<seq<Byte>>, ix: seq<Byte>)
    requires ProcessInstruction(accounts, ix).Ok?
    ensures ProcessInstruction(ProcessInstruction(accounts, ix).value, ix) == Ok(accounts)
  {
    var once := ProcessInstruction(accounts, ix).value;
    var id := IdOf(ix);
    var twice := ProcessInstruction(once, ix).value;
    assert twice[0] == accounts[0] by {
      forall i | 0 <= i < |accounts[0]|
        ensures twice[0][i] == accounts[0][i]
      {
        if i == id / 8 {
          XorTwice(accounts[0][i], Mask(id));
        }
      }
    }
    assert twice == accounts by {
      assert twice == [twice[0]] + twice[1..];
      assert accounts == [accounts[0]] + accounts[1..];
    }
  }

  lemma XorTwice(b: Byte, m: Byte)
    ensures (b ^ m) ^ m == b
  {
  }

  lemma XorSwap(b: Byte, m1: Byte, m2: Byte)
    ensures (b ^ m1) ^ m2 == (b ^ m2) ^ m1
  {
  }

  /** Instructions for two ids commute: the order of arrival does not matter. */
  lemma FlipsCommute(data: seq<Byte>, id1: nat, id2: nat)
    requires id1 / 8 < |data| && id2 / 8 < |data|
    ensures Flip(Flip(data, id1), id2) == Flip(Flip(data, id2), id1)
  {
    var a := Flip(Flip(data, id1), id2);
    var b := Flip(Flip(data, id2), id1);
    forall i | 0 <= i < |data|
      ensures a[i] == b[i]
    {
      CommuteAt(data, id1, id2, i);
    }
  }

  lemma CommuteAt(data: seq<Byte>, id1: nat, id2: nat, i: nat)
    requires id1 / 8 < |data| && id2 / 8 < |data| && i < |data|
    ensures Flip(Flip(data, id1), id2)[i] == Flip(Flip(data, id2), id1)[i]
  {
    if i == id1 / 8 && i == id2 / 8 {
      CommuteSameByte(data, id1, id2);
    } else if i == id1 / 8 {
      FlipOneByteOnly(data, id1, id2, i);
    } else if i == id2 / 8 {
      FlipOneByteOnly(data, id2, id1, i);
    }
  }

  /** Two flips in the same byte xor both masks into it, in either order. */
  lemma CommuteSameByte(data: seq<Byte>, id1: nat, id2: nat)
    requires id1 / 8 < |data| && id2 / 8 == id1 / 8
    ensures Flip(Flip(data, id1), id2)[id1 / 8] == Flip(Flip(data, id2), id1)[id1 / 8]
  {
    FlipByte(data, id1);
    FlipByte(data, id2);
    FlipByte(Flip(data, id1), id2);
    FlipByte(Flip(data, id2), id1);
    XorSwap(data[id1 / 8], Mask(id1), Mask(id2));
  }

  /** The byte that flipping `id` changes. */
  lemma FlipByte(data: seq<Byte>, id: nat)
    requires id / 8 < |data|
    ensures Flip(data, id)[id / 8] == data[id / 8] ^ Mask(id)
  {
  }

  /** At a byte only `id` touches, both orders leave that byte xor-ed with the mask of `id` alone. */
  lemma FlipOneByteOnly(data: seq<Byte>, id: nat, other: nat, i: nat)
    requires id / 8 < |data| && other / 8 < |data| && i == id / 8 && i != other / 8
    ensures Flip(Flip(data, id), other)[i] == Flip(Flip(data, other), id)[i]
  {
    assert Flip(Flip(data, id), other)[i] == Flip(data, id)[i];
    assert Flip(data, other)[i] == data[i];
  }

  /**
   * The inputs of the sanity tests kept next to the program: under the
   * two-byte id encoding, `[1, 1, 1, 1]` names id 257, whose byte lies
   * beyond four bytes of data, while `[0, 1, 2]` and `[0, 1, 2, 4]` name
   * id 1, which fits in two or three bytes.
   */
  lemma SanityTestInputs()
    ensures ProcessInstruction([[0, 0, 0, 0]], [1, 1, 1, 1]) == Err(ByteIndexOutOfRange)
    ensures ProcessInstruction([[0, 0]], [0, 1, 2]) == Ok([[0x40, 0]])
    ensures ProcessInstruction([[0, 0, 0]], [0, 1, 2, 4]) == Ok([[0x40, 0, 0]])
    ensures ProcessInstruction([], [0, 1, 2, 4]) == Err(NoAccounts)
  {
    var two: seq<seq<Byte>> := [[0, 0]];
    var three: seq<seq<Byte>> := [[0, 0, 0]];
    assert IdOf([0, 1, 2]) == 1 && IdOf([0, 1, 2, 4]) == 1 && Mask(1) == 0x40;
    assert Flip([0, 0], 1) == [0x40, 0];
    assert Flip([0, 0, 0], 1) == [0x40, 0, 0];
    assert two[1..] == [] && three[1..] == [];
    assert ProcessInstruction(two, [0, 1, 2]) == Ok([Flip([0, 0], 1)] + two[1..]);
    assert ProcessInstruction(three, [0, 1, 2, 4]) == Ok([Flip([0, 0, 0], 1)] + three[1..]);
    assert [Flip([0, 0], 1)] + two[1..] == [[0x40, 0]];
    assert [Flip([0, 0, 0], 1)] + three[1..] == [[0x40, 0, 0]];
  }
}

=== FILE: dca_client.dfy ===
/**
 * The DCA example client: builds the instruction batches that create the DCA
 * account and its scheduler thread, or that delete both, and submits them.
 */
module DcaClient {
  import opened Wrappers
  import opened Addresses
  import opened Instructions
  import DcaThread

  const DCA_THREAD_ID: string := "BONK_USDC_WP_DCA"
  const SWAP_AMOUNT: int := 100000
  const THREAD_FUNDING_LAMPORTS: int := 100000000
  const CRON_EVERY_15_SECONDS: string := "*/15 * * * * *"

  datatype WhirlpoolParams = WhirlpoolParams(whirlpool: Pubkey, tokenMintA: Pubkey, tokenMintB: Pubkey, oracle: Pubkey)

  /** What the RPC node makes of one submitted transaction. */
  datatype RpcOutcome =
    | Confirmed
    | Rejected
      /** the latest-blockhash request failed; its `unwrap` panics */
    | NoBlockhash

  /** One transaction handed to `sign_send_and_confirm_tx`. */
  datatype Submission = Submission(name: string, batch: seq<Instruction>, confirmed: bool)

  /** The transactions submitted, and whether the program stopped on a panic. */
  datatype Run = Run(submitted: seq<Submission>, panicked: bool)

  function DcaPubkey(payer: Pubkey, p: WhirlpoolParams): Pubkey {
    DcaAddress(payer, p.tokenMintA, p.tokenMintB)
  }

  function DcaThreadPubkey(payer: Pubkey, threadId: string): Pubkey {
    ThreadAddress(payer, threadId)
  }

  /** `dca_create_ix`: open the DCA account and its vaults and delegate the payer's token A vault. */
  function DcaCreateIx(payer: Pubkey, p: WhirlpoolParams, sqrtPrice: int): Instruction {
    var dca := DcaPubkey(payer, p);
    Instruction(DCA_PROGRAM_ID,
      [ AccountRef("associated_token_program", ASSOCIATED_TOKEN_PROGRAM_ID),
        AccountRef("authority", payer),
        AccountRef("authority_a_vault", AssociatedToken(payer, p.tokenMintA)),
        AccountRef("a_mint", p.tokenMintA),
        AccountRef("authority_b_vault", AssociatedToken(payer, p.tokenMintB)),
        AccountRef("b_mint", p.tokenMintB),
        AccountRef("dca", dca),
        AccountRef("dca_a_vault", AssociatedToken(dca, p.tokenMintA)),
        AccountRef("dca_b_vault", AssociatedToken(dca, p.tokenMintB)),
        AccountRef("system_program", SYSTEM_PROGRAM_ID),
        AccountRef("token_program", TOKEN_PROGRAM_ID),
        AccountRef("whirlpool", p.whirlpool) ],
      DcaCreateData(SWAP_AMOUNT, 0, sqrtPrice, false, false))
  }

  /** The instruction the thread fires on every tick of its schedule. */
  function KickoffIx(payer: Pubkey, p: WhirlpoolParams, threadId: string): Instruction {
    var dca := DcaPubkey(payer, p);
    Instruction(DCA_PROGRAM_ID,
      [ AccountRef("authority_a_vault", AssociatedToken(payer, p.tokenMintA)),
        AccountRef("authority_b_vault", AssociatedToken(payer, p.tokenMintB)),
        AccountRef("dca", dca),
        AccountRef("dca_a_vault", AssociatedToken(dca, p.tokenMintA)),
        AccountRef("dca_b_vault", AssociatedToken(dca, p.tokenMintB)),
        AccountRef("dca_thread", DcaThreadPubkey(payer, threadId)),
        AccountRef("oracle", p.oracle),
        AccountRef("system_program", SYSTEM_PROGRAM_ID),
        AccountRef("token_program", TOKEN_PROGRAM_ID),
        AccountRef("whirlpool", p.whirlpool) ],
      Sighash(DcaThread.GET_TICK_ARRAYS))
  }

  /** `thread_create(authority, id, kickoff, payer, thread, trigger)`. */
  function ThreadCreateSwapIx(payer: Pubkey, p: WhirlpoolParams, threadId: string): Instruction {
    Instruction(THREAD_PROGRAM_ID,
      [ AccountRef("authority", payer),
        AccountRef("payer", payer),
        AccountRef("thread", DcaThreadPubkey(payer, threadId)) ],
      ThreadCreateData(threadId, KickoffIx(payer, p, threadId), Cron(CRON_EVERY_15_SECONDS, true)))
  }

  /** The system transfer that funds the thread's execution fees. */
  function FundSwapThreadIx(payer: Pubkey, threadId: string): Instruction {
    Instruction(SYSTEM_PROGRAM_ID,
      [AccountRef("from", payer), AccountRef("to", DcaThreadPubkey(payer, threadId))],
      TransferData(THREAD_FUNDING_LAMPORTS))
  }

  function DcaDeleteIx(payer: Pubkey, p: WhirlpoolParams): Instruction {
    Instruction(DCA_PROGRAM_ID,
      [ AccountRef("authority", payer),
        AccountRef("close_to", payer),
        AccountRef("dca", DcaPubkey(payer, p)) ],
      Sighash("dca_delete"))
  }

  /** `thread_delete(authority, close_to, thread)`. */
  function ThreadDeleteIx(payer: Pubkey, threadId: string): Instruction {
    Instruction(THREAD_PROGRAM_ID,
      [ AccountRef("authority", payer),
        AccountRef("close_to", payer),
        AccountRef("thread", DcaThreadPubkey(payer, threadId)) ],
      ThreadDeleteData)
  }

  /**
   * `sign_send_and_confirm_tx`: a rejected transaction is only printed and
   * the call still returns `Ok`; only a failed blockhash request panics.
   */
  function SignSendAndConfirm(prior: Run, name: string, batch: seq<Instruction>, outcome: RpcOutcome): (r: Run)
    requires !prior.panicked
    ensures r.panicked <==> outcome == NoBlockhash
    ensures !r.panicked ==> r.submitted == prior.submitted + [Submission(name, batch, outcome == Confirmed)]
    ensures r.panicked ==> r.submitted == prior.submitted
  {
    if outcome == NoBlockhash then Run(prior.submitted, true)
    else Run(prior.submitted + [Submission(name, batch, outcome == Confirmed)], false)
  }

  /**
   * `dca_create`: read the pool's sqrt price once (its `unwrap` panics when
   * the read fails), then submit the create batch and the thread batch.
   */
  function DcaCreate(payer: Pubkey, p: WhirlpoolParams, threadId: string,
                     poolSqrtPrice: Option<int>, first: RpcOutcome, second: RpcOutcome): Run
  {
    match poolSqrtPrice
    case None => Run([], true)
    case Some(sqrtPrice) =>
      var afterCreate := SignSendAndConfirm(Run([], false), "dca create", [DcaCreateIx(payer, p, sqrtPrice)], first);
      if afterCreate.panicked then afterCreate
      else SignSendAndConfirm(afterCreate, "swap thread create",
                              [ThreadCreateSwapIx(payer, p, threadId), FundSwapThreadIx(payer, threadId)], second)
  }

  /** `dca_delete`: one batch closing the DCA account and deleting the thread. */
  function DcaDelete(payer: Pubkey, p: WhirlpoolParams, threadId: string, outcome: RpcOutcome): Run {
    SignSendAndConfirm(Run([], false), "dca delete", [DcaDeleteIx(payer, p), ThreadDeleteIx(payer, threadId)], outcome)
  }

  /** `main`: the `delete` feature selects deletion, otherwise creation. */
  function ClientMain(deleteFeature: bool, payer: Pubkey, p: WhirlpoolParams,
                poolSqrtPrice: Option<int>, first: RpcOutcome, second: RpcOutcome): Run
  {
    if deleteFeature then DcaDelete(payer, p, DCA_THREAD_ID, first)
    else DcaCreate(payer, p, DCA_THREAD_ID, poolSqrtPrice, first, second)
  }

  /**
   * Creation submits exactly two batches, in order, whatever became of the
   * first: `[dca_create_ix]`, then `[thread_create_swap_ix, fund_swap_thread_ix]`.
   * The thread is funded in the same transaction that creates it.
   */
  lemma CreateSubmitsTwoBatches(payer: Pubkey, p: WhirlpoolParams, threadId: string,
                                sqrtPrice: int, first: RpcOutcome, second: RpcOutcome)
    requires first != NoBlockhash && second != NoBlockhash
    ensures var run := DcaCreate(payer, p, threadId, Some(sqrtPrice), first, second);
      && !run.panicked
      && |run.submitted| == 2
      && run.submitted[0].batch == [DcaCreateIx(payer, p, sqrtPrice)]
      && run.submitted[1].batch == [ThreadCreateSwapIx(payer, p, threadId), FundSwapThreadIx(payer, threadId)]
      && run.submitted[0].confirmed == (first == Confirmed)
      && run.submitted[1].confirmed == (second == Confirmed)
  {
  }

  /** A failed pool read panics before anything is submitted. */
  lemma UnreadablePoolSubmitsNothing(payer: Pubkey, p: WhirlpoolParams, threadId: string,
                                     first: RpcOutcome, second: RpcOutcome)
    ensures DcaCreate(payer, p, threadId, None, first, second) == Run([], true)
  {
  }

  /**
   * The thread is armed with a skippable 15-second cron schedule, its kickoff
   * calls the DCA program's `get_tick_arrays` with this thread's account, and
   * the batch that creates the thread moves the 0.1 SOL funding to it.
   */
  lemma ThreadBatchArmsAndFunds(payer: Pubkey, p: WhirlpoolParams, threadId: string)
    ensures var create := ThreadCreateSwapIx(payer, p, threadId);
      var fund := FundSwapThreadIx(payer, threadId);
      && create.data.ThreadCreateData?
      && create.data.trigger == Cron("*/15 * * * * *", true)
      && create.data.kickoff.programId == DCA_PROGRAM_ID
      && create.data.kickoff.data == Sighash("get_tick_arrays")
      && AccountOf(create.data.kickoff, "dca_thread") == AccountOf(create, "thread")
      && AccountOf(fund, "to") == AccountOf(create, "thread")
      && fund.data == TransferData(100000000)
  {
    var create := ThreadCreateSwapIx(payer, p, threadId);
    AccountOfAt(create.data.kickoff, "dca_thread", 5);
    AccountOfAt(create, "thread", 2);
    AccountOfAt(FundSwapThreadIx(payer, threadId), "to", 1);
  }

  /**
   * The swap arguments are fixed: amount 100000, threshold 0, the pool's
   * sqrt price as read at setup as the limit, output-denominated, b to a.
   */
  lemma CreateArguments(payer: Pubkey, p: WhirlpoolParams, sqrtPrice: int)
    ensures DcaCreateIx(payer, p, sqrtPrice).data == DcaCreateData(100000, 0, sqrtPrice, false, false)
  {
  }

  /**
   * Deletion targets what creation made: the DCA account and the thread are
   * derived identically on both paths, and the delete batch refunds to the payer.
   */
  lemma DeleteTargetsCreated(payer: Pubkey, p: WhirlpoolParams, threadId: string, sqrtPrice: int)
    ensures AccountOf(DcaDeleteIx(payer, p), "dca") == AccountOf(DcaCreateIx(payer, p, sqrtPrice), "dca")
    ensures AccountOf(ThreadDeleteIx(payer, threadId), "thread") == AccountOf(ThreadCreateSwapIx(payer, p, threadId), "thread")
    ensures AccountOf(DcaDeleteIx(payer, p), "close_to") == Some(payer)
    ensures AccountOf(ThreadDeleteIx(payer, threadId), "close_to") == Some(payer)
  {
    AccountOfAt(DcaDeleteIx(payer, p), "dca", 2);
    AccountOfAt(DcaCreateIx(payer, p, sqrtPrice), "dca", 6);
    AccountOfAt(ThreadDeleteIx(payer, threadId), "thread", 2);
    AccountOfAt(ThreadCreateSwapIx(payer, p, threadId), "thread", 2);
    AccountOfAt(DcaDeleteIx(payer, p), "close_to", 1);
    AccountOfAt(ThreadDeleteIx(payer, threadId), "close_to", 1);
  }

  /** Deletion is one batch of the DCA close and the thread delete; no vault is touched. */
  lemma DeleteIsOneBatch(payer: Pubkey, p: WhirlpoolParams, threadId: string, outcome: RpcOutcome)
    requires outcome != NoBlockhash
    ensures var run := DcaDelete(payer, p, threadId, outcome);
      && run.submitted == [Submission("dca delete", [DcaDeleteIx(payer, p), ThreadDeleteIx(payer, threadId)], outcome == Confirmed)]
      && AccountOf(DcaDeleteIx(payer, p), "dca_a_vault").None?
      && AccountOf(DcaDeleteIx(payer, p), "dca_b_vault").None?
  {
    AccountOfAbsent(DcaDeleteIx(payer, p), "dca_a_vault");
    AccountOfAbsent(DcaDeleteIx(payer, p), "dca_b_vault");
  }

  /** The feature flag selects exactly one of the two flows. */
  lemma ClientMainSelectsOneFlow(deleteFeature: bool, payer: Pubkey, p: WhirlpoolParams,
                           price: Option<int>, first: RpcOutcome, second: RpcOutcome)
    ensures var run := ClientMain(deleteFeature, payer, p, price, first, second);
      deleteFeature ==> run == DcaDelete(payer, p, DCA_THREAD_ID, first)
    ensures var run := ClientMain(deleteFeature, payer, p, price, first, second);
      !deleteFeature ==> run == DcaCreate(payer, p, DCA_THREAD_ID, price, first, second)
  {
  }
}

=== FILE: dca_thread.dfy ===
/**
 * The `get_tick_arrays` instruction of the DCA program: the handler a
 * scheduler thread fires, answering with the instruction to run next.
 */
module DcaThread {
  import opened Wrappers
  import opened Addresses
  import opened Instructions

  const GET_TICK_ARRAYS: string := "get_tick_arrays"

  /** What the scheduler's thread response holds. */
  datatype ThreadResponse = ThreadResponse(kickoffInstruction: Option<Instruction>, nextInstruction: Option<Instruction>)

  /** The scheduler's thread account as stored on chain. */
  datatype Thread = Thread(authority: Pubkey, id: string)

  /** The account passed in the `dca_thread` position, as the runtime presents it. */
  datatype ThreadAccountInfo = ThreadAccountInfo(key: Pubkey, isSigner: bool, owner: Pubkey, data: Thread)

  /** Anchor's rejections of a `GetTickArrays` account list. */
  datatype ConstraintError =
    | AccountNotEnoughKeys
    | AccountOwnedByWrongProgram
    | ConstraintSigner
    | ConstraintAddress

  /** `Thread::pubkey()`: the thread's own derived address. */
  function ThreadPubkey(t: Thread): Pubkey {
    ThreadAddress(t.authority, t.id)
  }

  /**
   * The `GetTickArrays` account constraints: the single account must be a
   * thread account, must sign, and must sit at its own derived address.
   */
  function Validate(accounts: seq<ThreadAccountInfo>): (r: Result<Pubkey, ConstraintError>)
    ensures r.Ok? <==> |accounts| >= 1 && accounts[0].owner == THREAD_PROGRAM_ID
                       && accounts[0].isSigner && accounts[0].key == ThreadPubkey(accounts[0].data)
    ensures r.Ok? ==> r.value == accounts[0].key
  {
    if |accounts| == 0 then Err(AccountNotEnoughKeys)
    else if accounts[0].owner != THREAD_PROGRAM_ID then Err(AccountOwnedByWrongProgram)
    else if !accounts[0].isSigner then Err(ConstraintSigner)
    else if accounts[0].key != ThreadPubkey(accounts[0].data) then Err(ConstraintAddress)
    else Ok(accounts[0].key)
  }

  /** The account list `GetTickArrays { dca_thread }.to_account_metas(..)` produces. */
  function GetTickArraysAccounts(dcaThread: Pubkey): seq<AccountRef> {
    [AccountRef("dca_thread", dcaThread)]
  }

  /**
   * `handler`: no kickoff change, and a next instruction that calls this same
   * handler again with the same thread account. It reads and writes nothing.
   */
  function Handler(dcaThread: Pubkey): (r: ThreadResponse)
    ensures r.kickoffInstruction.None? && r.nextInstruction.Some?
    ensures r.nextInstruction.value.programId == DCA_PROGRAM_ID
    ensures r.nextInstruction.value.data == Sighash(GET_TICK_ARRAYS)
    ensures r.nextInstruction.value.accounts == [AccountRef("dca_thread", dcaThread)]
    ensures AccountOf(r.nextInstruction.value, "dca_thread") == Some(dcaThread)
  {
    ThreadResponse(
      None,
      Some(Instruction(DCA_PROGRAM_ID, GetTickArraysAccounts(dcaThread), Sighash(GET_TICK_ARRAYS))))
  }

  /** Account validation followed by the handler: the whole instruction. */
  function GetTickArrays(accounts: seq<ThreadAccountInfo>): (r: Result<ThreadResponse, ConstraintError>)
    ensures r.Ok? <==> Validate(accounts).Ok?
    ensures r.Ok? ==> r.value == Handler(accounts[0].key)
  {
    match Validate(accounts)
    case Err(e) => Err(e)
    case Ok(key) => Ok(Handler(key))
  }

  /**
   * How the scheduler runs an instruction on behalf of thread `t`: the thread
   * signs for its own address, and the listed keys are resolved to accounts.
   * Only calls of this program's `get_tick_arrays` are modelled.
   */
  function RunAsThread(t: Thread, ix: Instruction): Option<Result<ThreadResponse, ConstraintError>> {
    if ix.programId == DCA_PROGRAM_ID && ix.data == Sighash(GET_TICK_ARRAYS) then
      var infos := seq(|ix.accounts|, i requires 0 <= i < |ix.accounts| =>
        ThreadAccountInfo(ix.accounts[i].key, ix.accounts[i].key == ThreadPubkey(t), THREAD_PROGRAM_ID, t));
      Some(GetTickArrays(infos))
    else None
  }

  /**
   * The continuation is a fixed point: run by its thread, the returned next
   * instruction is accepted and yields the very same response, so every later
   * firing (and every retried one) re-targets this handler unchanged.
   */
  lemma ContinuationIsStable(t: Thread)
    ensures var first := GetTickArrays([ThreadAccountInfo(ThreadPubkey(t), true, THREAD_PROGRAM_ID, t)]);
      && first.Ok?
      && RunAsThread(t, first.value.nextInstruction.value) == Some(first)
  {
    var first := GetTickArrays([ThreadAccountInfo(ThreadPubkey(t), true, THREAD_PROGRAM_ID, t)]);
    var next := first.value.nextInstruction.value;
    var infos := seq(|next.accounts|, i requires 0 <= i < |next.accounts| =>
        ThreadAccountInfo(next.accounts[i].key, next.accounts[i].key == ThreadPubkey(t), THREAD_PROGRAM_ID, t));
    assert infos == [ThreadAccountInfo(ThreadPubkey(t), true, THREAD_PROGRAM_ID, t)];
  }

  /** A thread account that does not sign, or sits at a foreign address, is rejected. */
  lemma ForeignThreadRejected(t: Thread, key: Pubkey, signs: bool)
    requires key != ThreadPubkey(t) || !signs
    ensures GetTickArrays([ThreadAccountInfo(key, signs, THREAD_PROGRAM_ID, t)]).Err?
  {
  }
}

=== FILE: decimal.dfy ===
/**
 * Decimal text of integers, as produced by Rust's `i32::to_string` and by
 * JavaScript's number-to-string conversion for integral values, together with
 * the code-unit order in which JavaScript compares strings.
 */
module Decimal {

  predicate IsDigit(c: char) {
    '0' <= c <= '9'
  }

  predicate AllDigits(s: string) {
    forall i :: 0 <= i < |s| ==> IsDigit(s[i])
  }

  function DigitChar(d: int): (c: char)
    requires 0 <= d < 10
    ensures IsDigit(c)
  {
    ('0' as int + d) as char
  }

  function DigitValue(c: char): (d: nat)
    requires IsDigit(c)
    ensures d < 10 && DigitChar(d) == c
  {
    c as int - '0' as int
  }

  /** Decimal digits of a natural number, most significant first, without leading zeros. */
  function NatText(n: nat): (s: string)
    ensures |s| >= 1 && AllDigits(s)
    decreases n
  {
    if n < 10 then [DigitChar(n)] else NatText(n / 10) + [DigitChar(n % 10)]
  }

  /** Decimal text of an integer: a leading '-' for negative values. */
  function Text(n: int): (s: string)
    ensures |s| >= 1
    ensures (n < 0) <==> (s[0] == '-')
  {
    if n < 0 then "-" + NatText(-n) else NatText(n)
  }

  function ParseNat(s: string): nat
    requires |s| >= 1 && AllDigits(s)
    decreases |s|
  {
    if |s| == 1 then DigitValue(s[0])
    else ParseNat(s[..|s| - 1]) * 10 + DigitValue(s[|s| - 1])
  }

  /** Reads back the text produced by `Text`. */
  function Parse(s: string): int
    requires |s| >= 1
  {
    if s[0] == '-' && |s| >= 2 && AllDigits(s[1..]) then -(ParseNat(s[1..]) as int)
    else if AllDigits(s) then ParseNat(s)
    else 0
  }

  lemma {:induction false} ParseNatText(n: nat)
    ensures ParseNat(NatText(n)) == n
    decreases n
  {
    if n >= 10 {
      var s := NatText(n);
      assert s[..|s| - 1] == NatText(n / 10);
      ParseNatText(n / 10);
    }
  }

  /** `Parse` inverts `Text`: decimal text loses no information. */
  lemma ParseText(n: int)
    ensures Parse(Text(n)) == n
  {
    if n < 0 {
      ParseNatText(-n as nat);
      assert Text(n)[1..] == NatText(-n);
    } else {
      ParseNatText(n);
    }
  }

  /** Distinct integers have distinct decimal texts. */
  lemma TextInjective(a: int, b: int)
    ensures Text(a) == Text(b) <==> a == b
  {
    if Text(a) == Text(b) {
      ParseText(a);
      ParseText(b);
    }
  }

  /**
   * JavaScript's default string order (`<=` on strings): code units compared
   * left to right, a proper prefix before any extension of it.
   */
  predicate LexLe(a: string, b: string)
    decreases |a|
  {
    |a| == 0 || (|b| > 0 && (a[0] < b[0] || (a[0] == b[0] && LexLe(a[1..], b[1..]))))
  }

  /** Any two strings are comparable. */
  lemma {:induction false} LexLeTotal(a: string, b: string)
    ensures LexLe(a, b) || LexLe(b, a)
    decreases |a|
  {
    if |a| > 0 && |b| > 0 && a[0] == b[0] {
      LexLeTotal(a[1..], b[1..]);
    }
  }
}

=== FILE: fee_accounts.dfy ===
/**
 * The client's fee-account provider: the status machine guarded by the
 * creation lock, the sizing of program accounts, and the transfers that
 * create and close the player's accounts.
 */
module FeeAccounts {
  import opened Wrappers

  datatype Status = Initializing | Inactive | Creating | Closing | Active

  datatype Costs = Costs(total: int, feeAccountCost: int, programAccountCost: int)

  datatype AccountsConfig = AccountsConfig(programAccounts: seq<string>, feeAccounts: seq<string>, accountCapacity: int)

  /**
   * The provider's state: React state (`status`, `accounts`, `costs`) and
   * refs (`creationLock`, `calculationCounter`).
   */
  datatype Provider = Provider(
    status: Status,
    accounts: Option<AccountsConfig>,
    costs: Option<Costs>,
    lock: bool,
    counter: nat)

  /** What the provider's handlers can see: connection, program id, wallet. */
  datatype Env = Env(connected: bool, programId: Option<string>, walletReady: bool)

  /** The errors the handlers throw. */
  datatype HandlerError =
    | InvalidConnection
    | MissingProgramId
    | MissingWallet
    | CalculatingCosts

  /** While accounts are being created or closed, the creation lock is held. */
  predicate LockInvariant(p: Provider) {
    (p.status == Creating || p.status == Closing) ==> p.lock
  }

  const Initial := Provider(Initializing, None, None, false, 0)

  // ------------------------------------------------------------- transitions

  /**
   * The connection changed: a new cost calculation starts under a fresh
   * counter value, status returns to initializing and the accounts are
   * forgotten.
   */
  function ConnectionChanged(p: Provider): (r: Provider)
    ensures r.counter == p.counter + 1 && r.status == Initializing && r.accounts.None?
    ensures r.lock == p.lock && r.costs == p.costs
  {
    p.(counter := p.counter + 1, status := Initializing, accounts := None)
  }

  /**
   * A cost calculation started under counter value `saved` finished. Only
   * the calculation of the current connection is applied, and only an
   * initializing provider becomes inactive.
   */
  function CostsCalculated(p: Provider, saved: nat, costs: Costs): (r: Provider)
    ensures p.counter != saved ==> r == p
    ensures p.counter == saved ==>
      r.costs == Some(costs) && r.status == (if p.status == Initializing then Inactive else p.status)
    ensures r.lock == p.lock && r.accounts == p.accounts && r.counter == p.counter
  {
    if p.counter != saved then p
    else p.(costs := Some(costs), status := if p.status == Initializing then Inactive else p.status)
  }

  /** `deactivate`: back to inactive unless a creation or closing holds the lock. */
  function Deactivate(p: Provider): (r: Provider)
    ensures r.status == if p.lock then p.status else Inactive
    ensures r.(status := p.status) == p
  {
    if !p.lock then p.(status := Inactive) else p
  }

  /** The synchronous part of `closeAccounts`, up to the transfer being sent. */
  function BeginClose(p: Provider, env: Env): (r: Result<Provider, HandlerError>)
    ensures !env.connected ==> r == Err(InvalidConnection)
    ensures env.connected && !env.walletReady ==> r == Err(MissingWallet)
    ensures r.Ok? ==> env.connected && env.walletReady
    ensures r.Ok? && !p.lock && p.status == Inactive ==> r.value == p.(lock := true, status := Closing)
    ensures r.Ok? && (p.lock || p.status != Inactive) ==> r.value == p
  {
    if !env.connected then Err(InvalidConnection)
    else if !env.walletReady then Err(MissingWallet)
    else if p.lock then Ok(p)
    else if p.status == Inactive then Ok(p.(lock := true, status := Closing))
    else Ok(p)
  }

  /** The `finally` of `closeAccounts`: inactive and unlocked, whether the transfer landed or not. */
  function FinishClose(p: Provider): (r: Provider)
    ensures r.status == Inactive && !r.lock
    ensures r.accounts == p.accounts && r.costs == p.costs && r.counter == p.counter
  {
    p.(status := Inactive, lock := false)
  }

  /** The synchronous part of `createAccounts`, up to the creation being sent. */
  function BeginCreate(p: Provider, env: Env): (r: Result<Provider, HandlerError>)
    ensures r.Ok? <==> env.connected && env.programId.Some? && env.walletReady && p.costs.Some?
    ensures !env.connected ==> r == Err(InvalidConnection)
    ensures r.Ok? && !p.lock && p.status == Inactive ==> r.value == p.(lock := true, status := Creating)
    ensures r.Ok? && (p.lock || p.status != Inactive) ==> r.value == p
  {
    if !env.connected then Err(InvalidConnection)
    else if env.programId.None? then Err(MissingProgramId)
    else if !env.walletReady then Err(MissingWallet)
    else if p.costs.None? then Err(CalculatingCosts)
    else if p.lock then Ok(p)
    else if p.status == Inactive then Ok(p.(lock := true, status := Creating))
    else Ok(p)
  }

  /**
   * The end of `createAccounts`: active with the new accounts on success,
   * inactive on failure, and the lock released either way.
   */
  function FinishCreate(p: Provider, created: Option<AccountsConfig>): (r: Provider)
    ensures !r.lock && r.costs == p.costs && r.counter == p.counter
    ensures created.Some? ==> r.status == Active && r.accounts == created
    ensures created.None? ==> r.status == Inactive && r.accounts == p.accounts
  {
    match created
    case Some(config) => p.(accounts := Some(config), status := Active, lock := false)
    case None => p.(status := Inactive, lock := false)
  }

  /** Everything that can happen to the provider, one atomic step at a time. */
  datatype Event =
    | NewConnection
    | CostsReady(saved: nat, costs: Costs)
    | DeactivateCall
    | CloseCall(env: Env)
    | CloseDone
    | CreateCall(env: Env)
    | CreateDone(created: Option<AccountsConfig>)

  /** One event; a handler that throws leaves the provider as it was. */
  function Step(p: Provider, e: Event): Provider {
    match e
    case NewConnection => ConnectionChanged(p)
    case CostsReady(saved, costs) => CostsCalculated(p, saved, costs)
    case DeactivateCall => Deactivate(p)
    case CloseCall(env) => BeginClose(p, env).GetOr(p)
    case CloseDone => FinishClose(p)
    case CreateCall(env) => BeginCreate(p, env).GetOr(p)
    case CreateDone(created) => FinishCreate(p, created)
  }

  function Run(p: Provider, es: seq<Event>): Provider
    decreases |es|
  {
    if |es| == 0 then p else Run(Step(p, es[0]), es[1..])
  }

  lemma StepKeepsLockInvariant(p: Provider, e: Event)
    requires LockInvariant(p)
    ensures LockInvariant(Step(p, e))
  {
  }

  /** From the initial state, no sequence of events reaches creating or closing without the lock. */
  lemma {:induction false} RunKeepsLockInvariant(p: Provider, es: seq<Event>)
    requires LockInvariant(p)
    ensures LockInvariant(Run(p, es))
    decreases |es|
  {
    if |es| > 0 {
      StepKeepsLockInvariant(p, es[0]);
      RunKeepsLockInvariant(Step(p, es[0]), es[1..]);
    }
  }

  /** While the lock is held, neither a second creation nor a closing can start. */
  lemma LockExcludesSecondStart(p: Provider, env: Env)
    requires p.lock
    ensures BeginCreate(p, env).GetOr(p) == p
    ensures BeginClose(p, env).GetOr(p) == p
  {
  }

  // ------------------------------------------------------------- sizing and costs

  const TX_PER_BYTE: int := 8
  const CREATION_TARGET: int := 1000

  /**
   * `Math.ceil(1000 / feePayers / 8)`: the bytes each program account needs
   * so that the fee payers together can record 1000 transactions. The
   * floating-point quotient is never close enough to an integer to round
   * across it for `feePayers <= 1000`, so the ceiling is that of the exact
   * rational.
   */
  function ProgramAccountSpace(feePayers: int): (space: int)
    requires feePayers >= 1
    ensures space * TX_PER_BYTE * feePayers >= CREATION_TARGET
    ensures (space - 1) * TX_PER_BYTE * feePayers < CREATION_TARGET
  {
    var d := TX_PER_BYTE * feePayers;
    var space := (CREATION_TARGET + d - 1) / d;
    CeilBounds(CREATION_TARGET, d, space);
    space
  }

  lemma CeilBounds(a: int, d: int, q: int)
    requires d >= 1 && q == (a + d - 1) / d
    ensures q * d >= a && (q - 1) * d < a
  {
    assert q * d <= a + d - 1 < q * d + d;
  }

  function TxPerAccount(feePayers: int): (tx: int)
    requires feePayers >= 1
    ensures tx % TX_PER_BYTE == 0
  {
    TX_PER_BYTE * ProgramAccountSpace(feePayers)
  }

  /**
   * Enough capacity for 1000 transactions with the least multiple of 8 per
   * account that achieves it.
   */
  lemma CapacityCoversTarget(feePayers: int)
    requires feePayers >= 1
    ensures feePayers * TxPerAccount(feePayers) >= CREATION_TARGET
    ensures feePayers * (TxPerAccount(feePayers) - TX_PER_BYTE) < CREATION_TARGET
  {
    var s := ProgramAccountSpace(feePayers);
    assert feePayers * (TX_PER_BYTE * s) == s * TX_PER_BYTE * feePayers;
    assert feePayers * (TX_PER_BYTE * s - TX_PER_BYTE) == (s - 1) * TX_PER_BYTE * feePayers;
  }

  /**
   * `calculateCosts`: a fee payer holds one signature fee per transaction
   * it will pay for plus its rent; rent amounts come from the network.
   */
  function CalculateCosts(feePayers: int, programAccountRent: int, feeAccountRent: int, lamportsPerSignature: int): (c: Costs)
    requires feePayers >= 1
    ensures c.programAccountCost == programAccountRent
    ensures c.feeAccountCost - feeAccountRent == TxPerAccount(feePayers) * lamportsPerSignature
    ensures c.total == feePayers * c.programAccountCost + feePayers * c.feeAccountCost
  {
    var fee := TxPerAccount(feePayers) * lamportsPerSignature + feeAccountRent;
    Costs(feePayers * (programAccountRent + fee), fee, programAccountRent)
  }

  /** The system instructions the provider builds. */
  datatype SystemIx =
    | CreateAccount(from: string, newAccount: string, lamports: int, space: int, programId: string)
    | Transfer(from: string, to: string, lamports: int)

  function Lamports(ix: SystemIx): int {
    match ix
    case CreateAccount(_, _, lamports, _, _) => lamports
    case Transfer(_, _, lamports) => lamports
  }

  /** The lamports `payer` sends across `ixs`. */
  function Spent(ixs: seq<SystemIx>, payer: string): int {
    if |ixs| == 0 then 0
    else Spent(ixs[..|ixs| - 1], payer) + (if ixs[|ixs| - 1].from == payer then Lamports(ixs[|ixs| - 1]) else 0)
  }

  /** The lamports `to` receives through transfers in `ixs`. */
  function Received(ixs: seq<SystemIx>, to: string): int {
    if |ixs| == 0 then 0
    else
      var ix := ixs[|ixs| - 1];
      Received(ixs[..|ixs| - 1], to) + (if ix.Transfer? && ix.to == to then ix.lamports else 0)
  }

  function Sum(xs: seq<int>): int {
    if |xs| == 0 then 0 else Sum(xs[..|xs| - 1]) + xs[|xs| - 1]
  }

  /**
   * The loop of `_createAccounts`: for each fee payer, create one program
   * account of `space` bytes (fresh keys are an input) and fund the fee
   * payer.
   */
  function CreateInstructions(payer: string, programId: string, feePayers: seq<string>, newKeys: seq<string>,
                              costs: Costs, space: int): (ixs: seq<SystemIx>)
    requires |newKeys| == |feePayers|
    ensures |ixs| == 2 * |feePayers|
    ensures forall i :: 0 <= i < |feePayers| ==>
      ixs[2 * i] == CreateAccount(payer, newKeys[i], costs.programAccountCost, space, programId) &&
      ixs[2 * i + 1] == Transfer(payer, feePayers[i], costs.feeAccountCost)
    decreases |feePayers|
  {
    if |feePayers| == 0 then []
    else
      var n := |feePayers| - 1;
      CreateInstructions(payer, programId, feePayers[..n], newKeys[..n], costs, space) +
        [CreateAccount(payer, newKeys[n], costs.programAccountCost, space, programId),
         Transfer(payer, feePayers[n], costs.feeAccountCost)]
  }

  /**
   * `_createAccounts`: the instructions it sends and the configuration it
   * returns once they confirm.
   */
  function CreateAccountsTx(payer: string, programId: string, feePayers: seq<string>, newKeys: seq<string>, costs: Costs)
    : (r: (seq<SystemIx>, AccountsConfig))
    requires |newKeys| == |feePayers| >= 1
    ensures r.0 == CreateInstructions(payer, programId, feePayers, newKeys, costs, ProgramAccountSpace(|feePayers|))
    ensures r.1.programAccounts == newKeys && r.1.feeAccounts == feePayers
    ensures r.1.accountCapacity == TxPerAccount(|feePayers|)
  {
    (CreateInstructions(payer, programId, feePayers, newKeys, costs, ProgramAccountSpace(|feePayers|)),
     AccountsConfig(newKeys, feePayers, TxPerAccount(|feePayers|)))
  }

  /** The payer spends exactly the advertised creation cost. */
  lemma {:induction false} CreationSpendsTotal(payer: string, programId: string, feePayers: seq<string>, newKeys: seq<string>,
                                               costs: Costs, space: int)
    requires |newKeys| == |feePayers|
    ensures Spent(CreateInstructions(payer, programId, feePayers, newKeys, costs, space), payer)
      == |feePayers| * (costs.programAccountCost + costs.feeAccountCost)
    decreases |feePayers|
  {
    if |feePayers| > 0 {
      var n := |feePayers| - 1;
      var each := costs.programAccountCost + costs.feeAccountCost;
      CreationSpendsTotal(payer, programId, feePayers[..n], newKeys[..n], costs, space);
      CreationStep(payer, programId, feePayers, newKeys, costs, space);
      MulStep(n, each);
      assert |feePayers| * each == n * each + each;
    }
  }

  /** One more fee payer costs the payer one program account and one funding transfer. */
  lemma CreationStep(payer: string, programId: string, feePayers: seq<string>, newKeys: seq<string>,
                     costs: Costs, space: int)
    requires |newKeys| == |feePayers| > 0
    ensures var n := |feePayers| - 1;
      Spent(CreateInstructions(payer, programId, feePayers, newKeys, costs, space), payer)
      == Spent(CreateInstructions(payer, programId, feePayers[..n], newKeys[..n], costs, space), payer)
         + costs.programAccountCost + costs.feeAccountCost
  {
    var n := |feePayers| - 1;
    var front := CreateInstructions(payer, programId, feePayers[..n], newKeys[..n], costs, space);
    var create := CreateAccount(payer, newKeys[n], costs.programAccountCost, space, programId);
    var fund := Transfer(payer, feePayers[n], costs.feeAccountCost);
    assert CreateInstructions(payer, programId, feePayers, newKeys, costs, space) == front + [create, fund];
    SpentTwoMore(front, create, fund, payer);
  }

  /** Spending grows by what the two appended instructions take from the payer. */
  lemma SpentTwoMore(front: seq<SystemIx>, a: SystemIx, b: SystemIx, payer: string)
    ensures Spent(front + [a, b], payer)
      == Spent(front, payer) + (if a.from == payer then Lamports(a) else 0) + (if b.from == payer then Lamports(b) else 0)
  {
    var ixs := front + [a, b];
    assert ixs[..|ixs| - 1] == front + [a];
    assert (front + [a])[..|front|] == front;
  }

  lemma MulStep(n: int, c: int)
    ensures (n + 1) * c == n * c + c
  {
  }

  lemma CreationCostIsTotal(payer: string, programId: string, feePayers: seq<string>, newKeys: seq<string>,
                            programAccountRent: int, feeAccountRent: int, lamportsPerSignature: int)
    requires |newKeys| == |feePayers| >= 1
    ensures var costs := CalculateCosts(|feePayers|, programAccountRent, feeAccountRent, lamportsPerSignature);
      Spent(CreateAccountsTx(payer, programId, feePayers, newKeys, costs).0, payer) == costs.total
  {
    var costs := CalculateCosts(|feePayers|, programAccountRent, feeAccountRent, lamportsPerSignature);
    CreationSpendsTotal(payer, programId, feePayers, newKeys, costs, ProgramAccountSpace(|feePayers|));
  }

  /** The loop of `_closeAccounts`: each fee payer sends its whole balance to the payer. */
  function CloseInstructions(payer: string, feePayers: seq<string>, balances: seq<int>): (ixs: seq<SystemIx>)
    requires |balances| == |feePayers|
    ensures |ixs| == |feePayers|
    ensures forall i :: 0 <= i < |feePayers| ==> ixs[i] == Transfer(feePayers[i], payer, balances[i])
  {
    seq(|feePayers|, i requires 0 <= i < |feePayers| => Transfer(feePayers[i], payer, balances[i]))
  }

  /** Closing returns every fee payer's balance to the payer. */
  lemma {:induction false} ClosingReturnsBalances(payer: string, feePayers: seq<string>, balances: seq<int>)
    requires |balances| == |feePayers|
    ensures Received(CloseInstructions(payer, feePayers, balances), payer) == Sum(balances)
    decreases |feePayers|
  {
    if |feePayers| > 0 {
      var n := |feePayers| - 1;
      ClosingReturnsBalances(payer, feePayers[..n], balances[..n]);
      assert CloseInstructions(payer, feePayers, balances)[..n] == CloseInstructions(payer, feePayers[..n], balances[..n]);
    }
  }
}

=== FILE: game_reducer.dfy ===
/** The game-statistics reducer of the first web client. */
module GameReducer {

  datatype Statistics = Statistics(totalCount: int, completedCount: int, percentCapacity: real)

  datatype ModelState = ModelState(statistics: Statistics)

  datatype Action = SetStatistics(payload: Statistics) | ResetStatistics | UnknownAction

  const Zero := Statistics(0, 0, 0.0)

  const InitState := ModelState(Zero)

  /** `gameReducer`: SET stores the payload as given, RESET zeroes, anything else is ignored. */
  function Reduce(s: ModelState, a: Action): (r: ModelState)
    ensures a.SetStatistics? ==> r.statistics == a.payload
    ensures a.ResetStatistics? ==> r == InitState
    ensures a.UnknownAction? ==> r == s
  {
    match a
    case SetStatistics(payload) => s.(statistics := payload)
    case ResetStatistics => s.(statistics := Zero)
    case UnknownAction => s
  }

  function Run(s: ModelState, actions: seq<Action>): ModelState
    decreases |actions|
  {
    if |actions| == 0 then s else Reduce(Run(s, actions[..|actions| - 1]), actions[|actions| - 1])
  }

  /**
   * The statistics the last SET or RESET left behind: a reference reading
   * of the action log that never looks at intermediate stores.
   */
  function LastWritten(initial: Statistics, actions: seq<Action>): (st: Statistics)
    ensures (forall i :: 0 <= i < |actions| ==> actions[i].UnknownAction?) ==> st == initial
    decreases |actions|
  {
    if |actions| == 0 then initial
    else
      match actions[|actions| - 1]
      case SetStatistics(payload) => payload
      case ResetStatistics => Zero
      case UnknownAction => LastWritten(initial, actions[..|actions| - 1])
  }

  /** The store always shows the last statistics written. */
  lemma {:induction false} RunShowsLastWritten(s: ModelState, actions: seq<Action>)
    ensures Run(s, actions).statistics == LastWritten(s.statistics, actions)
    decreases |actions|
  {
    if |actions| > 0 {
      RunShowsLastWritten(s, actions[..|actions| - 1]);
    }
  }

  /** RESET is idempotent, and a SET before a RESET leaves no trace. */
  lemma {:induction false} ResetAbsorbs(s: ModelState, xs: seq<Action>, payload: Statistics)
    ensures Run(s, xs + [ResetStatistics, ResetStatistics]) == Run(s, xs + [ResetStatistics])
    ensures Run(s, xs + [SetStatistics(payload), ResetStatistics]) == Run(s, xs + [ResetStatistics])
  {
    assert (xs + [ResetStatistics, ResetStatistics])[..|xs| + 1] == xs + [ResetStatistics];
    assert (xs + [SetStatistics(payload), ResetStatistics])[..|xs| + 1] == xs + [SetStatistics(payload)];
    assert (xs + [ResetStatistics])[..|xs|] == xs;
  }
}

=== FILE: http_config.dfy ===
/**
 * The game server's configuration as the client's HTTP provider holds it:
 * a small status machine fed by the fetch-with-retry loop.
 */
module HttpConfig {
  import opened Wrappers
  import ServerSelect

  datatype ConfigStatus = Initialized | Fetching | Ready | Failure

  /** The server's answer: cluster name (when it is a public one), RPC URL, program, airdrops. */
  datatype Config = Config(cluster: Option<string>, rpcUrl: string, programId: string, airdropEnabled: bool)

  /** `connection` is never written by the reducer; it is kept only as a field the actions leave alone. */
  datatype State = State(status: ConfigStatus, config: Option<Config>, connection: Option<string>)

  /**
   * The actions. An action object carries only the fields its type lists;
   * spreading it over the state overwrites exactly those. A failure may
   * carry `config: undefined` explicitly, which clears the configuration.
   */
  datatype Action =
    | InitializedAction(config: Config)
    | FetchingAction
    | ReadyAction
    | FailureAction(clearsConfig: bool)

  function StatusOf(a: Action): ConfigStatus {
    match a
    case InitializedAction(_) => Initialized
    case FetchingAction => Fetching
    case ReadyAction => Ready
    case FailureAction(_) => Failure
  }

  /** `{ ...state, ...action }`. */
  function Merge(s: State, a: Action): (r: State)
    ensures r.status == StatusOf(a) && r.connection == s.connection
    ensures a.InitializedAction? ==> r.config == Some(a.config)
    ensures a.FailureAction? && a.clearsConfig ==> r.config.None?
    ensures !a.InitializedAction? && !(a.FailureAction? && a.clearsConfig) ==> r.config == s.config
  {
    match a
    case InitializedAction(config) => s.(status := Initialized, config := Some(config))
    case FailureAction(clears) => s.(status := Failure, config := if clears then None else s.config)
    case _ => s.(status := StatusOf(a))
  }

  /**
   * `configReducer`: every action merges, except that a failure reported
   * while not fetching is ignored.
   */
  function Reduce(s: State, a: Action): (r: State)
    ensures a.FailureAction? && s.status != Fetching ==> r == s
    ensures !(a.FailureAction? && s.status != Fetching) ==> r == Merge(s, a)
  {
    match a
    case FailureAction(_) => if s.status == Fetching then Merge(s, a) else s
    case _ => Merge(s, a)
  }

  const InitialState := State(Fetching, None, None)

  /** `useIsFetching`. */
  predicate IsFetching(s: State) {
    s.status == Fetching
  }

  /** A late failure cannot knock a configured client out of its ready state. */
  lemma LateFailureIgnored(s: State, a: Action)
    requires a.FailureAction? && !IsFetching(s)
    ensures Reduce(s, a) == s && !IsFetching(Reduce(s, a))
  {
  }

  /** Fetching starts from any state, and only a non-fetching action ends it. */
  lemma FetchingUntilAnswered(s: State, a: Action)
    ensures IsFetching(Reduce(s, FetchingAction))
    ensures IsFetching(s) ==> (IsFetching(Reduce(s, a)) <==> a.FetchingAction?)
  {
  }

  /**
   * `useClusterParam`: the query string that sends a player to the same
   * server: the custom RPC URL when no public cluster is known, the
   * cluster's name unless it is mainnet-beta (the default), otherwise
   * nothing. JavaScript truthiness makes an empty name or URL count as absent.
   */
  function ClusterParam(s: State): (q: string)
    ensures s.config.None? ==> q == ""
    ensures s.config.Some? && (s.config.value.cluster.None? || s.config.value.cluster.value == "") && s.config.value.rpcUrl != "" ==>
      q == "cluster=custom&customUrl=" + s.config.value.rpcUrl
    ensures s.config.Some? && s.config.value.cluster.Some? && s.config.value.cluster.value !in {"", "mainnet-beta"} ==>
      q == "cluster=" + s.config.value.cluster.value
    ensures s.config.Some? && s.config.value.cluster == Some("mainnet-beta") ==> q == ""
    ensures s.config.Some? && s.config.value.cluster.GetOr("") == "" && s.config.value.rpcUrl == "" ==> q == ""
  {
    match s.config
    case None => ""
    case Some(c) =>
      var cluster := c.cluster.GetOr("");
      if cluster == "" && c.rpcUrl != "" then "cluster=custom&customUrl=" + c.rpcUrl
      else if cluster != "" && cluster != "mainnet-beta" then "cluster=" + cluster
      else ""
  }

  /**
   * The cluster name the parameter carries selects that very server when
   * the page reads it back.
   */
  lemma ClusterParamSelectsServer(s: State, localhost: bool)
    requires s.config.Some? && s.config.value.cluster.Some?
    requires ServerSelect.KnownId(s.config.value.cluster.value) && s.config.value.cluster.value != "mainnet-beta"
    ensures ClusterParam(s) == "cluster=" + s.config.value.cluster.value
    ensures ServerSelect.Id(ServerSelect.ParseQuery(s.config.value.cluster, localhost)) == s.config.value.cluster.value
  {
  }
}

=== FILE: id_bytes.dfy ===
/**
 * The client's side of the bit-set protocol: decoding the program account's
 * data into the list of recorded ids, encoding an id as instruction data,
 * and xor-ing two snapshots of the account data.
 */
module IdBytes {
  import opened Wrappers
  import opened BitFlip

  const MAX_ID := 65535

  /** Strictly increasing, hence free of duplicates. */
  predicate Increasing(s: seq<int>) {
    forall i, j :: 0 <= i < j < |s| ==> s[i] < s[j]
  }

  /**
   * Ids of the byte whose first id is `base`, found by testing positions
   * `k..7` (the source's bit `j = 7 - k`, from 7 down to 0).
   */
  function BitIds(b: Byte, base: int, k: nat): (ids: seq<int>)
    requires k <= 8
    ensures Increasing(ids)
    ensures forall x :: x in ids <==> base + k <= x < base + 8 && BitOn(b, x - base)
    decreases 8 - k
  {
    if k == 8 then []
    else
      var rest := BitIds(b, base, k + 1);
      if BitOn(b, k) then
        ConcatIncreasing([base + k], rest, base + k + 1);
        [base + k] + rest
      else rest
  }

  /** Ids of bytes `i..`, in byte order. */
  function IdsFrom(bytes: seq<Byte>, i: nat): (ids: seq<int>)
    requires i <= |bytes|
    ensures Increasing(ids)
    ensures forall x :: x in ids <==> 8 * i <= x < 8 * |bytes| && IdSet(bytes, x)
    decreases |bytes| - i
  {
    if i == |bytes| then []
    else
      var here := BitIds(bytes[i], 8 * i, 0);
      var rest := IdsFrom(bytes, i + 1);
      ByteIds(bytes, i);
      ConcatIncreasing(here, rest, 8 * i + 8);
      here + rest
  }

  /** The ids of byte `i` are exactly the set ids in `8 * i .. 8 * i + 8`. */
  lemma ByteIds(bytes: seq<Byte>, i: nat)
    requires i < |bytes|
    ensures forall x :: x in BitIds(bytes[i], 8 * i, 0) <==> 8 * i <= x < 8 * i + 8 && IdSet(bytes, x)
  {
    var here := BitIds(bytes[i], 8 * i, 0);
    forall x | 8 * i <= x < 8 * i + 8
      ensures x / 8 == i && (x in here <==> IdSet(bytes, x))
    {
      ByteIdAt(bytes, i, x);
    }
  }

  lemma ByteIdAt(bytes: seq<Byte>, i: nat, x: int)
    requires i < |bytes| && 8 * i <= x < 8 * i + 8
    ensures x / 8 == i && (x in BitIds(bytes[i], 8 * i, 0) <==> IdSet(bytes, x))
  {
    InByte(x, i);
    BitOnPeriodic(bytes[i], x, x - 8 * i);
    assert IdSet(bytes, x) == BitOn(bytes[i], x);
  }

  /** An id between `8 * i` and `8 * i + 7` lives in byte `i`, at position `x - 8 * i`. */
  lemma InByte(x: int, i: nat)
    requires 8 * i <= x < 8 * i + 8
    ensures x / 8 == i && x % 8 == x - 8 * i
  {
  }

  lemma ConcatIncreasing(a: seq<int>, b: seq<int>, split: int)
    requires Increasing(a) && Increasing(b)
    requires forall x :: x in a ==> x < split
    requires forall x :: x in b ==> split <= x
    ensures Increasing(a + b)
  {
    forall i, j | 0 <= i < j < |a + b|
      ensures (a + b)[i] < (a + b)[j]
    {
      if i < |a| && j >= |a| {
        assert a[i] in a && b[j - |a|] in b;
      }
    }
  }

  /**
   * `programDataToIds`: the recorded ids in increasing order; an id appears
   * exactly when its bit is set.
   */
  function ProgramDataToIds(bytes: seq<Byte>): (ids: seq<int>)
    ensures Increasing(ids)
    ensures forall x :: x in ids <==> 0 <= x < 8 * |bytes| && IdSet(bytes, x)
  {
    IdsFrom(bytes, 0)
  }

  /**
   * `instructionDataFromId`: rejects ids outside `0..65535`; otherwise the
   * two-byte big-endian encoding, which the program decodes back to `id`.
   */
  function InstructionDataFromId(id: int): (r: Result<seq<Byte>, string>)
    ensures r.Ok? <==> 0 <= id <= MAX_ID
    ensures r.Err? ==> r.error == "invalid id"
    ensures r.Ok? ==> |r.value| == 2 && IdOf(r.value) == id
  {
    if id > MAX_ID || id < 0 then Err("invalid id")
    else
      Ok([ToByte(id / 256), ToByte(id % 256)])
  }

  /** Every two-byte instruction is the encoding of the id it names. */
  lemma EncodeDecode(ix: seq<Byte>)
    requires |ix| == 2
    ensures InstructionDataFromId(IdOf(ix)) == Ok(ix)
  {
    var id := IdOf(ix);
    assert id / 256 == ix[0] as int && id % 256 == ix[1] as int;
    IntOfByte(ix[0]);
    IntOfByte(ix[1]);
    assert InstructionDataFromId(id).value == [ix[0], ix[1]] == ix;
  }

  /** `xor`: rejects snapshots of different lengths; otherwise byte-wise xor. */
  function Xor(a: seq<Byte>, b: seq<Byte>): (r: Result<seq<Byte>, string>)
    ensures r.Ok? <==> |a| == |b|
    ensures r.Err? ==> r.error == "bytes are not the same length"
    ensures r.Ok? ==> |r.value| == |a| && forall i :: 0 <= i < |a| ==> r.value[i] == a[i] ^ b[i]
  {
    if |a| != |b| then Err("bytes are not the same length")
    else Ok(seq(|a|, i requires 0 <= i < |a| => a[i] ^ b[i]))
  }

  /** Xor-ing the same snapshot twice gives back the original. */
  lemma XorInvolution(a: seq<Byte>, b: seq<Byte>)
    requires |a| == |b|
    ensures Xor(Xor(a, b).value, b) == Ok(a)
  {
    var r := Xor(Xor(a, b).value, b).value;
    forall i | 0 <= i < |a|
      ensures r[i] == a[i]
    {
      XorTwice(a[i], b[i]);
    }
    assert r == a;
  }

  lemma XorBit(a: Byte, b: Byte, x: nat)
    ensures BitOn(a ^ b, x) <==> (BitOn(a, x) != BitOn(b, x))
  {
    MaskSingle(x);
    XorSingle(a, b, Mask(x));
  }

  /**
   * The ids decoded from the xor of two snapshots are exactly those recorded
   * in one snapshot and not the other.
   */
  lemma XorIdsAreChanges(a: seq<Byte>, b: seq<Byte>)
    requires |a| == |b|
    ensures forall x :: x in ProgramDataToIds(Xor(a, b).value) <==>
      (x in ProgramDataToIds(a)) != (x in ProgramDataToIds(b))
  {
    var d := Xor(a, b).value;
    forall x | 0 <= x < 8 * |a|
      ensures IdSet(d, x) <==> (IdSet(a, x) != IdSet(b, x))
    {
      XorIdAt(a, b, x);
    }
  }

  lemma XorIdAt(a: seq<Byte>, b: seq<Byte>, x: nat)
    requires |a| == |b| && x < 8 * |a|
    ensures x / 8 < |a| && (IdSet(Xor(a, b).value, x) <==> (IdSet(a, x) != IdSet(b, x)))
  {
    assert x / 8 < |a|;
    var i := x / 8;
    assert Xor(a, b).value[i] == a[i] ^ b[i];
    XorBit(a[i], b[i], x);
  }

  /**
   * What the client reads back after the program processes the encoding of
   * `id`: that id's membership flips and no other id's does.
   */
  lemma SendThenDecode(data: seq<Byte>, id: int)
    requires 0 <= id && id / 8 < |data| && id <= MAX_ID
    ensures ProcessInstruction([data], InstructionDataFromId(id).value).Ok?
    ensures forall x :: x in ProgramDataToIds(ProcessInstruction([data], InstructionDataFromId(id).value).value[0]) <==>
      (x in ProgramDataToIds(data)) != (x == id)
  {
    var after := ProcessInstruction([data], InstructionDataFromId(id).value).value[0];
    FlipTogglesOnlyId(data, id);
    assert after == Flip(data, id);
  }

  /** Setting one id in blank data decodes to that id alone. */
  lemma BlankRoundTrip(size: nat, id: int)
    requires 0 <= id && id / 8 < size
    ensures ProgramDataToIds(Flip(seq(size, _ => 0 as Byte), id)) == [id]
  {
    var zeros := seq(size, _ => 0 as Byte);
    var ids := ProgramDataToIds(Flip(zeros, id));
    FlipTogglesOnlyId(zeros, id);
    assert forall x :: x in ids <==> x == id;
    IncreasingSingleton(ids, id);
  }

  lemma IncreasingSingleton(s: seq<int>, v: int)
    requires Increasing(s)
    requires forall x :: x in s <==> x == v
    ensures s == [v]
  {
    assert v in s;
    if |s| >= 2 {
      OnlyValue(s, v, 0);
      OnlyValue(s, v, 1);
      assert false;
    }
  }

  lemma OnlyValue(s: seq<int>, v: int, i: int)
    requires forall x :: x in s <==> x == v
    requires 0 <= i < |s|
    ensures s[i] == v
  {
    assert s[i] in s;
  }
}

=== FILE: instructions.dfy ===
/** Solana instructions as the DCA client and program build them. */
module Instructions {
  import opened Wrappers
  import opened Addresses

  /** One entry of an Anchor account list: the struct field and the key passed for it. */
  datatype AccountRef = AccountRef(field: string, key: Pubkey)

  /** A thread trigger of the scheduler program. */
  datatype Trigger = Cron(schedule: string, skippable: bool)

  /** Instruction data: an Anchor discriminator with its Borsh arguments, or a foreign program's call. */
  datatype IxData =
      /** `anchor_sighash(name)`: the discriminator of an argument-less Anchor instruction */
    | Sighash(name: string)
    | DcaCreateData(amount: int, otherAmountThreshold: int, sqrtPriceLimit: int,
                    amountSpecifiedIsInput: bool, aToB: bool)
    | ThreadCreateData(id: string, kickoff: Instruction, trigger: Trigger)
    | ThreadDeleteData
    | TransferData(lamports: int)

  datatype Instruction = Instruction(programId: Pubkey, accounts: seq<AccountRef>, data: IxData)

  /** The key passed for `field`, if the instruction names that field. */
  function AccountOf(ix: Instruction, field: string): Option<Pubkey>
    decreases |ix.accounts|
  {
    if |ix.accounts| == 0 then None
    else if ix.accounts[0].field == field then Some(ix.accounts[0].key)
    else AccountOf(Instruction(ix.programId, ix.accounts[1..], ix.data), field)
  }

  /** The key of the first entry named `field`. */
  lemma {:induction false} AccountOfAt(ix: Instruction, field: string, i: nat)
    requires i < |ix.accounts| && ix.accounts[i].field == field
    requires forall j :: 0 <= j < i ==> ix.accounts[j].field != field
    ensures AccountOf(ix, field) == Some(ix.accounts[i].key)
    decreases i
  {
    if i > 0 {
      AccountOfAt(Instruction(ix.programId, ix.accounts[1..], ix.data), field, i - 1);
    }
  }

  /** A field the instruction does not list has no key. */
  lemma {:induction false} AccountOfAbsent(ix: Instruction, field: string)
    requires forall j :: 0 <= j < |ix.accounts| ==> ix.accounts[j].field != field
    ensures AccountOf(ix, field) == None
    decreases |ix.accounts|
  {
    if |ix.accounts| > 0 {
      AccountOfAbsent(Instruction(ix.programId, ix.accounts[1..], ix.data), field);
    }
  }
}

=== FILE: int_math.dfy ===
/** Integer semantics of the host languages, written out over Dafny's unbounded `int`. */
module IntMath {

  const I32_MIN: int := -0x8000_0000
  const I32_MAX: int := 0x7fff_ffff
  const U16_MAX: int := 0xffff

  /** Values representable by Rust's `i32`. */
  predicate IsI32(x: int) {
    I32_MIN <= x <= I32_MAX
  }

  function Abs(x: int): nat {
    if x < 0 then -x else x
  }

  /**
   * Integer `/` of Rust (and of JavaScript on integral operands followed by
   * `Math.trunc`): the quotient rounded toward zero. Dafny's own `/` is
   * Euclidean and differs for negative dividends.
   */
  function TruncDiv(a: int, b: int): (q: int)
    requires b != 0
    ensures Abs(a - q * b) < Abs(b)
    ensures a - q * b == 0 || ((a - q * b < 0) <==> (a < 0))
  {
    var m := Abs(a) / Abs(b);
    TruncDivStep(a, b, m);
    if (a < 0) != (b < 0) then -m else m
  }

  lemma TruncDivStep(a: int, b: int, m: int)
    requires b != 0 && m == Abs(a) / Abs(b)
    ensures var q := if (a < 0) != (b < 0) then -m else m;
      Abs(a - q * b) == Abs(a) - m * Abs(b) && 0 <= Abs(a) - m * Abs(b) < Abs(b)
  {
    var q := if (a < 0) != (b < 0) then -m else m;
    assert m * Abs(b) <= Abs(a) < m * Abs(b) + Abs(b);
    if a < 0 {
      if b < 0 { assert q * b == -(m * Abs(b)); } else { assert q * b == -(m * Abs(b)); }
    } else {
      if b < 0 { assert q * b == m * Abs(b); } else { assert q * b == m * Abs(b); }
    }
  }

  /** Integer `%` of Rust and JavaScript: the remainder takes the sign of the dividend. */
  function TruncRem(a: int, b: int): (r: int)
    requires b != 0
    ensures a == TruncDiv(a, b) * b + r
    ensures Abs(r) < Abs(b)
    ensures r == 0 || ((r < 0) <==> (a < 0))
  {
    a - TruncDiv(a, b) * b
  }

  /**
   * `Math.floor(a / b)` of JavaScript on integral operands: the quotient
   * rounded toward negative infinity, whatever the divisor's sign.
   */
  function FloorDiv(a: int, b: int): (q: int)
    requires b != 0
    ensures b > 0 ==> q * b <= a < q * b + b
    ensures b < 0 ==> q * b + b < a <= q * b
    ensures b > 0 && a >= 0 ==> q >= 0
  {
    if b > 0 then a / b
    else
      var q := (-a) / (-b);
      assert q * (-b) <= -a < q * (-b) + (-b);
      q
  }

  /** A multiple of a positive b strictly between -b and b is zero. */
  lemma MulBoundsFactor(x: int, b: int)
    requires b > 0 && -b < x * b < b
    ensures x == 0
  {
    if x >= 1 {
      MulAtLeast(x, b);
    } else if x <= -1 {
      MulAtLeast(-x, b);
    }
  }

  lemma MulAtLeast(x: int, b: int)
    requires x >= 1 && b >= 0
    ensures x * b >= b
  {
    assert x * b == (x - 1) * b + b;
    assert (x - 1) * b >= 0;
  }
}

=== FILE: leader_schedule.dfy ===
/**
 * The server's copy of the leader schedule: the leaders of a run of
 * consecutive slots starting at a known first slot, refreshed ahead of the
 * current slot.
 */
module LeaderSchedule {
  import opened Wrappers

  /** Upcoming slots searched for leaders when the deployment sets no fan-out. */
  const DEFAULT_UPCOMING_SLOT_SEARCH: nat := 40

  /** Past slots searched for leaders. */
  const PAST_SLOT_SEARCH: nat := 4

  datatype Schedule = Schedule(leaderAddresses: seq<string>, scheduleFirstSlot: int, refreshing: bool)

  /** The schedule `start` builds: the leaders fetched from the current slot onwards. */
  function Start(currentSlot: int, leaders: seq<string>): Schedule {
    Schedule(leaders, currentSlot, false)
  }

  /** How many leaders one fetch asks for. */
  function FetchCount(upcoming: nat): nat {
    2 * upcoming
  }

  function LastSlot(s: Schedule): int {
    s.scheduleFirstSlot + |s.leaderAddresses| - 1
  }

  /** `getSlotLeader`: the slot's leader when the schedule covers the slot, else nothing. */
  function GetSlotLeader(s: Schedule, slot: int): (r: Option<string>)
    ensures r.Some? <==> s.scheduleFirstSlot <= slot < s.scheduleFirstSlot + |s.leaderAddresses|
    ensures r.Some? ==> r.value == s.leaderAddresses[slot - s.scheduleFirstSlot]
    ensures |s.leaderAddresses| == 0 ==> r.None?
  {
    if slot >= s.scheduleFirstSlot && slot <= LastSlot(s) then Some(s.leaderAddresses[slot - s.scheduleFirstSlot])
    else None
  }

  /** `shouldRefresh`: the current slot has come within `upcoming` slots of the schedule's end. */
  function ShouldRefresh(s: Schedule, upcoming: nat, currentSlot: int): (b: bool)
    ensures b <==> currentSlot + upcoming + 1 >= s.scheduleFirstSlot + |s.leaderAddresses|
  {
    currentSlot >= LastSlot(s) - upcoming
  }

  /** The first slot a refresh asks about: a few slots back, never before slot 0. */
  function RefreshFirstSlot(currentSlot: int): (first: int)
    ensures first >= 0 && first >= currentSlot - PAST_SLOT_SEARCH
    ensures first == 0 || first == currentSlot - PAST_SLOT_SEARCH
  {
    if currentSlot - PAST_SLOT_SEARCH > 0 then currentSlot - PAST_SLOT_SEARCH else 0
  }

  /**
   * `refresh`, with the fetch's outcome as input: a fetched list replaces
   * the leaders and the first slot together; a failed fetch changes
   * nothing; a call while a refresh is running returns at once.
   */
  function Refresh(s: Schedule, currentSlot: int, fetched: Result<seq<string>, string>): (r: Schedule)
    ensures s.refreshing ==> r == s
    ensures !s.refreshing && fetched.Err? ==> r == s
    ensures !s.refreshing && fetched.Ok? ==>
      r == Schedule(fetched.value, RefreshFirstSlot(currentSlot), false)
  {
    if s.refreshing then s
    else
      match fetched
      case Ok(leaders) => s.(scheduleFirstSlot := RefreshFirstSlot(currentSlot), leaderAddresses := leaders, refreshing := false)
      case Err(_) => s.(refreshing := false)
  }

  /**
   * A refresh at slot 4 or later that returns the leaders it asked for
   * covers every slot the proxy scans, from `PAST_SLOT_SEARCH` slots back to
   * `upcoming` slots ahead, as long as the fan-out is at least the look-back.
   */
  lemma RefreshCoversScan(s: Schedule, currentSlot: int, leaders: seq<string>, upcoming: nat)
    requires !s.refreshing
    requires currentSlot >= PAST_SLOT_SEARCH
    requires upcoming >= PAST_SLOT_SEARCH
    requires |leaders| == FetchCount(upcoming)
    ensures var r := Refresh(s, currentSlot, Ok(leaders));
      forall slot :: currentSlot - PAST_SLOT_SEARCH <= slot < currentSlot + upcoming ==>
        GetSlotLeader(r, slot) == Some(leaders[slot - currentSlot + PAST_SLOT_SEARCH])
  {
  }

  /**
   * Right after such a refresh no further refresh is due while the current
   * slot stays within `upcoming - 4` slots of the refresh slot.
   */
  lemma RefreshedScheduleNotDue(s: Schedule, currentSlot: int, leaders: seq<string>, upcoming: nat, later: int)
    requires !s.refreshing
    requires currentSlot >= PAST_SLOT_SEARCH
    requires |leaders| == FetchCount(upcoming)
    ensures ShouldRefresh(Refresh(s, currentSlot, Ok(leaders)), upcoming, later)
      <==> later >= currentSlot + upcoming - PAST_SLOT_SEARCH - 1
  {
  }
}

=== FILE: leader_tracker.dfy ===
/**
 * The server's estimate of the cluster's current slot, kept from slot
 * notifications: a window of the most recent notified slots and a pick of
 * the highest one that is not implausibly far ahead of their median.
 */
module LeaderTracker {
  import opened Wrappers
  import Decimal
  import Window

  const MAX_RECENT_SLOTS_LENGTH: nat := 12

  /** How far past the expected slot a notified slot may lie and still be believed. */
  const MAX_SLOT_SKIP_DISTANCE := 48

  /**
   * The order the window is sorted in: `Numeric` compares slot numbers;
   * `DecimalText` is what a comparator-less JavaScript `sort()` does, comparing
   * the decimal texts code unit by code unit.
   */
  datatype SlotOrder = Numeric | DecimalText

  predicate Le(order: SlotOrder, a: nat, b: nat) {
    match order
    case Numeric => a <= b
    case DecimalText => Decimal.LexLe(Decimal.NatText(a), Decimal.NatText(b))
  }

  lemma LeTotal(order: SlotOrder, a: nat, b: nat)
    ensures Le(order, a, b) || Le(order, b, a)
  {
    if order == DecimalText {
      Decimal.LexLeTotal(Decimal.NatText(a), Decimal.NatText(b));
    }
  }

  predicate Sorted(order: SlotOrder, s: seq<nat>) {
    forall i :: 0 < i < |s| ==> Le(order, s[i - 1], s[i])
  }

  function Insert(order: SlotOrder, x: nat, s: seq<nat>): (r: seq<nat>)
    requires Sorted(order, s)
    ensures Sorted(order, r)
    ensures multiset(r) == multiset(s) + multiset{x}
    ensures |r| == |s| + 1
    ensures r[0] == x || (|s| > 0 && r[0] == s[0])
    decreases |s|
  {
    if |s| == 0 then [x]
    else if Le(order, x, s[0]) then [x] + s
    else
      LeTotal(order, x, s[0]);
      assert s == [s[0]] + s[1..];
      [s[0]] + Insert(order, x, s[1..])
  }

  /** The window sorted in the given order: a sorted permutation of it. */
  function Sort(order: SlotOrder, s: seq<nat>): (r: seq<nat>)
    ensures Sorted(order, r)
    ensures multiset(r) == multiset(s)
    ensures |r| == |s|
    decreases |s|
  {
    if |s| == 0 then []
    else
      assert s == s[..|s| - 1] + [s[|s| - 1]];
      Insert(order, s[|s| - 1], Sort(order, s[..|s| - 1]))
  }

  /** In numeric order, adjacent order is order between any two positions. */
  lemma {:induction false} NumericSortedAscending(s: seq<nat>)
    requires Sorted(Numeric, s)
    ensures forall i, j :: 0 <= i <= j < |s| ==> s[i] <= s[j]
    decreases |s|
  {
    if |s| > 1 {
      var p := s[..|s| - 1];
      assert Sorted(Numeric, p) by {
        forall i | 0 < i < |p|
          ensures Le(Numeric, p[i - 1], p[i])
        {
          assert p[i - 1] == s[i - 1] && p[i] == s[i];
        }
      }
      NumericSortedAscending(p);
      forall i, j | 0 <= i <= j < |s|
        ensures s[i] <= s[j]
      {
        if j < |s| - 1 {
          assert p[i] <= p[j];
        } else if i < j {
          assert p[i] <= p[|s| - 2];
          assert Le(Numeric, s[|s| - 2], s[|s| - 1]);
        }
      }
    }
  }

  /**
   * The most a believable current slot can be: the median of the sorted
   * window, plus the slots the newer half of the window should have
   * advanced, plus the skip allowance.
   */
  function ReasonableBound(sorted: seq<nat>): int
    requires |sorted| > 0
  {
    var maxIndex := |sorted| - 1;
    var medianIndex := maxIndex / 2;
    sorted[medianIndex] + (maxIndex - medianIndex) + MAX_SLOT_SKIP_DISTANCE
  }

  /** The median entry always lies within the bound it defines. */
  lemma MedianIsReasonable(sorted: seq<nat>)
    requires |sorted| > 0
    ensures sorted[(|sorted| - 1) / 2] <= ReasonableBound(sorted)
  {
  }

  /**
   * Scanning the sorted window from its end, the position of the first slot
   * within the bound, or -1 when there is none.
   */
  function LastWithin(s: seq<nat>, bound: int): (i: int)
    ensures -1 <= i < |s|
    ensures i >= 0 ==> s[i] <= bound
    ensures forall j :: i < j < |s| ==> s[j] > bound
    decreases |s|
  {
    if |s| == 0 then -1
    else if s[|s| - 1] <= bound then |s| - 1
    else
      var i := LastWithin(s[..|s| - 1], bound);
      assert forall j :: i < j < |s| - 1 ==> s[..|s| - 1][j] == s[j];
      i
  }

  /**
   * `x` sits at a position of `s` after which every entry exceeds `bound`:
   * the slot a scan from the end of `s` stops at.
   */
  predicate LastWithinBound(s: seq<nat>, x: nat, bound: int) {
    exists i :: 0 <= i < |s| && s[i] == x && forall j :: i < j < |s| ==> s[j] > bound
  }

  /**
   * `updateRecentSlots`: push the slot, keep the newest twelve, and return
   * the slot the scan picks, or `current` if it picked none.
   */
  function UpdateRecentSlots(order: SlotOrder, recent: seq<nat>, slot: nat, current: nat): (r: (seq<nat>, nat))
    ensures r.0 == Window.LastN(recent + [slot], MAX_RECENT_SLOTS_LENGTH)
    ensures 1 <= |r.0| <= MAX_RECENT_SLOTS_LENGTH
    ensures r.1 in r.0
    ensures r.1 <= ReasonableBound(Sort(order, r.0))
    ensures LastWithinBound(Sort(order, r.0), r.1, ReasonableBound(Sort(order, r.0)))
  {
    var window := Window.Push(recent, slot, MAX_RECENT_SLOTS_LENGTH);
    var sorted := Sort(order, window);
    var bound := ReasonableBound(sorted);
    MedianIsReasonable(sorted);
    var i := LastWithin(sorted, bound);
    if i >= 0 then
      assert sorted[i] in multiset(sorted);
      assert LastWithinBound(sorted, sorted[i], bound);
      (window, sorted[i])
    else
      assert false;
      (window, current)
  }

  /**
   * Sorting numerically, the pick is the highest slot of the window that is
   * within the bound: every believable slot is at most the pick.
   */
  lemma NumericPicksHighestReasonable(recent: seq<nat>, slot: nat, current: nat)
    ensures var (window, x) := UpdateRecentSlots(Numeric, recent, slot, current);
      forall y :: y in window && y <= ReasonableBound(Sort(Numeric, window)) ==> y <= x
  {
    var (window, x) := UpdateRecentSlots(Numeric, recent, slot, current);
    var sorted := Sort(Numeric, window);
    var bound := ReasonableBound(sorted);
    NumericSortedAscending(sorted);
    var i := LastWithin(sorted, bound);
    forall y | y in window && y <= bound
      ensures y <= x
    {
      assert y in multiset(sorted);
      var k :| 0 <= k < |sorted| && sorted[k] == y;
      if k <= i {
        assert sorted[k] <= sorted[i];
      }
    }
  }

  /**
   * The comparator-less sort misplaces slots of different digit counts: with
   * slot 99 in the window and slot 100 notified, the text order puts "100"
   * first, so the scan returns the older slot 99, while numeric order gives 100.
   */
  lemma TextOrderPicksStaleSlot()
    ensures UpdateRecentSlots(DecimalText, [99], 100, 99).1 == 99
    ensures UpdateRecentSlots(Numeric, [99], 100, 99).1 == 100
  {
    SortsOfWindow();
    TextPick();
    NumericPick();
  }

  lemma TextPick()
    requires Sort(DecimalText, [99, 100]) == [100, 99]
    ensures UpdateRecentSlots(DecimalText, [99], 100, 99).1 == 99
  {
    assert Window.Push([99], 100, MAX_RECENT_SLOTS_LENGTH) == [99, 100];
    assert ReasonableBound([100, 99]) == 149;
    assert LastWithin([100, 99], 149) == 1;
  }

  lemma NumericPick()
    requires Sort(Numeric, [99, 100]) == [99, 100]
    ensures UpdateRecentSlots(Numeric, [99], 100, 99).1 == 100
  {
    assert Window.Push([99], 100, MAX_RECENT_SLOTS_LENGTH) == [99, 100];
    assert ReasonableBound([99, 100]) == 148;
    assert LastWithin([99, 100], 148) == 1;
  }

  /** "100" precedes "99" in text order, so the two orders sort [99, 100] differently. */
  lemma SortsOfWindow()
    ensures Sort(DecimalText, [99, 100]) == [100, 99]
    ensures Sort(Numeric, [99, 100]) == [99, 100]
  {
    TextOf100Before99();
    assert [99, 100][..1] == [99];
    assert Sort(DecimalText, [99]) == [99];
    assert Sort(Numeric, [99]) == [99];
  }

  lemma TextOf100Before99()
    ensures Le(DecimalText, 100, 99)
  {
    var t99 := Decimal.NatText(99);
    var t100 := Decimal.NatText(100);
    assert t99 == Decimal.NatText(9) + [Decimal.DigitChar(9)];
    assert t99[0] == '9';
    assert Decimal.NatText(10) == Decimal.NatText(1) + [Decimal.DigitChar(0)];
    assert t100 == Decimal.NatText(10) + [Decimal.DigitChar(0)];
    assert t100[0] == '1';
  }

  datatype SlotUpdate =
    | FirstShredReceived(slot: nat)
    | Completed(slot: nat)
    | CreatedBank(slot: nat)
    | OtherUpdate(slot: nat)

  /**
   * The tracker's state. `currentSlot` is the slot it was constructed with;
   * no handler assigns it afterwards.
   */
  datatype Tracker = Tracker(recentSlots: seq<nat>, currentSlot: nat, receivedShredNotification: bool)

  function Start(currentSlot: nat): Tracker {
    Tracker([currentSlot], currentSlot, false)
  }

  /**
   * The slot an update feeds into the window: a first shred its own slot, a
   * completed slot the next one, a created bank its slot only as long as no
   * shred notification has arrived.
   */
  function FedSlot(received: bool, u: SlotUpdate): Option<nat> {
    match u
    case FirstShredReceived(slot) => Some(slot)
    case Completed(slot) => Some(slot + 1)
    case CreatedBank(slot) => if received then None else Some(slot)
    case OtherUpdate(_) => None
  }

  /**
   * The slot-update handler: the new tracker and the slot the callback is
   * called with, if it is called.
   */
  function OnSlotUpdate(order: SlotOrder, t: Tracker, u: SlotUpdate): (r: (Tracker, Option<nat>))
    ensures r.0.currentSlot == t.currentSlot
    ensures r.0.receivedShredNotification <==> t.receivedShredNotification || u.FirstShredReceived? || u.Completed?
    ensures FedSlot(t.receivedShredNotification, u).None? ==> r.0.recentSlots == t.recentSlots && r.1.None?
    ensures FedSlot(t.receivedShredNotification, u).Some? ==>
      r.0.recentSlots == Window.LastN(t.recentSlots + [FedSlot(t.receivedShredNotification, u).value], MAX_RECENT_SLOTS_LENGTH)
    ensures r.1.Some? ==> r.1.value != t.currentSlot && r.1.value in r.0.recentSlots
    ensures FedSlot(t.receivedShredNotification, u).Some? ==>
      (r.1.None? <==> UpdateRecentSlots(order, t.recentSlots, FedSlot(t.receivedShredNotification, u).value, t.currentSlot).1 == t.currentSlot)
    ensures FedSlot(t.receivedShredNotification, u).Some? && r.1.Some? ==>
      r.1.value == UpdateRecentSlots(order, t.recentSlots, FedSlot(t.receivedShredNotification, u).value, t.currentSlot).1
  {
    var received := t.receivedShredNotification || u.FirstShredReceived? || u.Completed?;
    match FedSlot(t.receivedShredNotification, u)
    case None => (t.(receivedShredNotification := received), None)
    case Some(slot) =>
      var (window, next) := UpdateRecentSlots(order, t.recentSlots, slot, t.currentSlot);
      (Tracker(window, t.currentSlot, received), if next != t.currentSlot then Some(next) else None)
  }

  function Run(order: SlotOrder, t: Tracker, updates: seq<SlotUpdate>): Tracker
    decreases |updates|
  {
    if |updates| == 0 then t else OnSlotUpdate(order, Run(order, t, updates[..|updates| - 1]), updates[|updates| - 1]).0
  }

  /** Whether a shred or completed notification is among the updates. */
  predicate SawShred(updates: seq<SlotUpdate>) {
    exists i :: 0 <= i < |updates| && (updates[i].FirstShredReceived? || updates[i].Completed?)
  }

  /** The slots one update feeds into the window: none or one. */
  function FedList(received: bool, u: SlotUpdate): seq<nat> {
    match FedSlot(received, u)
    case None => []
    case Some(s) => [s]
  }

  /** Every slot the updates feed into the window, in arrival order. */
  function FedLog(updates: seq<SlotUpdate>): seq<nat>
    decreases |updates|
  {
    if |updates| == 0 then []
    else
      var prefix := updates[..|updates| - 1];
      FedLog(prefix) + FedList(SawShred(prefix), updates[|updates| - 1])
  }

  lemma SawShredStep(updates: seq<SlotUpdate>)
    requires |updates| > 0
    ensures var u := updates[|updates| - 1];
      SawShred(updates) <==> SawShred(updates[..|updates| - 1]) || u.FirstShredReceived? || u.Completed?
  {
    var prefix := updates[..|updates| - 1];
    if SawShred(prefix) {
      var i :| 0 <= i < |prefix| && (prefix[i].FirstShredReceived? || prefix[i].Completed?);
      assert updates[i] == prefix[i];
    }
    if SawShred(updates) {
      var i :| 0 <= i < |updates| && (updates[i].FirstShredReceived? || updates[i].Completed?);
      if i < |prefix| {
        assert prefix[i] == updates[i];
      }
    }
  }

  /** The tracker has heard of a shred exactly when one was among the updates; its slot never moves. */
  lemma {:induction false} RunTracksShreds(order: SlotOrder, currentSlot: nat, updates: seq<SlotUpdate>)
    ensures Run(order, Start(currentSlot), updates).receivedShredNotification == SawShred(updates)
    ensures Run(order, Start(currentSlot), updates).currentSlot == currentSlot
    decreases |updates|
  {
    if |updates| > 0 {
      RunTracksShreds(order, currentSlot, updates[..|updates| - 1]);
      SawShredStep(updates);
    }
  }

  /**
   * After any run of notifications the window holds the twelve most recent
   * slots of the construction slot followed by everything fed, in arrival order.
   */
  lemma {:induction false} RunKeepsLatestSlots(order: SlotOrder, currentSlot: nat, updates: seq<SlotUpdate>)
    ensures Run(order, Start(currentSlot), updates).recentSlots
      == Window.LastN([currentSlot] + FedLog(updates), MAX_RECENT_SLOTS_LENGTH)
    decreases |updates|
  {
    if |updates| > 0 {
      var prefix := updates[..|updates| - 1];
      RunKeepsLatestSlots(order, currentSlot, prefix);
      RunTracksShreds(order, currentSlot, prefix);
      RunStepKeepsLatest(order, currentSlot, updates);
    }
  }

  /** The inductive step of `RunKeepsLatestSlots`: one more update extends the log by what it feeds. */
  lemma RunStepKeepsLatest(order: SlotOrder, currentSlot: nat, updates: seq<SlotUpdate>)
    requires |updates| > 0
    requires Run(order, Start(currentSlot), updates[..|updates| - 1]).recentSlots
      == Window.LastN([currentSlot] + FedLog(updates[..|updates| - 1]), MAX_RECENT_SLOTS_LENGTH)
    requires Run(order, Start(currentSlot), updates[..|updates| - 1]).receivedShredNotification
      == SawShred(updates[..|updates| - 1])
    ensures Run(order, Start(currentSlot), updates).recentSlots
      == Window.LastN([currentSlot] + FedLog(updates), MAX_RECENT_SLOTS_LENGTH)
  {
    var prefix := updates[..|updates| - 1];
    var u := updates[|updates| - 1];
    var t := Run(order, Start(currentSlot), prefix);
    var log := [currentSlot] + FedLog(prefix);
    FedLogStep(currentSlot, updates);
    StepKeepsLatest(order, t, u, log);
  }

  lemma FedLogStep(currentSlot: nat, updates: seq<SlotUpdate>)
    requires |updates| > 0
    ensures [currentSlot] + FedLog(updates[..|updates| - 1]) + FedList(SawShred(updates[..|updates| - 1]), updates[|updates| - 1])
      == [currentSlot] + FedLog(updates)
  {
  }

  /** One update appends what it feeds to the log the window keeps the end of. */
  lemma StepKeepsLatest(order: SlotOrder, t: Tracker, u: SlotUpdate, log: seq<nat>)
    requires t.recentSlots == Window.LastN(log, MAX_RECENT_SLOTS_LENGTH)
    ensures OnSlotUpdate(order, t, u).0.recentSlots
      == Window.LastN(log + FedList(t.receivedShredNotification, u), MAX_RECENT_SLOTS_LENGTH)
  {
    var fed := FedSlot(t.receivedShredNotification, u);
    if fed.Some? {
      Window.LastNOfLastN(log, [fed.value], MAX_RECENT_SLOTS_LENGTH);
    } else {
      assert log + FedList(t.receivedShredNotification, u) == log;
    }
  }
}

=== FILE: legacy_tx_reducer.dfy ===
/**
 * The transaction reducer of the first web client: numbered transaction
 * slots, a completion counter and the running average confirmation time.
 */
module LegacyTxReducer {
  import Decimal

  datatype TransactionInfo = TransactionInfo(signature: string, confirmationTime: real, lamportsCount: int)

  datatype Transaction = Transaction(id: string, status: string, info: TransactionInfo)

  datatype ModelState = ModelState(
    transactions: seq<Transaction>,
    countCompletedTransactions: nat,
    averageTransactionsTime: real,
    transactionsPerSecond: real)

  datatype Action =
    | AddTransaction
    | SetInfo(id: string, status: string, info: TransactionInfo)
    | ResetTransactions
    | SetTps(payload: real)
    | UnknownAction

  const InitState := ModelState([], 0, 0.0, 0.0)

  /** The id the n-th slot is given: "transaction" followed by n in decimal. */
  function TransactionId(n: nat): string {
    "transaction" + Decimal.NatText(n)
  }

  function Blank(n: nat): Transaction {
    Transaction(TransactionId(n), "default", TransactionInfo("", 0.0, 0))
  }

  /** The total confirmation time of a list of transactions. */
  function TimeSum(txs: seq<Transaction>): real
    decreases |txs|
  {
    if |txs| == 0 then 0.0 else TimeSum(txs[..|txs| - 1]) + txs[|txs| - 1].info.confirmationTime
  }

  function WithInfo(txs: seq<Transaction>, id: string, status: string, info: TransactionInfo): (r: seq<Transaction>)
    ensures |r| == |txs|
    ensures forall i :: 0 <= i < |r| && txs[i].id == id ==> r[i] == Transaction(id, status, info)
    ensures forall i :: 0 <= i < |r| && txs[i].id != id ==> r[i] == txs[i]
  {
    seq(|txs|, i requires 0 <= i < |txs| => if txs[i].id == id then txs[i].(status := status, info := info) else txs[i])
  }

  /**
   * `transactionReducer`. Every SET_INFO counts one completion, matched or
   * not, and the average is the total time over that count (the source
   * rounds it to three decimals). SET_TPS receives a count over five seconds.
   */
  function Reduce(s: ModelState, a: Action): (r: ModelState)
    ensures a.AddTransaction? ==> r == s.(transactions := s.transactions + [Blank(|s.transactions|)])
    ensures a.SetInfo? ==>
      && r.transactions == WithInfo(s.transactions, a.id, a.status, a.info)
      && r.countCompletedTransactions == s.countCompletedTransactions + 1
      && r.averageTransactionsTime * (r.countCompletedTransactions as real) == TimeSum(r.transactions)
      && r.transactionsPerSecond == s.transactionsPerSecond
    ensures a.ResetTransactions? ==>
      r == ModelState([], 0, 0.0, s.transactionsPerSecond)
    ensures a.SetTps? ==> r == s.(transactionsPerSecond := a.payload / 5.0)
    ensures a.UnknownAction? ==> r == s
  {
    match a
    case AddTransaction => s.(transactions := s.transactions + [Blank(|s.transactions|)])
    case SetInfo(id, status, info) =>
      var txs := WithInfo(s.transactions, id, status, info);
      var count := s.countCompletedTransactions + 1;
      s.(transactions := txs, countCompletedTransactions := count, averageTransactionsTime := TimeSum(txs) / count as real)
    case ResetTransactions =>
      s.(transactions := [], countCompletedTransactions := 0, averageTransactionsTime := 0.0)
    case SetTps(payload) => s.(transactionsPerSecond := payload / 5.0)
    case UnknownAction => s
  }

  function Run(s: ModelState, actions: seq<Action>): ModelState
    decreases |actions|
  {
    if |actions| == 0 then s else Reduce(Run(s, actions[..|actions| - 1]), actions[|actions| - 1])
  }

  /** Each slot carries the id of its position. */
  predicate IdsArePositions(txs: seq<Transaction>) {
    forall i :: 0 <= i < |txs| ==> txs[i].id == TransactionId(i)
  }

  /** Slot ids name their positions in every reachable store. */
  lemma {:induction false} RunKeepsIdsArePositions(actions: seq<Action>)
    ensures IdsArePositions(Run(InitState, actions).transactions)
    decreases |actions|
  {
    if |actions| > 0 {
      RunKeepsIdsArePositions(actions[..|actions| - 1]);
    }
  }

  /** Distinct positions carry distinct ids. */
  lemma TransactionIdInjective(m: nat, n: nat)
    ensures TransactionId(m) == TransactionId(n) <==> m == n
  {
    if TransactionId(m) == TransactionId(n) {
      assert Decimal.NatText(m) == TransactionId(m)[11..];
      assert Decimal.NatText(n) == TransactionId(n)[11..];
      Decimal.TextInjective(m, n);
    }
  }

  /** In a store whose ids are positions, SET_INFO rewrites at most the one slot it names. */
  lemma SetInfoTouchesOneSlot(s: ModelState, n: nat, status: string, info: TransactionInfo)
    requires IdsArePositions(s.transactions)
    ensures var r := Reduce(s, SetInfo(TransactionId(n), status, info));
      && (forall i :: 0 <= i < |s.transactions| && i != n ==> r.transactions[i] == s.transactions[i])
      && (n < |s.transactions| ==> r.transactions[n] == Transaction(TransactionId(n), status, info))
  {
    forall i | 0 <= i < |s.transactions| && i != n
      ensures s.transactions[i].id != TransactionId(n)
    {
      TransactionIdInjective(i, n);
    }
  }

  /** The expectations written for the reducer: adding to the empty store yields "transaction0". */
  lemma AddToEmptyStore()
    ensures Reduce(InitState, AddTransaction).transactions
      == [Transaction("transaction0", "default", TransactionInfo("", 0.0, 0))]
  {
    assert Decimal.DigitChar(0) == '0';
    assert TransactionId(0) == "transaction" + "0" == "transaction0";
  }
}

=== FILE: server_select.dfy ===
/**
 * Which game server the client talks to: the cluster named in the page's
 * query string, its display name, and the HTTP and WebSocket URLs derived
 * from it. Whether the page runs on localhost is an input.
 */
module ServerSelect {
  import opened Wrappers

  datatype Server = MainnetBeta | Testnet | Devnet | Custom

  /** The server's identifier as it appears in `?cluster=`. */
  function Id(s: Server): string {
    match s
    case MainnetBeta => "mainnet-beta"
    case Testnet => "testnet"
    case Devnet => "devnet"
    case Custom => "custom"
  }

  function DefaultServer(localhost: bool): Server {
    if localhost then Custom else MainnetBeta
  }

  /** The servers offered for selection. */
  function Servers(localhost: bool): (r: seq<Server>)
    ensures DefaultServer(localhost) in r
    ensures localhost ==> r == [Custom]
    ensures !localhost ==> MainnetBeta in r && Testnet in r && Devnet in r && Custom in r
  {
    if localhost then [Custom] else [MainnetBeta, Testnet, Devnet, Custom]
  }

  /** `serverName`: the display name; distinct servers get distinct names. */
  function ServerName(s: Server): (name: string)
    ensures |name| > 0
  {
    match s
    case MainnetBeta => "Mainnet Beta"
    case Testnet => "Testnet"
    case Devnet => "Devnet"
    case Custom => "Custom"
  }

  lemma ServerNameInjective(a: Server, b: Server)
    ensures ServerName(a) == ServerName(b) <==> a == b
  {
    if a != b {
      assert ServerName(a)[0] != ServerName(b)[0] || |ServerName(a)| != |ServerName(b)|;
    }
  }

  /**
   * `parseQuery`: the server named by the `cluster` parameter, or the
   * default when it is absent or names no server.
   */
  function ParseQuery(cluster: Option<string>, localhost: bool): (s: Server)
    ensures cluster.Some? && KnownId(cluster.value) ==> Id(s) == cluster.value
    ensures !(cluster.Some? && KnownId(cluster.value)) ==> s == DefaultServer(localhost)
  {
    match cluster
    case Some("devnet") => Devnet
    case Some("testnet") => Testnet
    case Some("mainnet-beta") => MainnetBeta
    case Some("custom") => Custom
    case _ => DefaultServer(localhost)
  }

  /** Whether `x` is the identifier of some server. */
  predicate KnownId(x: string) {
    x == "mainnet-beta" || x == "testnet" || x == "devnet" || x == "custom"
  }

  /** A server's identifier in the query string selects that server again. */
  lemma ParseQueryRoundTrip(s: Server, localhost: bool)
    ensures ParseQuery(Some(Id(s)), localhost) == s
  {
  }

  /** The part of the Heroku host name that names the server. */
  function Slug(s: Server): string
    requires s != Custom
  {
    if s == MainnetBeta then "mainnet" else Id(s)
  }

  /** Everything after the scheme in a public server's URL. */
  function Host(s: Server): string
    requires s != Custom
  {
    "://break-solana-" + Slug(s) + ".herokuapp.com"
  }

  function Scheme(localhost: bool): string {
    if localhost then "http" else "https"
  }

  /**
   * `getServerUrl`: the custom URL verbatim for the custom server, otherwise
   * the server's Heroku app, over plain HTTP only on localhost.
   */
  function GetServerUrl(s: Server, customUrl: string, localhost: bool): (url: string)
    ensures s == Custom ==> url == customUrl
    ensures s != Custom ==> url == Scheme(localhost) + Host(s)
  {
    if s == Custom then customUrl
    else Scheme(localhost) + Host(s)
  }

  /** Different public servers never share a URL. */
  lemma PublicUrlsDistinct(a: Server, b: Server, localhost: bool)
    requires a != Custom && b != Custom && a != b
    ensures GetServerUrl(a, "", localhost) != GetServerUrl(b, "", localhost)
  {
    var k := |Scheme(localhost)| + 16;
    SlugStartsAt(a, localhost);
    SlugStartsAt(b, localhost);
    assert Slug(a)[0] != Slug(b)[0];
    assert GetServerUrl(a, "", localhost)[k] != GetServerUrl(b, "", localhost)[k];
  }

  /** A public server's URL carries the first letter of its slug right after the fixed prefix. */
  lemma SlugStartsAt(s: Server, localhost: bool)
    requires s != Custom
    ensures |GetServerUrl(s, "", localhost)| > |Scheme(localhost)| + 16
    ensures GetServerUrl(s, "", localhost)[|Scheme(localhost)| + 16] == Slug(s)[0]
  {
    var lead := "://break-solana-" + Slug(s);
    assert |"://break-solana-"| == 16;
    assert lead[16] == Slug(s)[0];
    assert Host(s)[16] == lead[16];
    assert GetServerUrl(s, "", localhost)[|Scheme(localhost)| + 16] == Host(s)[16];
  }

  /** Whether `pat` occurs in `s` starting at `i`. */
  predicate OccursAt(s: string, pat: string, i: nat) {
    i + |pat| <= |s| && s[i..i + |pat|] == pat
  }

  /** The first occurrence of `pat` in `s` at or after `from`. */
  function FirstIndexFrom(s: string, pat: string, from: nat): (r: Option<nat>)
    ensures r.Some? ==>
      from <= r.value && OccursAt(s, pat, r.value) && forall j :: from <= j < r.value ==> !OccursAt(s, pat, j)
    ensures r.None? ==> forall j :: from <= j ==> !OccursAt(s, pat, j)
    decreases |s| - from
  {
    if from + |pat| > |s| then None
    else if s[from..from + |pat|] == pat then Some(from)
    else FirstIndexFrom(s, pat, from + 1)
  }

  /**
   * JavaScript's `String.prototype.replace` with a string pattern: only the
   * first occurrence is replaced, and a string without one is unchanged.
   */
  function ReplaceFirst(s: string, pat: string, rep: string): (r: string)
    ensures FirstIndexFrom(s, pat, 0).None? ==> r == s
    ensures FirstIndexFrom(s, pat, 0).Some? ==>
      var i := FirstIndexFrom(s, pat, 0).value;
      r == s[..i] + rep + s[i + |pat|..] && forall j :: 0 <= j < i ==> !OccursAt(s, pat, j)
  {
    match FirstIndexFrom(s, pat, 0)
    case None => s
    case Some(i) => s[..i] + rep + s[i + |pat|..]
  }

  /** The URL the client opens its WebSocket to. */
  function WebSocketUrl(httpUrl: string): string {
    ReplaceFirst(httpUrl, "http", "ws")
  }

  /** A string that starts with the pattern has its first characters replaced. */
  lemma ReplaceAtStart(s: string, pat: string, rep: string)
    requires OccursAt(s, pat, 0)
    ensures ReplaceFirst(s, pat, rep) == rep + s[|pat|..]
  {
    assert FirstIndexFrom(s, pat, 0) == Some(0);
  }

  /** A URL starting with "http" gets "ws" in its place, the rest untouched. */
  lemma WebSocketOfHttp(tail: string)
    ensures WebSocketUrl("http" + tail) == "ws" + tail
  {
    var url := "http" + tail;
    assert OccursAt(url, "http", 0) && url[4..] == tail;
    ReplaceAtStart(url, "http", "ws");
  }

  /** The public servers' sockets: `https` becomes `wss`, `http` becomes `ws`. */
  lemma PublicWebSocketUrl(s: Server, localhost: bool)
    requires s != Custom
    ensures WebSocketUrl(GetServerUrl(s, "", localhost)) == (if localhost then "ws" else "wss") + Host(s)
  {
    var h := Host(s);
    if localhost {
      WebSocketOfHttp(h);
    } else {
      assert "https" + h == "http" + ("s" + h);
      WebSocketOfHttp("s" + h);
      assert "ws" + ("s" + h) == "wss" + h;
    }
  }

  /** A custom URL without "http" in it is used for the socket unchanged. */
  lemma CustomUrlWithoutHttp(customUrl: string)
    requires forall j :: 0 <= j ==> !OccursAt(customUrl, "http", j)
    ensures WebSocketUrl(GetServerUrl(Custom, customUrl, false)) == customUrl
  {
  }
}

=== FILE: slot_timing.dfy ===
/**
 * The client's slot tracker: the target slot shown to the player, the
 * latest notification timestamp, and per-slot timing records filled in by the
 * validator's slot-update notifications.
 */
module SlotTiming {
  import opened Wrappers

  datatype SlotStats = SlotStats(
    numTransactionEntries: int,
    numSuccessfulTransactions: int,
    numFailedTransactions: int,
    maxTransactionsPerEntry: int)

  /** When each stage of a slot was observed (timestamps in milliseconds). */
  datatype Timing = Timing(
    firstShred: int,
    parent: Option<int>,
    fullSlot: Option<int>,
    createdBank: Option<int>,
    frozen: Option<int>,
    dead: Option<int>,
    err: Option<string>,
    confirmed: Option<int>,
    rooted: Option<int>,
    stats: Option<SlotStats>)

  /** The slot-update notifications, each with its slot and timestamp. */
  datatype SlotUpdate =
    | FirstShredReceived(slot: int, timestamp: int)
    | Completed(slot: int, timestamp: int)
    | CreatedBank(slot: int, timestamp: int, parent: int)
    | Dead(slot: int, timestamp: int, err: string)
    | Frozen(slot: int, timestamp: int, stats: SlotStats)
    | OptimisticConfirmation(slot: int, timestamp: int)
    | Root(slot: int, timestamp: int)

  /**
   * The provider's refs. `updateMode` holds in debug mode or on the slots
   * page, the only case in which slot updates are subscribed to;
   * `slotChangeListening` says whether the plain slot-change listener is
   * still registered.
   */
  datatype Tracker = Tracker(
    targetSlot: Option<int>,
    metrics: map<int, Timing>,
    latestTimestamp: Option<int>,
    updateMode: bool,
    slotChangeListening: bool)

  /** The fields of a timing record. */
  datatype Field = FirstShredField | ParentField | FullSlotField | CreatedBankField | FrozenField
                 | DeadField | ErrField | ConfirmedField | RootedField | StatsField

  /** Whether two records agree on field `f`. */
  predicate Agree(a: Timing, b: Timing, f: Field) {
    match f
    case FirstShredField => a.firstShred == b.firstShred
    case ParentField => a.parent == b.parent
    case FullSlotField => a.fullSlot == b.fullSlot
    case CreatedBankField => a.createdBank == b.createdBank
    case FrozenField => a.frozen == b.frozen
    case DeadField => a.dead == b.dead
    case ErrField => a.err == b.err
    case ConfirmedField => a.confirmed == b.confirmed
    case RootedField => a.rooted == b.rooted
    case StatsField => a.stats == b.stats
  }

  /** The fields a notification kind is allowed to write in an existing record. */
  function Written(u: SlotUpdate): set<Field> {
    match u
    case FirstShredReceived(_, _) => {}
    case Completed(_, _) => {FullSlotField}
    case CreatedBank(_, _, _) => {ParentField, CreatedBankField}
    case Dead(_, _, _) => {DeadField, ErrField}
    case Frozen(_, _, _) => {FrozenField, StatsField}
    case OptimisticConfirmation(_, _) => {ConfirmedField}
    case Root(_, _) => {RootedField}
  }

  /** A record that has only seen its first shred. */
  function Fresh(timestamp: int): Timing {
    Timing(timestamp, None, None, None, None, None, None, None, None, None)
  }

  /** JavaScript truthiness of an optional number: absent and 0 are both false. */
  predicate Truthy(x: Option<int>) {
    x.Some? && x.value != 0
  }

  /** A connection (re)established: the metrics map is cleared and both listeners register. */
  function Connect(t: Tracker, updateMode: bool): (r: Tracker)
    ensures r.metrics == map[] && r.slotChangeListening && r.updateMode == updateMode
    ensures r.targetSlot == t.targetSlot && r.latestTimestamp == t.latestTimestamp
  {
    t.(metrics := map[], updateMode := updateMode, slotChangeListening := true)
  }

  /** A plain slot-change event moves the target only outside update mode. */
  function OnSlotChange(t: Tracker, slot: int): (r: Tracker)
    ensures r.targetSlot == if t.slotChangeListening && !t.updateMode then Some(slot) else t.targetSlot
    ensures r.(targetSlot := t.targetSlot) == t
  {
    if t.slotChangeListening && !t.updateMode then t.(targetSlot := Some(slot)) else t
  }

  /** The record after a notification for a slot that already has one. */
  function ApplyToRecord(rec: Timing, u: SlotUpdate): (r: Timing)
    requires !u.FirstShredReceived?
    ensures forall f :: f !in Written(u) ==> Agree(rec, r, f)
    ensures u.Root? ==> r.rooted == if Truthy(rec.rooted) then rec.rooted else Some(u.timestamp)
    ensures u.Completed? ==> r.fullSlot == Some(u.timestamp)
    ensures u.CreatedBank? ==> r.createdBank == Some(u.timestamp) && r.parent == Some(u.parent)
    ensures u.Dead? ==> r.dead == Some(u.timestamp) && r.err == Some(u.err)
    ensures u.Frozen? ==> r.frozen == Some(u.timestamp) && r.stats == Some(u.stats)
    ensures u.OptimisticConfirmation? ==> r.confirmed == Some(u.timestamp)
  {
    match u
    case Completed(_, ts) => rec.(fullSlot := Some(ts))
    case CreatedBank(_, ts, parent) => rec.(parent := Some(parent), createdBank := Some(ts))
    case Dead(_, ts, err) => rec.(dead := Some(ts), err := Some(err))
    case Frozen(_, ts, stats) => rec.(frozen := Some(ts), stats := Some(stats))
    case OptimisticConfirmation(_, ts) => rec.(confirmed := Some(ts))
    case Root(_, ts) =>
      // A root notification may arrive twice; only the first is kept.
      if !Truthy(rec.rooted) then rec.(rooted := Some(ts)) else rec
  }

  /**
   * A slot-update notification. Without the update subscription nothing
   * happens. Otherwise it stops the plain slot-change listener, records its
   * timestamp, and either starts a fresh record (first shred, also raising
   * the target slot) or fills in the fields of an existing record; a
   * notification for an untracked slot changes nothing else.
   */
  function OnSlotUpdate(t: Tracker, u: SlotUpdate): (r: Tracker)
    ensures !t.updateMode ==> r == t
    ensures t.updateMode ==> r.latestTimestamp == Some(u.timestamp) && !r.slotChangeListening
    ensures r.updateMode == t.updateMode
    ensures t.updateMode && u.FirstShredReceived? ==>
      r.targetSlot == Some(if u.slot > t.targetSlot.GetOr(0) then u.slot else t.targetSlot.GetOr(0)) &&
      r.metrics == t.metrics[u.slot := Fresh(u.timestamp)]
    ensures !u.FirstShredReceived? ==> r.targetSlot == t.targetSlot && r.metrics.Keys == t.metrics.Keys
    ensures !u.FirstShredReceived? && u.slot !in t.metrics ==> r.metrics == t.metrics
    ensures forall s :: s in t.metrics && s != u.slot ==> s in r.metrics && r.metrics[s] == t.metrics[s]
    ensures t.updateMode && !u.FirstShredReceived? && u.slot in t.metrics ==>
      forall f :: f !in Written(u) ==> Agree(t.metrics[u.slot], r.metrics[u.slot], f)
  {
    if !t.updateMode then t
    else
      var t' := t.(slotChangeListening := false, latestTimestamp := Some(u.timestamp));
      if u.FirstShredReceived? then
        var current := t.targetSlot.GetOr(0);
        t'.(targetSlot := Some(if u.slot > current then u.slot else current),
            metrics := t.metrics[u.slot := Fresh(u.timestamp)])
      else if u.slot !in t.metrics then t'
      else t'.(metrics := t.metrics[u.slot := ApplyToRecord(t.metrics[u.slot], u)])
  }

  /** Either kind of event the provider listens to. */
  datatype Event = SlotChange(slot: int) | Update(update: SlotUpdate)

  function Step(t: Tracker, e: Event): Tracker {
    match e
    case SlotChange(slot) => OnSlotChange(t, slot)
    case Update(u) => OnSlotUpdate(t, u)
  }

  function Run(t: Tracker, es: seq<Event>): Tracker
    decreases |es|
  {
    if |es| == 0 then t else Run(Step(t, es[0]), es[1..])
  }

  /**
   * In update mode the target slot never moves backwards, whatever events
   * arrive and in whatever order.
   */
  lemma {:induction false} TargetNeverDecreases(t: Tracker, es: seq<Event>)
    requires t.updateMode
    ensures Run(t, es).targetSlot.GetOr(0) >= t.targetSlot.GetOr(0)
    ensures t.targetSlot.Some? ==> Run(t, es).targetSlot.Some?
    decreases |es|
  {
    if |es| > 0 {
      TargetNeverDecreases(Step(t, es[0]), es[1..]);
    }
  }

  /** Once a record's root time is set (and nonzero), later root notifications keep it. */
  lemma {:induction false} RootWrittenOnce(t: Tracker, es: seq<Event>, slot: int)
    requires slot in t.metrics && Truthy(t.metrics[slot].rooted)
    requires forall i :: 0 <= i < |es| ==> !(es[i].Update? && es[i].update.FirstShredReceived? && es[i].update.slot == slot)
    ensures slot in Run(t, es).metrics && Run(t, es).metrics[slot].rooted == t.metrics[slot].rooted
    decreases |es|
  {
    if |es| > 0 {
      var t' := Step(t, es[0]);
      assert slot in t'.metrics && t'.metrics[slot].rooted == t.metrics[slot].rooted;
      RootWrittenOnce(t', es[1..], slot);
    }
  }
}

=== FILE: supply.dfy ===
/**
 * The server's account supply as the game API uses it: two pools (fee
 * accounts and program accounts) reserved, returned and handed out in
 * pairs, and the cost of creating accounts for a paying player.
 */
module Supply {
  import opened Wrappers
  import AccountSupply

  /** Transactions one pair of accounts is sized for when the deployment configures no other number. */
  const DEFAULT_TX_PER_ACCOUNT: nat := 1000

  /**
   * TX_PER_ACCOUNT: the configured number when it parses to a non-zero
   * number. `configured` is `None` when the setting is absent or not a number.
   */
  function TxPerAccount(configured: Option<int>): (n: int)
    ensures n != 0
    ensures configured.Some? && configured.value != 0 ==> n == configured.value
    ensures configured.None? || configured.value == 0 ==> n == DEFAULT_TX_PER_ACCOUNT
  {
    if configured.Some? && configured.value != 0 then configured.value else DEFAULT_TX_PER_ACCOUNT
  }

  datatype Supply = Supply(
    fee: AccountSupply.Pool,
    program: AccountSupply.Pool,
    lamportsPerSignature: nat,
    feeAccountCost: nat,
    programAccountCost: nat,
    txPerAccount: int)

  /** `accountCapacity`. */
  function AccountCapacity(s: Supply): int {
    s.txPerAccount
  }

  /** `calculateCost`: a pair of accounts per player costs both accounts' funding, plus one signature when asked. */
  function CalculateCost(s: Supply, accounts: nat, includeFee: bool): (c: nat)
    ensures c >= accounts * (s.programAccountCost + s.feeAccountCost)
  {
    (if includeFee then s.lamportsPerSignature else 0) + accounts * (s.programAccountCost + s.feeAccountCost)
  }

  /** The cost is additive in the number of accounts, and including the fee adds exactly one signature. */
  lemma CostIsLinear(s: Supply, a: nat, b: nat)
    ensures CalculateCost(s, a + b, false) == CalculateCost(s, a, false) + CalculateCost(s, b, false)
    ensures CalculateCost(s, a, true) == CalculateCost(s, a, false) + s.lamportsPerSignature
    ensures CalculateCost(s, 0, false) == 0
  {
    var k := s.programAccountCost + s.feeAccountCost;
    assert (a + b) * k == a * k + b * k;
  }

  /**
   * `createAccounts`, with the payer's balance and the accounts each batch
   * creation produced as inputs: refuse when the balance does not cover the
   * accounts and one signature; otherwise pair the created accounts up,
   * dropping the unpaired tail of the longer list.
   */
  function CreateAccounts(s: Supply, count: nat, balance: int, feeCreated: seq<nat>, programCreated: seq<nat>)
    : (r: Result<(seq<nat>, seq<nat>), string>)
    ensures r.Err? <==> CalculateCost(s, count, true) > balance
    ensures r.Err? ==> r.error == "Insufficient funds"
    ensures r.Ok? ==>
      && |r.value.0| == |r.value.1| <= |feeCreated|
      && |r.value.1| <= |programCreated|
      && (|r.value.0| == |feeCreated| || |r.value.1| == |programCreated|)
      && r.value.0 == feeCreated[..|r.value.0|]
      && r.value.1 == programCreated[..|r.value.1|]
  {
    var lamports := CalculateCost(s, count, false);
    if s.lamportsPerSignature + lamports > balance then Err("Insufficient funds")
    else
      var created := if |feeCreated| < |programCreated| then |feeCreated| else |programCreated|;
      Ok((feeCreated[..created], programCreated[..created]))
  }

  /**
   * `reserveAccounts`: reserve fee accounts, then, only if that worked,
   * program accounts. A fee reservation is kept even when the program
   * reservation then fails.
   */
  function ReserveAccounts(s: Supply, count: nat, now: int): (r: (Supply, bool))
    ensures r.0.fee == AccountSupply.Reserve(s.fee, count, now).0
    ensures !AccountSupply.Reserve(s.fee, count, now).1 ==> !r.1 && r.0.program == s.program
    ensures AccountSupply.Reserve(s.fee, count, now).1 ==>
      (r.1 <==> AccountSupply.Reserve(s.program, count, now).1) && r.0.program == AccountSupply.Reserve(s.program, count, now).0
    ensures r.1 ==> |AccountSupply.Unexpired(s.fee.funded, now)| >= count && |AccountSupply.Unexpired(s.program.funded, now)| >= count
  {
    var (fee, feeOk) := AccountSupply.Reserve(s.fee, count, now);
    if !feeOk then (s.(fee := fee), false)
    else
      var (program, programOk) := AccountSupply.Reserve(s.program, count, now);
      (s.(fee := fee, program := program), programOk)
  }

  /** With one fee account and no program account, a failed reservation still holds the fee account. */
  lemma ReserveAccountsKeepsPartialReservation()
    ensures var e := AccountSupply.Entry(1, 10);
      var s := Supply(AccountSupply.Pool([e], []), AccountSupply.Pool([], []), 5000, 1, 1, 1000);
      var (r, ok) := ReserveAccounts(s, 1, 0);
      !ok && r.fee.reserved == [e]
  {
    var e := AccountSupply.Entry(1, 10);
    var f := AccountSupply.Unexpired([e], 0);
    assert f == [e];
    assert f[..1] == [e];
  }

  /**
   * `unreserveAccounts` as the source writes it: the fee pool's `unreserve`
   * and then the program pool's. Each is the as-written no-op on the pool,
   * so only the error can differ from doing nothing; a fee pool that is too
   * short throws before the program pool is asked.
   */
  function UnreserveAccounts(s: Supply, count: nat): (r: (Supply, Option<string>))
    ensures r.0 == s
    ensures r.1.None? <==> count <= |s.fee.reserved| && count <= |s.program.reserved|
    ensures r.1.Some? ==> r.1.value == "unable to unreserve"
  {
    match AccountSupply.UnreserveAsWritten(s.fee, count)
    case Err(e) => (s, Some(e))
    case Ok(fee) =>
      match AccountSupply.UnreserveAsWritten(s.program, count)
      case Err(e) => (s.(fee := fee), Some(e))
      case Ok(program) => (s.(fee := fee, program := program), None)
  }

  /**
   * As written, a successful paired reservation is not undone: both pools
   * keep the reserved accounts, and no error is reported.
   */
  lemma UnreserveAccountsKeepsReservation(s: Supply, count: nat, now: int)
    requires ReserveAccounts(s, count, now).1
    ensures var reserved := ReserveAccounts(s, count, now).0;
      var (r, err) := UnreserveAccounts(reserved, count);
      && err.None?
      && r.fee.reserved == s.fee.reserved + AccountSupply.Unexpired(s.fee.funded, now)[..count]
      && r.program.reserved == s.program.reserved + AccountSupply.Unexpired(s.program.funded, now)[..count]
  {
  }

  /**
   * `unreserveAccounts` as intended: each pool gives its `count` most recent
   * reservations back to its funded list, fee pool first. The fee pool's
   * change stands if the program pool then fails.
   */
  function UnreserveAccountsIntended(s: Supply, count: nat): (r: (Supply, Option<string>))
    ensures r.1.None? <==> count <= |s.fee.reserved| && count <= |s.program.reserved|
    ensures count > |s.fee.reserved| ==> r.0 == s
    ensures count <= |s.fee.reserved| ==> r.0.fee == AccountSupply.Unreserve(s.fee, count).value
    ensures r.1.None? ==> r.0.program == AccountSupply.Unreserve(s.program, count).value
  {
    match AccountSupply.Unreserve(s.fee, count)
    case Err(e) => (s, Some(e))
    case Ok(fee) =>
      match AccountSupply.Unreserve(s.program, count)
      case Err(e) => (s.(fee := fee), Some(e))
      case Ok(program) => (s.(fee := fee, program := program), None)
  }

  /** A successful `reserveAccounts` is undone by the intended `unreserveAccounts` of the same count. */
  lemma ReserveThenUnreserveAccounts(s: Supply, count: nat, now: int)
    requires ReserveAccounts(s, count, now).1
    ensures var (r, err) := UnreserveAccountsIntended(ReserveAccounts(s, count, now).0, count);
      err.None?
      && r.fee == AccountSupply.Pool(AccountSupply.Unexpired(s.fee.funded, now), s.fee.reserved)
      && r.program == AccountSupply.Pool(AccountSupply.Unexpired(s.program.funded, now), s.program.reserved)
  {
    AccountSupply.ReserveThenUnreserve(s.fee, count, now);
    AccountSupply.ReserveThenUnreserve(s.program, count, now);
  }

  /**
   * `popAccounts`: take `count` program accounts, then `count` fee accounts.
   * When the program pool is short nothing changes; when only the fee pool is
   * short the program accounts are already taken and lost.
   */
  function PopAccounts(s: Supply, count: nat): (r: (Supply, Result<(seq<nat>, seq<nat>), string>))
    ensures r.1.Err? <==> |s.program.reserved| < count || |s.fee.reserved| < count
    ensures |s.program.reserved| < count ==> r.0 == s
    ensures |s.program.reserved| >= count ==> r.0.program.reserved == s.program.reserved[count..]
    ensures |s.fee.reserved| >= count && r.1.Ok? ==> r.0.fee.reserved == s.fee.reserved[count..]
    ensures r.1.Err? ==> r.0.fee == s.fee
    ensures r.1.Ok? ==>
      && |r.1.value.0| == count == |r.1.value.1|
      && (forall i :: 0 <= i < count ==> r.1.value.0[i] == s.program.reserved[i].account)
      && (forall i :: 0 <= i < count ==> r.1.value.1[i] == s.fee.reserved[i].account)
  {
    match AccountSupply.Pop(s.program, count)
    case Err(e) => (s, Err(e))
    case Ok((program, programAccounts)) =>
      assert s.program.reserved == s.program.reserved[..count] + s.program.reserved[count..];
      match AccountSupply.Pop(s.fee, count)
      case Err(e) => (s.(program := program), Err(e))
      case Ok((fee, feeAccounts)) =>
        assert s.fee.reserved == s.fee.reserved[..count] + s.fee.reserved[count..];
        (s.(program := program, fee := fee), Ok((programAccounts, feeAccounts)))
  }

  /**
   * With nothing reserved before, reserving and then popping the same count
   * hands out the oldest unexpired accounts of each pool, paired by position.
   */
  lemma ReserveThenPopAccounts(s: Supply, count: nat, now: int)
    requires s.fee.reserved == [] && s.program.reserved == []
    requires ReserveAccounts(s, count, now).1
    ensures var (_, r) := PopAccounts(ReserveAccounts(s, count, now).0, count);
      r.Ok? && forall i :: 0 <= i < count ==>
        r.value.0[i] == AccountSupply.Unexpired(s.program.funded, now)[i].account
        && r.value.1[i] == AccountSupply.Unexpired(s.fee.funded, now)[i].account
  {
    AccountSupply.ReserveThenPop(s.fee, count, now);
    AccountSupply.ReserveThenPop(s.program, count, now);
  }
}

=== FILE: tick_arrays.dfy ===
/**
 * The tick-array window of an Orca whirlpool: the start indices of the three
 * tick arrays a swap walks through, and their program-derived addresses.
 */
module TickArrays {
  import opened Wrappers
  import opened IntMath
  import Decimal
  import opened Addresses

  const MAX_TICK_INDEX: int := 443636
  const MIN_TICK_INDEX: int := -443636
  const TICK_ARRAY_SIZE: int := 88

  /** Ways the Rust code panics. */
  datatype Panic =
    | DivisionByZero
    | ArithmeticOverflow
      /** `assert!(MIN_TICK_INDEX <= start_tick_index)` failed */
    | StartBelowMinimum
      /** `assert!(start_tick_index + ticks_in_array <= MAX_TICK_INDEX)` failed */
    | EndAboveMaximum

  predicate IsU16(x: int) {
    0 <= x <= U16_MAX
  }

  predicate InTickDomain(tick: int) {
    MIN_TICK_INDEX <= tick <= MAX_TICK_INDEX
  }

  /** An `i32` result, or the overflow panic of checked arithmetic. */
  function CheckI32(x: int): (r: Result<int, Panic>)
    ensures r.Ok? <==> IsI32(x)
    ensures r.Ok? ==> r.value == x
  {
    if IsI32(x) then Ok(x) else Err(ArithmeticOverflow)
  }

  /**
   * `div_floor`: corrects Rust's truncating `/` by one when a negative
   * dividend leaves a remainder. For every positive divisor the result is
   * the mathematical floor of a / b.
   */
  function DivFloor(a: int, b: int): (r: Result<int, Panic>)
    requires IsI32(a) && IsI32(b)
    ensures b == 0 ==> r == Err(DivisionByZero)
    ensures b > 0 ==> r.Ok? && r.value * b <= a < r.value * b + b
  {
    if b == 0 then Err(DivisionByZero)
    else if a == I32_MIN && b == -1 then Err(ArithmeticOverflow)
    else
      var q := TruncDiv(a, b);
      var rem := TruncRem(a, b);
      if a < 0 && rem != 0 then
        MulPred(q, b);
        Ok(q - 1)
      else Ok(q)
  }

  lemma MulPred(q: int, b: int)
    ensures (q - 1) * b == q * b - b
  {
  }

  /** The floor of a / b for positive b is unique, and it is Dafny's `a / b`. */
  lemma FloorUnique(a: int, b: int, q: int)
    requires b > 0 && q * b <= a < q * b + b
    ensures q == a / b
  {
    var d := a / b;
    assert d * b <= a < d * b + b;
    assert (q - d) * b == q * b - d * b;
    IntMath.MulBoundsFactor(q - d, b);
  }

  /** `div_floor` agrees with Dafny's floor division for every positive divisor. */
  lemma DivFloorIsFloor(a: int, b: int)
    requires IsI32(a) && IsI32(b) && b > 0
    ensures DivFloor(a, b) == Ok(a / b)
  {
    FloorUnique(a, b, DivFloor(a, b).value);
  }

  /** The floor-division examples of the design notes. */
  lemma DivFloorExamples()
    ensures DivFloor(-1, 88) == Ok(-1)
    ensures DivFloor(-89, 88) == Ok(-2)
    ensures DivFloor(0, 88) == Ok(0)
    ensures DivFloor(-5, 3) == Ok(-2)
  {
    DivFloorIsFloor(-1, 88);
    DivFloorIsFloor(-89, 88);
    DivFloorIsFloor(0, 88);
    DivFloorIsFloor(-5, 3);
  }

  /** Ticks covered by one tick array: `TICK_ARRAY_SIZE * tick_spacing`. */
  function TicksInArray(spacing: int): (w: int)
    requires IsU16(spacing)
    ensures IsI32(w) && w >= 0
    ensures (w == 0) <==> (spacing == 0)
  {
    TICK_ARRAY_SIZE * spacing
  }

  /** The mathematical start of the array `offset` arrays away from the one holding `tick`. */
  function WindowStart(tick: int, spacing: int, offset: int): int
    requires IsU16(spacing) && spacing > 0
  {
    (tick / TicksInArray(spacing) + offset) * TicksInArray(spacing)
  }

  /**
   * `get_start_tick_index`: every step in `i32` with checked arithmetic, then
   * the two bound assertions. Out-of-domain windows panic; nothing is clamped.
   */
  function StartTickIndex(tick: int, spacing: int, offset: int): (r: Result<int, Panic>)
    requires IsI32(tick) && IsU16(spacing) && IsI32(offset)
    ensures spacing == 0 ==> r == Err(DivisionByZero)
    ensures r.Ok? ==> spacing > 0 && r.value == WindowStart(tick, spacing, offset)
    ensures r.Ok? ==> r.value % TicksInArray(spacing) == 0
    ensures r.Ok? ==> MIN_TICK_INDEX <= r.value && r.value + TicksInArray(spacing) <= MAX_TICK_INDEX
  {
    var w := TicksInArray(spacing);
    if w == 0 then Err(DivisionByZero)
    else
      DivFloorIsFloor(tick, w);
      var realIndex := DivFloor(tick, w).value;
      match CheckI32(realIndex + offset)
      case Err(e) => Err(e)
      case Ok(sum) => CheckedStart(sum, w)
  }

  /** `(real_index + offset) * ticks_in_array` in checked `i32`, then the two bound assertions. */
  function CheckedStart(sum: int, w: int): (r: Result<int, Panic>)
    requires w > 0
    ensures r.Ok? ==> r.value == sum * w && r.value % w == 0
    ensures r.Ok? ==> MIN_TICK_INDEX <= r.value && r.value + w <= MAX_TICK_INDEX
    ensures r.Err? ==> r.error in {ArithmeticOverflow, StartBelowMinimum, EndAboveMaximum}
    ensures IsI32(sum * w) && IsI32(sum * w + w) ==>
      (r.Ok? <==> MIN_TICK_INDEX <= sum * w && sum * w + w <= MAX_TICK_INDEX)
  {
    var start := sum * w;
    MulMod(sum, w);
    if !IsI32(start) then Err(ArithmeticOverflow)
    else if !(MIN_TICK_INDEX <= start) then Err(StartBelowMinimum)
    else if !IsI32(start + w) then Err(ArithmeticOverflow)
    else if !(start + w <= MAX_TICK_INDEX) then Err(EndAboveMaximum)
    else Ok(start)
  }

  lemma MulMod(x: int, w: int)
    requires w > 0
    ensures (x * w) % w == 0
  {
    FloorUnique(x * w, w, x);
  }

  /**
   * For a tick inside the tick domain, a positive `u16` spacing and an offset
   * of at most two arrays, no intermediate `i32` value overflows: the call
   * succeeds exactly when the window lies inside the domain.
   */
  lemma StartTickIndexInDomain(tick: int, spacing: int, offset: int)
    requires InTickDomain(tick) && IsU16(spacing) && spacing > 0 && -2 <= offset <= 2
    ensures StartTickIndex(tick, spacing, offset).Ok? <==>
      (MIN_TICK_INDEX <= WindowStart(tick, spacing, offset)
       && WindowStart(tick, spacing, offset) + TicksInArray(spacing) <= MAX_TICK_INDEX)
    ensures StartTickIndex(tick, spacing, offset).Err? ==>
      StartTickIndex(tick, spacing, offset).error in {StartBelowMinimum, EndAboveMaximum}
  {
    var w := TicksInArray(spacing);
    DivFloorIsFloor(tick, w);
    var q := tick / w;
    assert q * w <= tick < q * w + w;
    QuotientBounds(tick, w, q);
    var sum := q + offset;
    assert IsI32(sum);
    OffsetProduct(q, offset, w);
    assert IsI32(sum * w) && IsI32(sum * w + w);
  }

  lemma QuotientBounds(tick: int, w: int, q: int)
    requires InTickDomain(tick) && w >= 1 && q * w <= tick < q * w + w
    ensures -MAX_TICK_INDEX - 1 <= q <= MAX_TICK_INDEX
  {
    if q >= 1 {
      IntMath.MulAtLeast(w, q);
      assert q * w >= q;
    }
    if q <= -1 {
      IntMath.MulAtLeast(w, -q - 1);
      assert (q + 1) * w == q * w + w;
      assert -(q + 1) * w >= -(q + 1);
    }
  }

  lemma OffsetProduct(q: int, offset: int, w: int)
    requires -2 <= offset <= 2 && w >= 0
    ensures (q + offset) * w == q * w + offset * w
    ensures -2 * w <= offset * w <= 2 * w
  {
  }

  /** With offset zero the window's first array holds the current tick. */
  lemma CurrentArrayHoldsTick(tick: int, spacing: int)
    requires IsI32(tick) && IsU16(spacing)
    requires StartTickIndex(tick, spacing, 0).Ok?
    ensures var start := StartTickIndex(tick, spacing, 0).value;
      start <= tick < start + TicksInArray(spacing)
  {
  }

  /** `get_tick_array_pubkey`: seeds "tick_array", the pool key and the decimal text of the start. */
  function TickArrayPubkey(programId: Pubkey, whirlpool: Pubkey, start: int): Pubkey {
    ProgramAddress(programId, [Text("tick_array"), KeyBytes(whirlpool), Text(Decimal.Text(start))])
  }

  /** Different start indices give different tick-array addresses. */
  lemma TickArrayPubkeyInjective(programId: Pubkey, whirlpool: Pubkey, s1: int, s2: int)
    ensures TickArrayPubkey(programId, whirlpool, s1) == TickArrayPubkey(programId, whirlpool, s2) <==> s1 == s2
  {
    Decimal.TextInjective(s1, s2);
    if TickArrayPubkey(programId, whirlpool, s1) == TickArrayPubkey(programId, whirlpool, s2) {
      assert [Text("tick_array"), KeyBytes(whirlpool), Text(Decimal.Text(s1))][2]
          == [Text("tick_array"), KeyBytes(whirlpool), Text(Decimal.Text(s2))][2];
    }
  }

  /** The offset of the i-th array: forward for b-to-a swaps, backward for a-to-b. */
  function Offset(aToB: bool, i: int): int {
    if aToB then -i else i
  }

  /**
   * `get_tick_array_pubkeys`: the three addresses in near-to-far order, or the
   * panic of the first array whose start fails.
   */
  method TickArrayPubkeys(tick: int, spacing: int, aToB: bool, programId: Pubkey, whirlpool: Pubkey)
    returns (r: Result<seq<Pubkey>, Panic>)
    requires IsI32(tick) && IsU16(spacing)
    ensures r.Ok? <==> forall i :: 0 <= i < 3 ==> StartTickIndex(tick, spacing, Offset(aToB, i)).Ok?
    ensures r.Ok? ==> |r.value| == 3
    ensures r.Ok? ==> forall i :: 0 <= i < 3 ==>
      r.value[i] == TickArrayPubkey(programId, whirlpool, WindowStart(tick, spacing, Offset(aToB, i)))
    ensures r.Err? ==> exists i :: 0 <= i < 3 && StartTickIndex(tick, spacing, Offset(aToB, i)) == Err(r.error) &&
                                   forall k :: 0 <= k < i ==> StartTickIndex(tick, spacing, Offset(aToB, k)).Ok?
  {
    var offset := 0;
    var pubkeys: seq<Pubkey> := [];
    var i := 0;
    while i < 3
      invariant 0 <= i <= 3 && |pubkeys| == i
      invariant offset == Offset(aToB, i)
      invariant forall k :: 0 <= k < i ==> StartTickIndex(tick, spacing, Offset(aToB, k)).Ok?
      invariant forall k :: 0 <= k < i ==>
        pubkeys[k] == TickArrayPubkey(programId, whirlpool, WindowStart(tick, spacing, Offset(aToB, k)))
    {
      var start := StartTickIndex(tick, spacing, offset);
      if start.Err? {
        return Err(start.error);
      }
      pubkeys := pubkeys + [TickArrayPubkey(programId, whirlpool, start.value)];
      offset := if aToB then offset - 1 else offset + 1;
      i := i + 1;
    }
    return Ok(pubkeys);
  }

  /**
   * Adjacent window starts differ by exactly one array width, increasing for
   * b-to-a swaps and decreasing for a-to-b swaps, so the three arrays are
   * distinct and non-overlapping.
   */
  lemma WindowSteps(tick: int, spacing: int, aToB: bool, i: int)
    requires IsU16(spacing) && spacing > 0
    ensures WindowStart(tick, spacing, Offset(aToB, i + 1))
         == WindowStart(tick, spacing, Offset(aToB, i)) + (if aToB then -1 else 1) * TicksInArray(spacing)
  {
    var w := TicksInArray(spacing);
    var q := tick / w;
    if aToB {
      assert (q + -(i + 1)) * w == (q + -i) * w - w;
    } else {
      assert (q + (i + 1)) * w == (q + i) * w + w;
    }
  }

  /** The scenario of tick 100 and spacing 64, swapping b to a: starts 0, 5632 and 11264. */
  lemma ScenarioStarts()
    ensures StartTickIndex(100, 64, 0) == Ok(0)
    ensures StartTickIndex(100, 64, 1) == Ok(5632)
    ensures StartTickIndex(100, 64, 2) == Ok(11264)
  {
  }

  /** Near the top of the domain the look-ahead arrays panic instead of being clamped. */
  lemma EdgeOfDomainPanics()
    ensures StartTickIndex(443636, 1, 0) == Err(EndAboveMaximum)
    ensures StartTickIndex(-443636, 1, -1) == Err(StartBelowMinimum)
  {
  }
}

=== FILE: tps_window.dfy ===
/**
 * The client's transactions-per-second sampler: every refresh it appends the
 * confirmed count to a short history and publishes the confirmation rate
 * between the oldest and newest samples.
 */
module TpsWindow {
  import Window
  import IntMath

  const TPS_REFRESH_MS: int := 250
  const TPS_LOOK_BACK: int := 4

  /** The sample history and the last published rate. */
  datatype Sampler = Sampler(recentCounts: seq<int>, tps: int)

  predicate Nondecreasing(s: seq<int>) {
    forall i, j :: 0 <= i < j < |s| ==> s[i] <= s[j]
  }

  /** The interval (re)starts with an empty history; the published rate stays. */
  function Start(s: Sampler): (r: Sampler)
    ensures r.recentCounts == [] && r.tps == s.tps
  {
    s.(recentCounts := [])
  }

  /**
   * One refresh: push the confirmed count, keep at most `TPS_LOOK_BACK + 1`
   * samples, and publish `floor((latest - oldest) / (0.25 s * ticks))` once
   * at least two samples exist. The source computes the rate in floating
   * point; every operand is an exact binary fraction and the quotient is
   * correctly rounded, so the floor is that of the exact rational.
   */
  function OnTick(s: Sampler, confirmedCount: int): (r: Sampler)
    ensures r.recentCounts == Window.LastN(s.recentCounts + [confirmedCount], TPS_LOOK_BACK + 1)
    ensures 1 <= |r.recentCounts| <= TPS_LOOK_BACK + 1
    ensures r.recentCounts[|r.recentCounts| - 1] == confirmedCount
    ensures |r.recentCounts| < 2 ==> r.tps == s.tps
    ensures |r.recentCounts| >= 2 ==>
      var ticks := |r.recentCounts| - 1;
      var diff := confirmedCount - r.recentCounts[0];
      r.tps * TPS_REFRESH_MS * ticks <= diff * 1000 < (r.tps + 1) * TPS_REFRESH_MS * ticks
    ensures |r.recentCounts| >= 2 && r.recentCounts[0] <= confirmedCount ==> r.tps >= 0
  {
    var counts := Window.Push(s.recentCounts, confirmedCount, TPS_LOOK_BACK + 1);
    var ticksElapsed := |counts| - 1;
    if ticksElapsed <= 0 then s.(recentCounts := counts)
    else
      var diff := counts[ticksElapsed] - counts[0];
      var tps := IntMath.FloorDiv(diff * 1000, TPS_REFRESH_MS * ticksElapsed);
      RateBounds(tps, diff, ticksElapsed);
      Sampler(counts, tps)
  }

  lemma RateBounds(tps: int, diff: int, ticks: int)
    requires ticks > 0
    requires tps * (TPS_REFRESH_MS * ticks) <= diff * 1000 < tps * (TPS_REFRESH_MS * ticks) + TPS_REFRESH_MS * ticks
    ensures tps * TPS_REFRESH_MS * ticks <= diff * 1000 < (tps + 1) * TPS_REFRESH_MS * ticks
  {
    assert tps * (TPS_REFRESH_MS * ticks) == tps * TPS_REFRESH_MS * ticks;
    assert (tps + 1) * TPS_REFRESH_MS * ticks == tps * TPS_REFRESH_MS * ticks + TPS_REFRESH_MS * ticks;
  }

  /**
   * The published rate is the whole part of the confirmations per second
   * over the window: the one integer q with q <= rate < q + 1.
   */
  lemma PublishedRateIsWholePart(s: Sampler, confirmedCount: int, q: int)
    requires |OnTick(s, confirmedCount).recentCounts| >= 2
    ensures var r := OnTick(s, confirmedCount);
      var ticks := |r.recentCounts| - 1;
      var diff := confirmedCount - r.recentCounts[0];
      q == r.tps <==> q * TPS_REFRESH_MS * ticks <= diff * 1000 < (q + 1) * TPS_REFRESH_MS * ticks
  {
    var r := OnTick(s, confirmedCount);
    WholePartUnique(q, r.tps, confirmedCount - r.recentCounts[0], |r.recentCounts| - 1);
  }

  /** The whole part of diff per second over `ticks` refreshes is unique. */
  lemma WholePartUnique(q: int, p: int, diff: int, ticks: int)
    requires ticks > 0
    requires p * TPS_REFRESH_MS * ticks <= diff * 1000 < (p + 1) * TPS_REFRESH_MS * ticks
    ensures q == p <==> q * TPS_REFRESH_MS * ticks <= diff * 1000 < (q + 1) * TPS_REFRESH_MS * ticks
  {
    var t := TPS_REFRESH_MS * ticks;
    assert p * TPS_REFRESH_MS * ticks == p * t;
    assert (p + 1) * TPS_REFRESH_MS * ticks == p * t + t;
    assert q * TPS_REFRESH_MS * ticks == q * t;
    assert (q + 1) * TPS_REFRESH_MS * ticks == q * t + t;
    if q * t <= diff * 1000 < q * t + t {
      SameWholePart(q, p, diff * 1000, t);
    }
  }

  /** Two integers whose multiples of a positive t both bracket d are equal. */
  lemma SameWholePart(p: int, q: int, d: int, t: int)
    requires t > 0 && p * t <= d < p * t + t && q * t <= d < q * t + t
    ensures p == q
  {
    assert (p - q) * t == p * t - q * t;
    IntMath.MulBoundsFactor(p - q, t);
  }

  /** A sequence of refreshes with the confirmed counts `xs`. */
  function RunTicks(s: Sampler, xs: seq<int>): Sampler
    decreases |xs|
  {
    if |xs| == 0 then s else RunTicks(OnTick(s, xs[0]), xs[1..])
  }

  /**
   * After the interval starts, the history is always the last five counts
   * the sampler saw, oldest first.
   */
  lemma {:induction false} RunKeepsLatest(s: Sampler, xs: seq<int>)
    requires |s.recentCounts| <= TPS_LOOK_BACK + 1
    ensures RunTicks(s, xs).recentCounts == Window.Feed(s.recentCounts, xs, TPS_LOOK_BACK + 1)
    decreases |xs|
  {
    if |xs| > 0 {
      RunKeepsLatest(OnTick(s, xs[0]), xs[1..]);
    }
  }

  lemma HistoryAfterStart(s: Sampler, xs: seq<int>)
    ensures RunTicks(Start(s), xs).recentCounts == Window.LastN(xs, TPS_LOOK_BACK + 1)
  {
    RunKeepsLatest(Start(s), xs);
    Window.FeedKeepsLatest([], xs, TPS_LOOK_BACK + 1);
    assert [] + xs == xs;
  }

  /** While the confirmed count never falls, the published rate is never negative. */
  lemma TpsNonNegative(s: Sampler, confirmedCount: int)
    requires s.tps >= 0
    requires Nondecreasing(s.recentCounts + [confirmedCount])
    ensures OnTick(s, confirmedCount).tps >= 0
  {
    var r := OnTick(s, confirmedCount);
    var all := s.recentCounts + [confirmedCount];
    if |r.recentCounts| >= 2 {
      assert r.recentCounts[0] <= confirmedCount by {
        var k := |all| - |r.recentCounts|;
        assert r.recentCounts == all[k..];
        assert r.recentCounts[0] == all[k] <= all[|all| - 1];
      }
    }
  }

  /**
   * A confirmation that the program account no longer reports moves the
   * confirmed count down, and the published rate goes negative.
   */
  lemma RevertedConfirmationGoesNegative()
    ensures OnTick(Sampler([5], 0), 3).tps == -8
  {
    assert Window.LastN([5, 3], TPS_LOOK_BACK + 1) == [5, 3];
  }

  /** The first refresh after a start publishes nothing. */
  lemma FirstTickPublishesNothing(s: Sampler, c: int)
    ensures OnTick(Start(s), c).tps == s.tps
  {
  }
}

=== FILE: tpu_proxy.dfy ===
/**
 * The server's forwarding of transactions to the leaders' TPU ports: the
 * choice of TPU addresses from the leader schedule, the dropping of sockets
 * that fail, and the guards on sending.
 */
module TpuProxy {
  import opened Wrappers
  import BitFlip
  import opened LeaderSchedule

  /**
   * The cluster's gossip view: the TPU address of each known node, and the
   * leaders already reported as having none.
   */
  datatype Nodes = Nodes(nodes: map<string, string>, delinquents: set<string>)

  /** Whether the node lookup yields a usable (non-empty) TPU address. */
  predicate HasTpu(n: Nodes, leader: string) {
    leader in n.nodes && n.nodes[leader] != ""
  }

  /** The leaders the schedule names for slots `start`, …, `start + count - 1`, in slot order. */
  function ScheduledLeaders(s: Schedule, start: int, count: nat): seq<string>
    decreases count
  {
    if count == 0 then []
    else
      var prev := ScheduledLeaders(s, start, count - 1);
      match GetSlotLeader(s, start + count - 1)
      case Some(l) => prev + [l]
      case None => prev
  }

  predicate Distinct(s: seq<string>) {
    forall i, j :: 0 <= i < j < |s| ==> s[i] != s[j]
  }

  /** The distinct elements of `xs` in order of first appearance. */
  function Dedup(xs: seq<string>): seq<string>
    decreases |xs|
  {
    if |xs| == 0 then []
    else
      var d := Dedup(xs[..|xs| - 1]);
      var x := xs[|xs| - 1];
      if x in d then d else d + [x]
  }

  /** The deduplicated list holds exactly the elements of `xs`, each once, and is no longer. */
  lemma {:induction false} DedupKeepsEachOnce(xs: seq<string>)
    ensures forall x :: x in Dedup(xs) <==> x in xs
    ensures Distinct(Dedup(xs))
    ensures |Dedup(xs)| <= |xs|
    decreases |xs|
  {
    if |xs| > 0 {
      var prefix := xs[..|xs| - 1];
      var x := xs[|xs| - 1];
      DedupKeepsEachOnce(prefix);
      assert xs == prefix + [x];
      assert forall y :: y in xs <==> y in prefix || y == x;
    }
  }

  /** The TPU addresses of those leaders that have one, in the leaders' order. */
  function Tpus(n: Nodes, leaders: seq<string>): seq<string>
    decreases |leaders|
  {
    if |leaders| == 0 then []
    else
      var prev := Tpus(n, leaders[..|leaders| - 1]);
      var l := leaders[|leaders| - 1];
      if HasTpu(n, l) then prev + [n.nodes[l]] else prev
  }

  /** Every collected address is the TPU address of one of the leaders, at most one per leader. */
  lemma {:induction false} TpusFromLeaders(n: Nodes, leaders: seq<string>)
    ensures |Tpus(n, leaders)| <= |leaders|
    ensures forall a :: a in Tpus(n, leaders) ==> exists l :: l in leaders && HasTpu(n, l) && n.nodes[l] == a
    decreases |leaders|
  {
    if |leaders| > 0 {
      var prefix := leaders[..|leaders| - 1];
      var l := leaders[|leaders| - 1];
      TpusFromLeaders(n, prefix);
      forall a | a in Tpus(n, leaders)
        ensures exists l' :: l' in leaders && HasTpu(n, l') && n.nodes[l'] == a
      {
        if a in Tpus(n, prefix) {
          var l' :| l' in prefix && HasTpu(n, l') && n.nodes[l'] == a;
          assert l' in leaders;
        } else {
          assert l in leaders;
        }
      }
    }
  }

  /** The leaders of `xs` the node lookup has no TPU address for. */
  function Delinquent(n: Nodes, xs: seq<string>): set<string> {
    set l | l in xs && !HasTpu(n, l)
  }

  /** What scanning one more leader adds to the distinct leaders, their addresses and the delinquents. */
  lemma ScanOneLeader(n: Nodes, scanned: seq<string>, leader: string)
    ensures leader in scanned ==> Tpus(n, Dedup(scanned + [leader])) == Tpus(n, Dedup(scanned))
    ensures leader !in scanned ==>
      Tpus(n, Dedup(scanned + [leader])) == Tpus(n, Dedup(scanned)) + (if HasTpu(n, leader) then [n.nodes[leader]] else [])
  {
    var next := scanned + [leader];
    assert next[..|next| - 1] == scanned;
    DedupKeepsEachOnce(scanned);
    if leader !in scanned {
      var d := Dedup(next);
      assert d == Dedup(scanned) + [leader];
      assert d[..|d| - 1] == Dedup(scanned);
    }
  }

  /** The leaders of the slots `refreshAddresses` scans, from a few slots back to `upcoming` ahead. */
  function ScanWindow(s: Schedule, currentSlot: int, upcoming: nat): seq<string> {
    ScheduledLeaders(s, currentSlot - PAST_SLOT_SEARCH, PAST_SLOT_SEARCH + upcoming)
  }

  /**
   * What `refreshAddresses` holds after scanning the leaders `scanned`: the
   * leaders seen, the addresses of the distinct ones, and the delinquents
   * added to those already known (`known`).
   */
  ghost predicate ScanState(n: Nodes, known: set<string>, scanned: seq<string>,
                            seen: set<string>, tpus: seq<string>, delinquents: set<string>)
  {
    && (forall l :: l in seen <==> l in scanned)
    && tpus == Tpus(n, Dedup(scanned))
    && (forall l :: l in delinquents <==> l in known || (l in scanned && !HasTpu(n, l)))
  }

  /** One more slot of the scan adds its leader, if the schedule names one. */
  lemma ScheduledLeadersNext(s: Schedule, start: int, count: nat)
    ensures GetSlotLeader(s, start + count).Some? ==>
      ScheduledLeaders(s, start, count + 1) == ScheduledLeaders(s, start, count) + [GetSlotLeader(s, start + count).value]
    ensures GetSlotLeader(s, start + count).None? ==>
      ScheduledLeaders(s, start, count + 1) == ScheduledLeaders(s, start, count)
  {
  }

  /** A leader already seen changes nothing. */
  lemma ScanSeenLeader(n: Nodes, known: set<string>, scanned: seq<string>, leader: string,
                       seen: set<string>, tpus: seq<string>, delinquents: set<string>)
    requires ScanState(n, known, scanned, seen, tpus, delinquents)
    requires leader in seen
    ensures ScanState(n, known, scanned + [leader], seen, tpus, delinquents)
  {
    ScanOneLeader(n, scanned, leader);
    assert forall l :: l in scanned + [leader] <==> l in scanned || l == leader;
  }

  /** A new leader with a TPU address contributes that address. */
  lemma ScanLeaderWithTpu(n: Nodes, known: set<string>, scanned: seq<string>, leader: string,
                          seen: set<string>, tpus: seq<string>, delinquents: set<string>)
    requires ScanState(n, known, scanned, seen, tpus, delinquents)
    requires leader !in seen && HasTpu(n, leader)
    ensures ScanState(n, known, scanned + [leader], seen + {leader}, tpus + [n.nodes[leader]], delinquents)
  {
    ScanOneLeader(n, scanned, leader);
    assert forall l :: l in scanned + [leader] <==> l in scanned || l == leader;
  }

  /** A new leader without a TPU address joins the delinquents, if not among them already. */
  lemma ScanLeaderWithoutTpu(n: Nodes, known: set<string>, scanned: seq<string>, leader: string,
                             seen: set<string>, tpus: seq<string>, delinquents: set<string>)
    requires ScanState(n, known, scanned, seen, tpus, delinquents)
    requires leader !in seen && !HasTpu(n, leader)
    ensures ScanState(n, known, scanned + [leader], seen + {leader}, tpus,
                      if leader in delinquents then delinquents else delinquents + {leader})
  {
    ScanOneLeader(n, scanned, leader);
    var next := scanned + [leader];
    assert forall l :: l in next <==> l in scanned || l == leader;
    assert Tpus(n, Dedup(next)) == tpus by {
      assert Tpus(n, Dedup(scanned)) + [] == Tpus(n, Dedup(scanned));
    }
    assert forall l :: l in seen + {leader} <==> l in next;
    var dels := if leader in delinquents then delinquents else delinquents + {leader};
    assert forall l :: l in dels <==> l in known || (l in next && !HasTpu(n, l));
  }

  /**
   * `refreshAddresses`: each scheduled leader of the scanned slots, taken
   * once in order of first appearance, contributes its TPU address if the
   * node lookup has one; a leader without one is recorded as delinquent.
   */
  method RefreshAddresses(s: Schedule, n: Nodes, currentSlot: int, upcoming: nat)
    returns (tpuAddresses: seq<string>, delinquents: set<string>)
    ensures tpuAddresses == Tpus(n, Dedup(ScanWindow(s, currentSlot, upcoming)))
    ensures delinquents == n.delinquents + Delinquent(n, ScanWindow(s, currentSlot, upcoming))
  {
    var startSlot := currentSlot - PAST_SLOT_SEARCH;
    var endSlot := currentSlot + upcoming;
    tpuAddresses := [];
    delinquents := n.delinquents;
    var seen: set<string> := {};
    var leaderSlot := startSlot;
    while leaderSlot < endSlot
      invariant startSlot <= leaderSlot <= endSlot
      invariant ScanState(n, n.delinquents, ScheduledLeaders(s, startSlot, leaderSlot - startSlot),
                          seen, tpuAddresses, delinquents)
      decreases endSlot - leaderSlot
    {
      ghost var scanned := ScheduledLeaders(s, startSlot, leaderSlot - startSlot);
      ghost var next := ScheduledLeaders(s, startSlot, leaderSlot - startSlot + 1);
      var leader := GetSlotLeader(s, leaderSlot);
      ScheduledLeadersNext(s, startSlot, leaderSlot - startSlot);
      if leader.Some? {
        var leader := leader.value;
        assert next == scanned + [leader];
        if leader !in seen {
          if HasTpu(n, leader) {
            ScanLeaderWithTpu(n, n.delinquents, scanned, leader, seen, tpuAddresses, delinquents);
            tpuAddresses := tpuAddresses + [n.nodes[leader]];
          } else {
            ScanLeaderWithoutTpu(n, n.delinquents, scanned, leader, seen, tpuAddresses, delinquents);
            if leader !in delinquents {
              delinquents := delinquents + {leader};
            }
          }
          seen := seen + {leader};
        } else {
          ScanSeenLeader(n, n.delinquents, scanned, leader, seen, tpuAddresses, delinquents);
        }
      }
      assert ScanState(n, n.delinquents, next, seen, tpuAddresses, delinquents);
      leaderSlot := leaderSlot + 1;
    }
    assert ScheduledLeaders(s, startSlot, leaderSlot - startSlot) == ScanWindow(s, currentSlot, upcoming);
    ScanDelinquents(n, ScanWindow(s, currentSlot, upcoming), seen, tpuAddresses, delinquents);
  }

  /** The delinquents a finished scan holds, as one set. */
  lemma ScanDelinquents(n: Nodes, scanned: seq<string>, seen: set<string>, tpus: seq<string>, delinquents: set<string>)
    requires ScanState(n, n.delinquents, scanned, seen, tpus, delinquents)
    ensures delinquents == n.delinquents + Delinquent(n, scanned)
  {
  }

  /**
   * No leader contributes twice: the addresses come from a list of distinct
   * leaders, one address at most per leader.
   */
  lemma EachLeaderOnce(s: Schedule, n: Nodes, currentSlot: int, upcoming: nat)
    ensures Distinct(Dedup(ScanWindow(s, currentSlot, upcoming)))
    ensures |Tpus(n, Dedup(ScanWindow(s, currentSlot, upcoming)))| <= |Dedup(ScanWindow(s, currentSlot, upcoming))|
  {
    DedupKeepsEachOnce(ScanWindow(s, currentSlot, upcoming));
    TpusFromLeaders(n, Dedup(ScanWindow(s, currentSlot, upcoming)));
  }

  /** A UDP socket, by identity. */
  type Socket = nat

  datatype Proxy = Proxy(tpuAddresses: seq<string>, sockets: map<string, Socket>, socketPool: seq<Socket>)

  /** `connected`: at least one TPU socket is open. */
  predicate Connected(p: Proxy) {
    |p.sockets| > 0
  }

  /**
   * `onTpuResult`: a failed send through an address closes that address's
   * socket and returns it to the pool; a success changes nothing.
   */
  function OnTpuResult(p: Proxy, address: string, failed: bool): (r: Proxy)
    ensures !failed || address !in p.sockets ==> r == p
    ensures failed ==> address !in r.sockets
    ensures r.tpuAddresses == p.tpuAddresses
    ensures r.sockets.Keys == p.sockets.Keys - (if failed then {address} else {})
    ensures forall a :: a in r.sockets ==> r.sockets[a] == p.sockets[a]
    ensures failed && address in p.sockets ==> r.socketPool == p.socketPool + [p.sockets[address]]
  {
    if failed && address in p.sockets then
      p.(sockets := p.sockets - {address}, socketPool := p.socketPool + [p.sockets[address]])
    else p
  }

  /** A failure moves a socket to the pool; no socket is lost or made up, counting both places. */
  lemma OnTpuResultKeepsSocketCount(p: Proxy, address: string, failed: bool)
    ensures |OnTpuResult(p, address, failed).sockets| + |OnTpuResult(p, address, failed).socketPool|
      == |p.sockets| + |p.socketPool|
  {
    if failed && address in p.sockets {
      var r := OnTpuResult(p, address, failed);
      assert r.sockets.Keys == p.sockets.Keys - {address};
      assert |r.sockets.Keys| == |p.sockets.Keys| - 1;
    }
  }

  /** Reporting the same failure twice has the effect of reporting it once. */
  lemma OnTpuResultIdempotent(p: Proxy, address: string, failed: bool)
    ensures OnTpuResult(OnTpuResult(p, address, failed), address, failed) == OnTpuResult(p, address, failed)
  {
  }

  /** The failure message sent back to the browser when the RPC rejects a transaction. */
  datatype FailureReport = FailureReport(signature: seq<BitFlip.Byte>, reason: string)

  datatype SendOutcome =
    | ConnectFirst
    | SentOverRpc(failure: Option<FailureReport>)
    | SentToTpus(addresses: set<string>)

  /**
   * The guard branches of `sendRawTransaction`, with the RPC's rejection (if
   * any) as input. Nothing is sent while no socket is open. A rejection is
   * reported only for a payload long enough to hold the signature-count byte
   * and a 64-byte signature, which is the reported signature.
   */
  function SendRawTransaction(p: Proxy, raw: seq<BitFlip.Byte>, useRpc: bool, rpcError: Option<string>): (o: SendOutcome)
    ensures o.ConnectFirst? <==> !Connected(p)
    ensures o.SentOverRpc? <==> Connected(p) && useRpc
    ensures o.SentToTpus? ==> o.addresses == p.sockets.Keys
    ensures o.SentOverRpc? ==> (o.failure.Some? <==> rpcError.Some? && |raw| >= 65)
    ensures o.SentOverRpc? && o.failure.Some? ==>
      |o.failure.value.signature| == 64 && raw == raw[..1] + o.failure.value.signature + raw[65..]
      && o.failure.value.reason == rpcError.value
  {
    if !Connected(p) then ConnectFirst
    else if useRpc then
      match rpcError
      case Some(reason) =>
        if |raw| < 65 then SentOverRpc(None)
        else
          assert raw == raw[..1] + raw[1..65] + raw[65..];
          SentOverRpc(Some(FailureReport(raw[1..65], reason)))
      case None => SentOverRpc(None)
    else SentToTpus(p.sockets.Keys)
  }
}

=== FILE: tx_reducer.dfy ===
/**
 * The Redux transaction reducer of the React client: the list of sent
 * transactions and the completion counters shown on the game page.
 */
module TxReducer {

  datatype Status = Sent | Success | Timeout | Failed(msg: string)

  datatype Info = Info(accountId: string, signature: string, confirmationTime: real, userSent: bool)

  datatype Transaction = Transaction(status: Status, info: Info)

  datatype ModelState = ModelState(
    transactions: seq<Transaction>,
    allCompletedCount: int,
    userCompletedCount: int,
    transactionsPerSecond: real)

  datatype Action =
    | AddTransaction(accountId: string, signature: string)
    | UpdateTransaction(status: Status, info: Info)
    | ResetTransactions
    | SetTps(tps: real)
    | UnknownAction

  const InitState := ModelState([], 0, 0, 0.0)

  /** The entry a freshly sent transaction gets: not yet confirmed and not sent by the user. */
  function NewTransaction(accountId: string, signature: string): Transaction {
    Transaction(Sent, Info(accountId, signature, 0.0, false))
  }

  /** Every entry of the same account takes the reported status and info; the others stay. */
  function Updated(txs: seq<Transaction>, status: Status, info: Info): (r: seq<Transaction>)
    ensures |r| == |txs|
    ensures forall i :: 0 <= i < |r| && txs[i].info.accountId == info.accountId ==> r[i] == Transaction(status, info)
    ensures forall i :: 0 <= i < |r| && txs[i].info.accountId != info.accountId ==> r[i] == txs[i]
  {
    seq(|txs|, i requires 0 <= i < |txs| =>
      if txs[i].info.accountId == info.accountId then Transaction(status, info) else txs[i])
  }

  /**
   * `transactionReducer`. A success report counts as completed whether or
   * not an entry matched; it counts for the user only when the user sent it.
   */
  function Reduce(s: ModelState, a: Action): (r: ModelState)
    ensures a.AddTransaction? ==>
      r == s.(transactions := s.transactions + [NewTransaction(a.accountId, a.signature)])
    ensures a.UpdateTransaction? ==>
      && r.transactions == Updated(s.transactions, a.status, a.info)
      && r.allCompletedCount == s.allCompletedCount + (if a.status == Success then 1 else 0)
      && r.userCompletedCount == s.userCompletedCount + (if a.status == Success && a.info.userSent then 1 else 0)
      && r.transactionsPerSecond == s.transactionsPerSecond
    ensures a.ResetTransactions? ==> r == InitState
    ensures a.SetTps? ==> r == s.(transactionsPerSecond := a.tps)
    ensures a.UnknownAction? ==> r == s
  {
    match a
    case AddTransaction(accountId, signature) =>
      s.(transactions := s.transactions + [NewTransaction(accountId, signature)])
    case UpdateTransaction(status, info) =>
      var all := if status == Success then s.allCompletedCount + 1 else s.allCompletedCount;
      var user := if status == Success && info.userSent then s.userCompletedCount + 1 else s.userCompletedCount;
      s.(transactions := Updated(s.transactions, status, info), allCompletedCount := all, userCompletedCount := user)
    case ResetTransactions =>
      s.(transactions := [], allCompletedCount := 0, userCompletedCount := 0, transactionsPerSecond := 0.0)
    case SetTps(tps) => s.(transactionsPerSecond := tps)
    case UnknownAction => s
  }

  /** The store after dispatching `actions` in order. */
  function Run(s: ModelState, actions: seq<Action>): ModelState
    decreases |actions|
  {
    if |actions| == 0 then s else Reduce(Run(s, actions[..|actions| - 1]), actions[|actions| - 1])
  }

  /**
   * The success reports dispatched since the last reset: all of them, or
   * only those for transactions the user sent.
   */
  function SuccessReports(actions: seq<Action>, userOnly: bool): (n: nat)
    ensures n <= |actions|
    decreases |actions|
  {
    if |actions| == 0 then 0
    else
      var a := actions[|actions| - 1];
      if a.ResetTransactions? then 0
      else
        SuccessReports(actions[..|actions| - 1], userOnly)
        + (if a.UpdateTransaction? && a.status == Success && (!userOnly || a.info.userSent) then 1 else 0)
  }

  /** The two counters count exactly the success reports since the last reset. */
  lemma {:induction false} CountersCountSuccessReports(actions: seq<Action>)
    ensures Run(InitState, actions).allCompletedCount == SuccessReports(actions, false)
    ensures Run(InitState, actions).userCompletedCount == SuccessReports(actions, true)
    decreases |actions|
  {
    if |actions| > 0 {
      CountersCountSuccessReports(actions[..|actions| - 1]);
    }
  }

  lemma {:induction false} UserReportsAreReports(actions: seq<Action>)
    ensures SuccessReports(actions, true) <= SuccessReports(actions, false)
    decreases |actions|
  {
    if |actions| > 0 {
      UserReportsAreReports(actions[..|actions| - 1]);
    }
  }

  /** Every reachable store has counted no more user completions than completions. */
  lemma UserCompletedAtMostAll(actions: seq<Action>)
    ensures 0 <= Run(InitState, actions).userCompletedCount <= Run(InitState, actions).allCompletedCount
  {
    CountersCountSuccessReports(actions);
    UserReportsAreReports(actions);
  }

  /** Reporting the same outcome again leaves the list as the first report left it. */
  lemma UpdateIdempotent(s: ModelState, status: Status, info: Info)
    ensures var once := Reduce(s, UpdateTransaction(status, info));
      Reduce(once, UpdateTransaction(status, info)).transactions == once.transactions
  {
    var once := Updated(s.transactions, status, info);
    var twice := Updated(once, status, info);
    forall i | 0 <= i < |twice|
      ensures twice[i] == once[i]
    {
      if s.transactions[i].info.accountId == info.accountId {
        assert once[i].info.accountId == info.accountId;
      }
    }
  }

  /** A sent transaction whose outcome is then reported shows that outcome in the last entry. */
  lemma AddThenUpdate(s: ModelState, signature: string, status: Status, info: Info)
    ensures var r := Reduce(Reduce(s, AddTransaction(info.accountId, signature)), UpdateTransaction(status, info));
      |r.transactions| == |s.transactions| + 1 && r.transactions[|s.transactions|] == Transaction(status, info)
  {
  }
}

=== FILE: tx_status.dfy ===
/**
 * The client's transaction-status store: one entry per transaction the
 * client created, indexed by tracking id, moved between pending, success and
 * timeout by the reducer's five actions. Timers that the reducer clears are
 * side effects and are not part of the state.
 */
module TxStatus {
  import opened Wrappers
  import IntMath

  /** What the client remembers about an unconfirmed send: when it went out. */
  datatype PendingTransaction = PendingTransaction(sentAt: real)

  /**
   * A success keeps its pending data (the source's optional `pending`) until
   * its slot is rooted; until then a later report can revert it to pending.
   */
  datatype TransactionState =
    | PendingTx(signature: string, pending: PendingTransaction)
    | Success(signature: string, slot: int, confirmationTime: real, pendingUntilRoot: Option<PendingTransaction>)
    | Timeout(signature: string)

  datatype Status = PendingStatus | SuccessStatus | TimeoutStatus

  function StatusOf(tx: TransactionState): Status {
    match tx
    case PendingTx(_, _) => PendingStatus
    case Success(_, _, _, _) => SuccessStatus
    case Timeout(_) => TimeoutStatus
  }

  /**
   * The reducer's actions. `UpdateIds` carries the clock reading the source
   * takes inside the reducer (`performance.now()`).
   */
  datatype Action =
    | NewTransaction(trackingId: int, signature: string, pendingTransaction: PendingTransaction)
    | UpdateIds(ids: set<int>, partition: int, partitionCount: int, slot: int, now: real)
    | TimeoutTransaction(trackingId: int)
    | ResetState
    | RecordRoot(root: int)

  /** A negative tracking id reads an undefined entry, and reading its status throws. */
  datatype ReducerError = UndefinedEntry

  type State = seq<TransactionState>

  /** Seconds between sending and now (the source also rounds to milliseconds). */
  function ConfirmationTime(sentAt: real, now: real): real {
    (now - sentAt) / 1000.0
  }

  /** Entries that confirmation updates can no longer move: timeouts and finalized successes. */
  predicate Final(tx: TransactionState) {
    tx.Timeout? || (tx.Success? && tx.pendingUntilRoot.None?)
  }

  // ---------------------------------------------------------------- actions

  /** Appends one pending entry; everything before it is left alone. */
  function AddTransaction(state: State, signature: string, p: PendingTransaction): (r: State)
    ensures |r| == |state| + 1 && r[..|state|] == state
    ensures r[|state|] == PendingTx(signature, p)
  {
    state + [PendingTx(signature, p)]
  }

  /**
   * Times out the pending entry at `trackingId`, together with every entry
   * carrying its signature; out-of-range ids and non-pending entries leave
   * the state as it is.
   */
  function TimeoutTx(state: State, trackingId: nat): (r: State)
    ensures |r| == |state|
    ensures trackingId >= |state| || !state[trackingId].PendingTx? ==> r == state
    ensures trackingId < |state| && state[trackingId].PendingTx? ==>
      forall i :: 0 <= i < |state| ==>
        if state[i].signature == state[trackingId].signature then r[i] == Timeout(state[i].signature)
        else r[i] == state[i]
  {
    if trackingId >= |state| then state
    else
      var timeout := state[trackingId];
      if !timeout.PendingTx? then state
      else
        seq(|state|, i requires 0 <= i < |state| =>
          if state[i].signature == timeout.signature then Timeout(state[i].signature) else state[i])
  }

  /** The confirmation update for the entry at `trackingId`. */
  function UpdateTx(tx: TransactionState, trackingId: nat, ids: set<int>, partition: int, partitionCount: int,
                    slot: int, now: real): (r: TransactionState)
    ensures r.signature == tx.signature
    ensures Final(tx) ==> r == tx
    ensures r != tx ==> InPartition(trackingId, partition, partitionCount)
  {
    // `trackingId % 0` is NaN, which equals no partition.
    if partitionCount == 0 || IntMath.TruncRem(trackingId, partitionCount) != partition then tx
    else
      var id := IntMath.FloorDiv(trackingId, partitionCount);
      match tx
      case PendingTx(sig, p) =>
        if id in ids then Success(sig, slot, ConfirmationTime(p.sentAt, now), Some(p)) else tx
      case Success(sig, _, _, Some(p)) =>
        if id !in ids then PendingTx(sig, p) else tx
      case _ => tx
  }

  predicate InPartition(trackingId: nat, partition: int, partitionCount: int) {
    partitionCount != 0 && IntMath.TruncRem(trackingId, partitionCount) == partition
  }

  /** The in-partition id of a tracking id: `Math.floor(trackingId / partitionCount)`. */
  function PartitionId(trackingId: nat, partitionCount: int): int
    requires partitionCount != 0
  {
    IntMath.FloorDiv(trackingId, partitionCount)
  }

  /**
   * Confirms the pending entries of one partition whose ids the program
   * account reports, and reverts unrooted successes whose ids it no longer
   * reports. The length and every signature are kept.
   */
  function UpdateIdsTx(state: State, ids: set<int>, partition: int, partitionCount: int, slot: int, now: real): (r: State)
    ensures |r| == |state|
    ensures forall i :: 0 <= i < |state| ==> r[i].signature == state[i].signature
    ensures forall i :: 0 <= i < |state| && !InPartition(i, partition, partitionCount) ==> r[i] == state[i]
    ensures forall i :: 0 <= i < |state| && Final(state[i]) ==> r[i] == state[i]
    ensures forall i :: 0 <= i < |state| && InPartition(i, partition, partitionCount) && state[i].PendingTx? ==>
      (PartitionId(i, partitionCount) in ids ==>
         r[i] == Success(state[i].signature, slot, ConfirmationTime(state[i].pending.sentAt, now), Some(state[i].pending))) &&
      (PartitionId(i, partitionCount) !in ids ==> r[i] == state[i])
    ensures forall i :: (0 <= i < |state| && InPartition(i, partition, partitionCount) &&
                         state[i].Success? && state[i].pendingUntilRoot.Some?) ==>
      (PartitionId(i, partitionCount) in ids <==> r[i] == state[i]) &&
      (r[i] != state[i] ==> r[i] == PendingTx(state[i].signature, state[i].pendingUntilRoot.value))
  {
    seq(|state|, i requires 0 <= i < |state| => UpdateTx(state[i], i, ids, partition, partitionCount, slot, now))
  }

  /** Whether some success was recorded at `root`. */
  predicate HasSuccessAt(state: State, root: int) {
    exists i :: 0 <= i < |state| && state[i].Success? && state[i].slot == root
  }

  /**
   * Once a slot is rooted, the successes at that slot drop their pending
   * data (they are final); nothing happens when no success sits at it.
   */
  function RecordRootTx(state: State, root: int): (r: State)
    ensures |r| == |state|
    ensures !HasSuccessAt(state, root) ==> r == state
    ensures forall i :: 0 <= i < |state| ==>
      if state[i].Success? && state[i].slot == root then r[i] == state[i].(pendingUntilRoot := None)
      else r[i] == state[i]
  {
    if !HasSuccessAt(state, root) then state
    else
      seq(|state|, i requires 0 <= i < |state| =>
        var tx := state[i];
        if tx.Success? && tx.pendingUntilRoot.Some? && tx.slot == root then tx.(pendingUntilRoot := None) else tx)
  }

  /** The reducer; only a timeout for a negative tracking id fails. */
  function Reduce(state: State, action: Action): (r: Result<State, ReducerError>)
    ensures r.Err? <==> action.TimeoutTransaction? && action.trackingId < 0
    ensures action.ResetState? ==> r == Ok([])
    ensures r.Ok? && !action.ResetState? ==>
      |r.value| >= |state| && forall i :: 0 <= i < |state| ==> r.value[i].signature == state[i].signature
  {
    match action
    case NewTransaction(_, signature, p) => Ok(AddTransaction(state, signature, p))
    case TimeoutTransaction(trackingId) =>
      if trackingId < 0 then Err(UndefinedEntry) else Ok(TimeoutTx(state, trackingId))
    case UpdateIds(ids, partition, partitionCount, slot, now) =>
      Ok(UpdateIdsTx(state, ids, partition, partitionCount, slot, now))
    case ResetState => Ok([])
    case RecordRoot(root) => Ok(RecordRootTx(state, root))
  }

  // ---------------------------------------------------------------- counts

  /** How many entries have status `st`. */
  function CountStatus(state: State, st: Status): (n: nat)
    ensures n <= |state|
  {
    if |state| == 0 then 0
    else CountStatus(state[..|state| - 1], st) + (if StatusOf(state[|state| - 1]) == st then 1 else 0)
  }

  /** `useConfirmedCount`, `useDroppedCount`, `useCreatedCount`. */
  function ConfirmedCount(state: State): nat { CountStatus(state, SuccessStatus) }
  function DroppedCount(state: State): nat { CountStatus(state, TimeoutStatus) }
  function CreatedCount(state: State): nat { |state| }

  /** Every created transaction is pending, confirmed or dropped, and only one of these. */
  lemma {:induction false} CountsPartition(state: State)
    ensures CountStatus(state, PendingStatus) + ConfirmedCount(state) + DroppedCount(state) == CreatedCount(state)
  {
    if |state| > 0 {
      CountsPartition(state[..|state| - 1]);
    }
  }

  lemma ConfirmedPlusDroppedAtMostCreated(state: State)
    ensures ConfirmedCount(state) + DroppedCount(state) <= CreatedCount(state)
  {
    CountsPartition(state);
  }

  /** If every `st` entry of `a` is an `st` entry of `b`, `b` has at least as many. */
  lemma {:induction false} CountMonotone(a: State, b: State, st: Status)
    requires |a| == |b|
    requires forall i :: 0 <= i < |a| && StatusOf(a[i]) == st ==> StatusOf(b[i]) == st
    ensures CountStatus(a, st) <= CountStatus(b, st)
  {
    if |a| > 0 {
      var n := |a| - 1;
      CountMonotone(a[..n], b[..n], st);
    }
  }

  /** Counting the entries after appending one. */
  lemma CountAppend(state: State, tx: TransactionState, st: Status)
    ensures CountStatus(state + [tx], st) == CountStatus(state, st) + (if StatusOf(tx) == st then 1 else 0)
  {
    assert (state + [tx])[..|state|] == state;
  }

  /** A new transaction counts as created and pending, and moves no other count. */
  lemma NewTransactionCounts(state: State, signature: string, p: PendingTransaction)
    ensures var r := AddTransaction(state, signature, p);
      CreatedCount(r) == CreatedCount(state) + 1 &&
      ConfirmedCount(r) == ConfirmedCount(state) && DroppedCount(r) == DroppedCount(state)
  {
    CountAppend(state, PendingTx(signature, p), SuccessStatus);
    CountAppend(state, PendingTx(signature, p), TimeoutStatus);
  }

  /** A timeout never lowers the dropped count, and raises it when it applies. */
  lemma TimeoutRaisesDropped(state: State, trackingId: nat)
    ensures DroppedCount(TimeoutTx(state, trackingId)) >= DroppedCount(state)
    ensures trackingId < |state| && state[trackingId].PendingTx? ==>
      DroppedCount(TimeoutTx(state, trackingId)) > DroppedCount(state)
  {
    var r := TimeoutTx(state, trackingId);
    CountMonotone(state, r, TimeoutStatus);
    if trackingId < |state| && state[trackingId].PendingTx? {
      var lowered := state[trackingId := r[trackingId]];
      CountMonotone(lowered, r, TimeoutStatus);
      CountRaise(state, trackingId, r[trackingId], TimeoutStatus);
    }
  }

  /** Turning one non-`st` entry into an `st` entry raises the count by one. */
  lemma {:induction false} CountRaise(state: State, k: int, tx: TransactionState, st: Status)
    requires 0 <= k < |state| && StatusOf(state[k]) != st && StatusOf(tx) == st
    ensures CountStatus(state[k := tx], st) == CountStatus(state, st) + 1
  {
    var n := |state| - 1;
    if k < n {
      CountRaise(state[..n], k, tx, st);
      assert state[k := tx][..n] == state[..n][k := tx];
    } else {
      assert state[k := tx][..n] == state[..n];
    }
  }

  /** Confirmation updates never drop a transaction and never revive a dropped one. */
  lemma UpdateIdsKeepsDropped(state: State, ids: set<int>, partition: int, partitionCount: int, slot: int, now: real)
    ensures DroppedCount(UpdateIdsTx(state, ids, partition, partitionCount, slot, now)) == DroppedCount(state)
  {
    var r := UpdateIdsTx(state, ids, partition, partitionCount, slot, now);
    CountMonotone(state, r, TimeoutStatus);
    CountMonotone(r, state, TimeoutStatus);
  }

  // ---------------------------------------------------------------- laws

  /** Timing out the same id twice is the same as once. */
  lemma TimeoutIdempotent(state: State, trackingId: nat)
    ensures TimeoutTx(TimeoutTx(state, trackingId), trackingId) == TimeoutTx(state, trackingId)
  {
  }

  /** Replaying the same confirmation report changes nothing further. */
  lemma UpdateIdsIdempotent(state: State, ids: set<int>, partition: int, partitionCount: int, slot: int, now: real)
    ensures var once := UpdateIdsTx(state, ids, partition, partitionCount, slot, now);
      UpdateIdsTx(once, ids, partition, partitionCount, slot, now) == once
  {
    var once := UpdateIdsTx(state, ids, partition, partitionCount, slot, now);
    var twice := UpdateIdsTx(once, ids, partition, partitionCount, slot, now);
    forall i | 0 <= i < |state|
      ensures twice[i] == once[i]
    {
    }
  }

  /** Recording the same root twice is the same as once. */
  lemma RecordRootIdempotent(state: State, root: int)
    ensures RecordRootTx(RecordRootTx(state, root), root) == RecordRootTx(state, root)
  {
    var once := RecordRootTx(state, root);
    if HasSuccessAt(state, root) {
      var k :| 0 <= k < |state| && state[k].Success? && state[k].slot == root;
      assert once[k].Success? && once[k].slot == root;
    }
  }

  /** After a root is recorded, no confirmation update touches the successes at that slot. */
  lemma RootedIsFinal(state: State, root: int, ids: set<int>, partition: int, partitionCount: int, slot: int, now: real)
    ensures var rooted := RecordRootTx(state, root);
      forall i :: 0 <= i < |state| && rooted[i].Success? && rooted[i].slot == root ==>
        UpdateIdsTx(rooted, ids, partition, partitionCount, slot, now)[i] == rooted[i]
  {
  }

  /** A timeout reaches every entry sharing the signature, so none of them stays pending. */
  lemma TimeoutClearsSignature(state: State, trackingId: nat)
    requires trackingId < |state| && state[trackingId].PendingTx?
    ensures forall i :: 0 <= i < |state| && state[i].signature == state[trackingId].signature ==>
      TimeoutTx(state, trackingId)[i].Timeout?
  {
  }

  // ---------------------------------------------------------------- id counter

  /**
   * A `PublicKey` object as React sees it: `handle` tells object instances
   * apart, `key` is the address it holds. Every fetch of the configuration
   * builds new key objects, so equal addresses can sit in different objects.
   */
  datatype KeyObject = KeyObject(handle: nat, key: string)

  /**
   * `useCreateTx`'s id counter: the effect dependency it last saw (the first
   * program data account) and the next id to hand out.
   */
  datatype IdCounter = IdCounter(account: Option<KeyObject>, next: nat)

  /**
   * The reset effect: React re-runs it when the dependency is not `Object.is`
   * the previous one, which for objects is identity and not address equality.
   */
  function OnProgramDataAccount(c: IdCounter, account: Option<KeyObject>): (r: IdCounter)
    ensures r.account == account
    ensures r.next == if account == c.account then c.next else 0
  {
    if account == c.account then c else IdCounter(account, 0)
  }

  /**
   * A refetch that rebuilds the same address in a new key object restarts the
   * counter; only the very same object keeps it.
   */
  lemma RefetchRestartsCounter(c: IdCounter, rebuilt: KeyObject)
    requires c.account.Some? && c.account.value.handle != rebuilt.handle
    ensures OnProgramDataAccount(c, Some(rebuilt)).next == 0
    ensures OnProgramDataAccount(c, c.account) == c
  {
  }

  /** One create request: hands out the next id while it is below the capacity. */
  function CreateTx(c: IdCounter, capacity: int): (r: (IdCounter, Option<nat>))
    ensures r.1.Some? <==> c.next < capacity
    ensures r.1.Some? ==> r.1.value == c.next && r.0.next == c.next + 1
    ensures r.1.None? ==> r.0 == c
    ensures r.0.account == c.account
  {
    if c.next < capacity then (c.(next := c.next + 1), Some(c.next)) else (c, None)
  }

  /** The ids handed out by `n` create requests in a row. */
  function CreateMany(c: IdCounter, capacity: int, n: nat): seq<nat>
    decreases n
  {
    if n == 0 then []
    else
      var (c', issued) := CreateTx(c, capacity);
      match issued
      case Some(id) => [id] + CreateMany(c', capacity, n - 1)
      case None => CreateMany(c', capacity, n - 1)
  }

  /**
   * Requests hand out consecutive ids from the counter's value and stop at
   * the capacity: never an id twice, never one at or beyond the capacity.
   */
  lemma {:induction false} CreateManyIssuesConsecutive(c: IdCounter, capacity: int, n: nat)
    ensures var k := if c.next >= capacity then 0 else if n < capacity - c.next then n else capacity - c.next;
      CreateMany(c, capacity, n) == seq(k, i requires 0 <= i < k => c.next + i)
    decreases n
  {
    if n > 0 {
      var (c', issued) := CreateTx(c, capacity);
      CreateManyIssuesConsecutive(c', capacity, n - 1);
    }
  }
}

=== FILE: window.dfy ===
/**
 * A bounded history: append the newest sample, then drop the oldest while the
 * history is longer than its capacity (`push` followed by a `shift` loop).
 */
module Window {

  /** The last `n` elements of `s` (all of `s` when it is shorter). */
  function LastN<T>(s: seq<T>, n: nat): (r: seq<T>)
    ensures |r| == if |s| <= n then |s| else n
  {
    if |s| <= n then s else s[|s| - n..]
  }

  /** Drops elements from the front while more than `cap` remain. */
  function Trim<T>(s: seq<T>, cap: nat): (r: seq<T>)
    ensures r == LastN(s, cap)
    decreases |s|
  {
    if |s| <= cap then s
    else
      var r := Trim(s[1..], cap);
      ShiftLastN(s, cap);
      r
  }

  /** Dropping the oldest element of an over-full history leaves its last `cap` unchanged. */
  lemma ShiftLastN<T>(s: seq<T>, cap: nat)
    requires |s| > cap
    ensures LastN(s[1..], cap) == LastN(s, cap)
  {
    var l := LastN(s[1..], cap);
    var r := LastN(s, cap);
    assert |l| == |r| == cap;
    forall i | 0 <= i < cap
      ensures l[i] == r[i]
    {
      assert l[i] == s[1..][|s| - 1 - cap + i];
    }
  }

  /** Appends `x` and trims the history back to `cap` entries. */
  function Push<T>(w: seq<T>, x: T, cap: nat): (r: seq<T>)
    ensures r == LastN(w + [x], cap)
  {
    Trim(w + [x], cap)
  }

  /** Pushes every sample of `xs` in order. */
  function Feed<T>(w: seq<T>, xs: seq<T>, cap: nat): seq<T>
    decreases |xs|
  {
    if |xs| == 0 then w else Feed(Push(w, xs[0], cap), xs[1..], cap)
  }

  lemma LastNOfLastN<T>(a: seq<T>, b: seq<T>, n: nat)
    ensures LastN(LastN(a, n) + b, n) == LastN(a + b, n)
  {
    if |a| > n {
      var k := |a| - n;
      assert LastN(a, n) == a[k..];
      assert LastN(a[k..] + b, n) == (a[k..] + b)[|b|..] by {
        if |b| == 0 {
          assert (a[k..] + b)[0..] == a[k..] + b;
        }
      }
      assert LastN(a + b, n) == (a + b)[k + |b|..];
      if |b| >= n {
        LongTailSuffix(a, b, k);
      } else {
        ShortTailSuffix(a, b, k);
      }
    }
  }

  /** Once `b` alone fills the window, only `b` contributes to it. */
  lemma LongTailSuffix<T>(a: seq<T>, b: seq<T>, k: nat)
    requires k <= |a| && |b| >= |a| - k
    ensures (a[k..] + b)[|b|..] == (a + b)[k + |b|..]
  {
    calc {
      (a[k..] + b)[|b|..];
    == { SuffixInRight(a[k..], b, |b|); }
      b[|b| - (|a| - k)..];
    == { SuffixInRight(a, b, k + |b|); }
      (a + b)[k + |b|..];
    }
  }

  /** While `b` is shorter than the window, the window starts inside `a`. */
  lemma ShortTailSuffix<T>(a: seq<T>, b: seq<T>, k: nat)
    requires k <= |a| && |b| < |a| - k
    ensures (a[k..] + b)[|b|..] == (a + b)[k + |b|..]
  {
    calc {
      (a[k..] + b)[|b|..];
    == { SuffixInLeft(a[k..], b, |b|); }
      a[k..][|b|..] + b;
    == { SuffixOfSuffix(a, k, |b|); }
      a[k + |b|..] + b;
    == { SuffixInLeft(a, b, k + |b|); }
      (a + b)[k + |b|..];
    }
  }

  lemma SuffixInRight<T>(a: seq<T>, b: seq<T>, j: nat)
    requires |a| <= j <= |a| + |b|
    ensures (a + b)[j..] == b[j - |a|..]
  {
  }

  lemma SuffixInLeft<T>(a: seq<T>, b: seq<T>, j: nat)
    requires j <= |a|
    ensures (a + b)[j..] == a[j..] + b
  {
  }

  lemma SuffixOfSuffix<T>(a: seq<T>, k: nat, j: nat)
    requires k + j <= |a|
    ensures a[k..][j..] == a[k + j..]
  {
  }

  /**
   * Whatever the samples, the history after feeding them is exactly the
   * `cap` most recent values of the whole stream, in arrival order.
   */
  lemma {:induction false} FeedKeepsLatest<T>(w: seq<T>, xs: seq<T>, cap: nat)
    requires |w| <= cap
    ensures Feed(w, xs, cap) == LastN(w + xs, cap)
    decreases |xs|
  {
    if |xs| > 0 {
      var w' := Push(w, xs[0], cap);
      FeedKeepsLatest(w', xs[1..], cap);
      LastNOfLastN(w + [xs[0]], xs[1..], cap);
      HeadTail(w, xs);
    }
  }

  lemma HeadTail<T>(w: seq<T>, xs: seq<T>)
    requires |xs| > 0
    ensures w + [xs[0]] + xs[1..] == w + xs
  {
    assert xs == [xs[0]] + xs[1..];
  }
}

=== FILE: wrappers.dfy ===
/** Failure-carrying wrappers shared by every module of the model. */
module Wrappers {

  /** A value that may be absent: JavaScript's `undefined`, Rust's `None`. */
  datatype Option<+T> = None | Some(value: T) {
    function GetOr(default: T): T {
      match this
      case Some(v) => v
      case None => default
    }
  }

  /** The outcome of an operation that can fail: a thrown error, a panic or an `Err`. */
  datatype Result<+T, +E> = Ok(value: T) | Err(error: E) {
    /** The value, or `default` when the operation failed. */
    function GetOr(default: T): T {
      match this
      case Ok(v) => v
      case Err(_) => default
    }
  }
}
